=== FILE: README.md ===
# typed_operation in Dafny

A model of the core of the Ruby gem `typed_operation`. The gem defines service
objects ("operations"): a class declares typed parameters with `param` and
implements `perform`; callers then construct and call it, partially apply it with
`with`/`[]`, or curry it one value at a time.

The model covers six parts of the gem:

- **Declaration DSL** (`PropertyBuilding`, `AttributeBuilding`, `Parameters`, `Schemas`).
  A declaration's signature is normalised in three steps:
  - the Nilable wrap for `optional: true`;
  - the union with `NilClass` for an explicit `default: nil`;
  - the positional-order check against the table as it stands.

  The descriptor is then registered in the class's ordered parameter table, a Hash
  keyed by name: a new name is appended, and a redeclared name keeps its place and
  takes the new descriptor. Classes with fields and `modifies` clauses model the
  builders and the operation class.
- **Introspection** (`Introspection`): the positional, keyword, required and
  optional name lists, as order-preserving filters over the table, with their
  partition and subsequence lemmas.
- **Construction and execution** (`Binding`, `Lifecycle`, `Executable`, `Callable`,
  `Deconstruct`, `BaseOperation`, `Instances`).
  - Construction binds the arguments and then runs `prepare`.
  - `call` runs `before_execute_operation`, then `perform`, then
    `after_execute_operation` on one instance, each step seeing the instance
    variables the previous one left; on an ImmutableBase it is Callable's raising
    default.
  - The class-level `call` is `new(...).call`.
  - `Instances.OperationInstance` performs these steps in place on an object that
    records a trace of the hooks entered. Each method is proved against the
    function that specifies its step.
- **Partial application** (`PartialApplication`, `Partial`).
  - Keyword arguments are merged with Ruby `Hash#merge` semantics (`OrderedHash`).
  - The result is classified as `PartiallyApplied` or `Prepared` by its missing
    required names.
  - `call`, `operation`, `deconstruct` and `deconstruct_keys` are modelled too.
- **Currying** (`Currying`). Each value goes to the next required slot: positional
  slots first, then required keywords in declaration order. The lemmas prove that
  N values fill N missing names and that the N-th value calls the operation with
  the completed application. This is proved for a table that keeps the
  positional-order rule (`Currying.InOrder`) and a partial that applies no
  positional parameter by keyword (`Currying.NoPositionalKeys`). Outside these
  conditions the curry can stall, or take one value too many.
- **Error taxonomy** (`Errors`): the gem's three error classes and Ruby's parents, as
  a class tree with `rescue` semantics.

Ruby hashes are insertion-ordered entry lists with distinct keys. "Required" means
one thing throughout: the stored default is nil (`Descriptors.IsRequired`). Argument
binding belongs to the Literal library, which is not part of this model.
`Binding.Bind` is a labelled reference definition of it, fixed by what the gem's
tests expect of it.

Where the library and its tests disagree, the model follows the library code as
written. It goes beyond that code only where the tests rely on behaviour this
version of the library lacks, in these members:
- positional partial application, which this version of partially_applied.rb does
  not have: `Partial.WithPositional`, the positional halves of `Partial.Operation`,
  `Partial.Call`, `Partial.Deconstruct` and `Partial.DeconstructKeys`,
  `Partial.ToProc` with `Partial.ToProcValue` and `Partial.MapOverPartial`,
  `PartialApplication.OperationWithPositional`, and `Currying.PartialCurry`. With no
  positional value each reduces to the keyword-only code
  (`Partial.WithPositionalExtendsWith`, `Partial.KeywordViewsAgree`);
- the corrected members of the findings below.

## Model

| member | source | states |
|---|---|---|
| Errors.Superclass | lib/typed_operation.rb:21-25 | StandardError is the only root; every other class's superclass sits one level higher in the tree |
| Errors.Taxonomy | lib/typed_operation.rb:21-25 | MissingParameterError is an ArgumentError, ParameterError a TypeError, InvalidOperationError a StandardError; none is caught by an unrelated Ruby parent, and every class is a StandardError |
| Errors.IsATransitive | lib/typed_operation.rb:21-25 | the subclass relation is transitive |
| Errors.IsAAntisymmetric | lib/typed_operation.rb:21-25 | two classes that inherit from each other are the same class |
| Signatures.UnionOfTwo | lib/typed_operation/operations/property_builder.rb:55-57 | `_Union(a, b)` accepts exactly the values one of a or b accepts |
| Signatures.NilClassMatchesNil | lib/typed_operation/operations/property_builder.rb:55-57 | NilClass accepts nil and no string or integer |
| PropertyBuilding.ValidatePositionalOrder | lib/typed_operation/operations/property_builder.rb:63-68 | the check passes iff the final signature is Nilable or the table has no optional positional parameter; a failure is a ParameterError |
| PropertyBuilding.PropertyBuilder.constructor | lib/typed_operation/operations/property_builder.rb:8-17 | the fields hold the declaration's options: reader defaults to public, the default-key flag is whether `default:` was given |
| PropertyBuilding.PropertyBuilder.PrepareTypeSignatureForLiteral | lib/typed_operation/operations/property_builder.rb:40-44 | the signature becomes the Nilable wrap followed by the nil-default union, and the positional check runs on that final signature only for a positional declaration |
| PropertyBuilding.PropertyBuilder.UnionWithNilToSupportNilDefault | lib/typed_operation/operations/property_builder.rb:55-57 | with an explicit nil default the new signature accepts nil |
| PropertyBuilding.PropertyBuilder.ValidatePositionalOrderParams | lib/typed_operation/operations/property_builder.rb:63-68 | the outcome is the order check against the operation's current table |
| PropertyBuilding.PropertyBuilder.Define | lib/typed_operation/operations/property_builder.rb:21-36 | exactly one descriptor is registered under the name (appended when new, replacing the old entry in place when redeclared), with kind positional iff `positional:` was truthy, the resolved default, the reader and the nil-skipping converter; names stay unique |
| PropertyBuilding.NewPropertyBuilder | lib/typed_operation/operations/property_builder.rb:8-19 | `new` either yields a builder whose signature is the prepared signature and whose fields reflect the options, or raises exactly the ParameterError the declaration raises |
| PropertyBuilding.NilableWrapNeverNests | lib/typed_operation/operations/property_builder.rb:40-53 | about `WrapNilable` and `NeedsToBeNilable` (`needs_to_be_nilable?`, `type_nilable?`): the wrapped signature accepts nil plus what the declared one accepts, and wrapping again changes nothing |
| PropertyBuilding.NilDefaultWidensSignature | lib/typed_operation/operations/property_builder.rb:55-61 | about `HasDefaultValueNil` (`has_default_value_nil?`): an explicit nil default makes the signature accept nil on top of what it accepted; no `default:` key, or a non-nil default, leaves it unchanged |
| PropertyBuilding.RequiredIffNoDefaultAndNotNilable | lib/typed_operation/operations/property_builder.rb:74-80 | a declared parameter is required iff it has no `default:`, is not `optional:` and its signature is not Nilable |
| PropertyBuilding.OmittedValueIsNilOrDefault | lib/typed_operation/operations/property_builder.rb:74-80 | about `DefaultValueForLiteral` (`default_value_for_literal`): the stored default produces nil when the parameter is Nilable or nil-defaulted, and is the given default otherwise |
| PropertyBuilding.ConverterSkipsNil | lib/typed_operation/operations/property_builder.rb:21-27 | for a Nilable signature the registered converter returns nil and Literal::Null unchanged and applies the block to every other value; otherwise the block is registered as given |
| PropertyBuilding.RequiredPositionalAfterOptionalRefused | lib/typed_operation/operations/property_builder.rb:63-68 | a required positional declared after an optional positional raises ParameterError |
| PropertyBuilding.NilablePositionalAccepted | lib/typed_operation/operations/property_builder.rb:63-68 | an `optional:` or Nilable positional declaration is accepted whatever the table holds |
| PropertyBuilding.DeclarationKeepsPositionalOrder | lib/typed_operation/operations/property_builder.rb:63-68 | every accepted declaration preserves the table invariant: no required positional after an optional one |
| PropertyBuilding.DefaultedPositionalAfterOptionalRefused | lib/typed_operation/operations/property_builder.rb:63-68 | the check is stricter than its comment: a positional with a non-nil or an explicit nil default is refused after an optional positional |
| PropertyBuilding.OptionalWithNilDefaultConvertsNil | lib/typed_operation/operations/property_builder.rb:21-27 | `optional: true` with `default: nil` gives a Union, not a Nilable, so the converter is registered unwrapped and runs on nil |
| AttributeBuilding.AttributeBuilder.constructor | lib/typed_operation/operations/attribute_builder.rb:7-16 | the fields hold the declaration's options, as in PropertyBuilder |
| AttributeBuilding.AttributeBuilder.PrepareTypeSignatureForLiteral | lib/typed_operation/operations/attribute_builder.rb:33-37 | the same three-step normalisation as PropertyBuilder |
| AttributeBuilding.AttributeBuilder.Define | lib/typed_operation/operations/attribute_builder.rb:20-29 | one descriptor is registered under the name through `attribute`, with the converter as given; names stay unique |
| AttributeBuilding.NewAttributeBuilder | lib/typed_operation/operations/attribute_builder.rb:7-18 | either a builder with the prepared signature or exactly the declaration's ParameterError |
| AttributeBuilding.DeclareAttribute | lib/typed_operation/operations/attribute_builder.rb:7-29 | the declared descriptor is registered under its name, or the table stays as it was when ParameterError is raised |
| AttributeBuilding.BuildersDifferOnlyInConverter | lib/typed_operation/operations/attribute_builder.rb:20-29 | both builders accept and refuse the same declarations and register the same descriptor except for the converter, which this one passes unwrapped |
| Schemas.WriterFor | lib/typed_operation/operations/parameters.rb:8-14 | writers are disabled iff the operation is not an ImmutableBase |
| Schemas.OperationClass.constructor | lib/typed_operation/base.rb:4-12 | a new operation class has an empty parameter table and is valid |
| Schemas.OperationClass.Prop | lib/typed_operation/operations/parameters.rb:8-14 | registers exactly one descriptor with the base's writer policy; names stay unique |
| Schemas.OperationClass.Attribute | lib/typed_operation/base.rb:15-17 | registers one descriptor with the writer forced off on Base |
| Schemas.Register | lib/typed_operation/operations/parameters.rb:8-14 | Hash assignment into the table: a new name is appended; a declared name keeps its place and its entry becomes the new descriptor, every other entry unchanged; names stay unique |
| Parameters.Param | lib/typed_operation/operations/parameters.rb:18-20 | the PropertyBuilder declaration is registered under its name, or the table stays unchanged on ParameterError; declaring a new name preserves the positional-order invariant |
| Parameters.PositionalParam | lib/typed_operation/operations/parameters.rb:25-27 | as `param`, with `positional: true` whatever the caller passed |
| Parameters.NamedParam | lib/typed_operation/operations/parameters.rb:30-32 | as `param`, with `positional: false` whatever the caller passed |
| Parameters.Optional | lib/typed_operation/operations/parameters.rb:35-37 | `optional(T)` accepts nil and what T accepts, and the builder does not wrap it again |
| Parameters.DeclareBody | lib/typed_operation/operations/parameters.rb:18-20 | a class body's declarations run in order: on success the table is the DeclareEach result; otherwise the first ParameterError is returned |
| Parameters.BodyAccepted | lib/typed_operation/operations/parameters.rb:18-20 | a body with distinct names that respects the order rule is accepted, and its views list the declared names in declaration order, by kind and by requiredness |
| Parameters.KeywordAndPositionalViews | lib/typed_operation/operations/parameters.rb:18-20 | the mixed class body has positional [pos1, pos2], required [pos1], keyword [kw1, kw2], required [kw1] |
| Parameters.PositionalViews | lib/typed_operation/operations/parameters.rb:18-20 | a required positional followed by an `optional:` positional is accepted, with the second listed as optional |
| Parameters.AlternativeDslViews | lib/typed_operation/operations/parameters.rb:25-32 | the alternative DSL body gives the same ordering and defaulting as `param`: pos1 and kw1 required, the rest optional |
| Parameters.OptionalThenRequiredRefused | lib/typed_operation/operations/property_builder.rb:63-68 | a required positional after an `optional:` one raises ParameterError |
| Parameters.NilableThenRequiredRefused | lib/typed_operation/operations/property_builder.rb:63-68 | `optional(T)`, then a Nilable type, then a plain positional: the third raises ParameterError |
| Parameters.NilablePrefixAccepted | lib/typed_operation/operations/property_builder.rb:63-68 | two Nilable positionals in a row are accepted, both optional |
| Parameters.RedeclarationCanBreakOrder | lib/typed_operation/operations/property_builder.rb:63-68 | the check sees only the table so far: redeclaring the first of two required positionals as Nilable is accepted, keeps both names in place, and leaves an optional positional before a required one |
| Introspection.ViewMembership | lib/typed_operation/operations/introspection.rb:7-35 | each view lists exactly the declared names of its kind, the required views those of required descriptors, the optional views the names of the kind that the required view lacks; `required_parameters` keeps exactly the required descriptors, in order |
| Introspection.PositionalKeywordPartition | lib/typed_operation/operations/introspection.rb:7-13 | positional and keyword names are each in declaration order, together are the declared names, and with unique names are disjoint |
| Introspection.RequiredViewsAreSubsequences | lib/typed_operation/operations/introspection.rb:21-27 | required positional names are a subsequence of the positional names; likewise for keywords |
| Introspection.OptionalPositionalSplit | lib/typed_operation/operations/introspection.rb:29-31 | a positional is listed as optional iff it has a default; required and optional positional names are disjoint and together are the positional names |
| Introspection.OptionalKeywordSplit | lib/typed_operation/operations/introspection.rb:33-35 | the keyword counterpart of the positional split |
| Introspection.RequiredPositionalPrefix | lib/typed_operation/operations/introspection.rb:21-23 | under the order rule the required positional names are a prefix of the positional names |
| Introspection.EmptyTableViews | lib/typed_operation/operations/introspection.rb:7-35 | an operation with no parameters has every view empty |
| Lists.Minus | lib/typed_operation/operations/introspection.rb:29-31 | Ruby `Array#-`: keeps, in order, exactly the elements not in the second list |
| OrderedHash.Merge | lib/typed_operation/partially_applied.rb:11 | Ruby `Hash#merge`: old keys keep their place, new keys are appended in order, the new value wins on a shared key |
| OrderedHash.Slice | lib/typed_operation/operations/deconstruct.rb:10-13 | Ruby `Hash#slice`: exactly the requested keys that are present, with their values, ordered by each key's first request |
| OrderedHash.MergeAssoc | lib/typed_operation/partially_applied.rb:11 | merging is associative, so applying in steps equals applying the merged arguments |
| Binding.Bind | test/typed_operation/base_test.rb:205-211 | reference for the Literal initializer: success iff no arity, missing, unknown or type problem; arity, missing and unknown raise ArgumentError, type mismatch TypeError; the attributes are the declared names in order, each the converted supplied value |
| Binding.DefaultsFill | test/typed_operation/base_test.rb:240-257 | an omitted optional parameter holds its converted default |
| Binding.MissingRequiredRaises | test/typed_operation/base_test.rb:318-320 | a required parameter given neither by position nor by name raises an ArgumentError |
| Lifecycle.AfterInitialization | lib/typed_operation/operations/lifecycle.rb:7-9 | attributes are untouched; without prepare nothing changes |
| Lifecycle.Construct | lib/typed_operation/operations/lifecycle.rb:7-9 | `new` succeeds iff binding does, with binding's attributes or its error, followed by the initialization hook |
| Lifecycle.PrepareStateVisible | lib/typed_operation/operations/lifecycle.rb:7-9 | what prepare leaves in the instance variables is visible once `new` returns |
| Lifecycle.MissingArgumentStopsConstruction | lib/typed_operation/operations/lifecycle.rb:7-9 | a missing required argument makes `new` raise ArgumentError before prepare runs |
| Executable.BeforeExecuteOperation | lib/typed_operation/operations/executable.rb:16-18 | the default does nothing; no hook changes attributes |
| Executable.Perform | lib/typed_operation/operations/executable.rb:24-26 | perform gives the instance it leaves, with the attributes unchanged, and a value or error; the default raises InvalidOperationError naming the class and leaves the instance as it was |
| Executable.AfterExecuteOperation | lib/typed_operation/operations/executable.rb:20-22 | the default returns perform's value and leaves the instance unchanged |
| Executable.ExecuteOperation | lib/typed_operation/operations/executable.rb:10-14 | the hooks run before, then perform on the instance before left; the run succeeds iff all three hooks run; an error is perform's and the instance keeps what perform wrote; a value is after's, run on the instance perform left and on perform's value |
| Executable.DefaultHooksGivePerformResult | lib/typed_operation/operations/executable.rb:13 | with the default before and after, the result and the instance a run leaves are perform's |
| Executable.MissingPerformRaises | lib/typed_operation/operations/executable.rb:24-26 | without perform, a call raises InvalidOperationError after entering before and perform only, leaving the instance as before left it; neither an ArgumentError nor a TypeError handler rescues it |
| Executable.RunAgain | lib/typed_operation/operations/executable.rb:6-14 | nothing records completion: a second call runs on the same attributes and enters before and perform again (and after whenever perform returns), with the same result when the values read attributes only |
| Callable.InstanceCall | lib/typed_operation/operations/callable.rb:22-24 | the instance call never changes attributes, and the error of a class without its own `call` is a StandardError |
| Callable.UserCallWins | lib/typed_operation/operations/callable.rb:22-24 | a class's own `call` overrides the default on either base: its value or error is the result, the instance keeps the instance variables it wrote, and only CallHook is entered |
| Callable.ExecutableCallWins | lib/typed_operation/base.rb:9-12 | on Base, with no user `call`, the instance call is `execute_operation` |
| Callable.ImmutableWithoutCallRaises | lib/typed_operation/operations/callable.rb:22-24 | on ImmutableBase, with no user `call`, it raises "You must implement #call" and runs no hook |
| Callable.ClassCall | lib/typed_operation/operations/callable.rb:11-13 | a construction error propagates before any hook runs; otherwise the result is the instance call on the new instance |
| Callable.ClassCallRunsLifecycle | lib/typed_operation/operations/callable.rb:11-13 | on Base, the class call is `execute_operation` on the initialized instance |
| Callable.ToProc | lib/typed_operation/operations/callable.rb:15-17 | the proc sends each value to the class-level call as its one positional argument |
| Callable.MapProc | lib/typed_operation/operations/callable.rb:15-17 | mapping gives each value's result in order, or an error some element raised |
| Callable.MapOverClass | lib/typed_operation/operations/callable.rb:15-17 | mapping a class over values constructs and calls it once per value, in order |
| Deconstruct.Deconstruct | lib/typed_operation/operations/deconstruct.rb:6-8 | the attribute values, one per attribute, in order |
| Deconstruct.DeconstructKeys | lib/typed_operation/operations/deconstruct.rb:10-13 | nil keys give the whole attribute hash; otherwise a key is present iff requested and an attribute, with the attribute's value |
| Deconstruct.KeysAndValuesAgree | lib/typed_operation/operations/deconstruct.rb:6-13 | the values of `deconstruct_keys(nil)`, in order, are `deconstruct` |
| Deconstruct.DeclarationOrder | lib/typed_operation/operations/deconstruct.rb:6-13 | on a constructed instance both views follow declaration order |
| Deconstruct.SliceByNames | lib/typed_operation/operations/deconstruct.rb:10-13 | non-attribute names are omitted from the slice; requested attribute names are present |
| BaseOperation.With | lib/typed_operation/base.rb:20-23 | the copy is full construction from the receiver's attributes merged with the overrides, so it is initialized again |
| BaseOperation.WithOverrides | lib/typed_operation/base.rb:20-23 | each attribute of the copy is the converted override when given, else the converted receiver value |
| BaseOperation.WithRejectsPositional | lib/typed_operation/base.rb:20-23 | an operation with a positional parameter cannot be copied: the name is passed as a keyword and construction raises ArgumentError |
| Instances.OperationInstance.constructor | lib/typed_operation/operations/lifecycle.rb:7-9 | the new object's state is the initialized state; the trace records prepare iff the class defines it |
| Instances.OperationInstance.AfterInitialization | lib/typed_operation/operations/lifecycle.rb:7-9 | the state becomes the specified one; the trace gains prepare iff defined |
| Instances.OperationInstance.BeforeExecuteOperation | lib/typed_operation/operations/executable.rb:16-18 | the state becomes the specified one; the trace gains BeforeHook |
| Instances.OperationInstance.Perform | lib/typed_operation/operations/executable.rb:24-26 | in place: the object's instance variables become those perform leaves and the result is perform's; the trace gains PerformHook |
| Instances.OperationInstance.AfterExecuteOperation | lib/typed_operation/operations/executable.rb:20-22 | state and value are the specified ones; the trace gains AfterHook |
| Instances.OperationInstance.ExecuteOperation | lib/typed_operation/operations/executable.rb:10-14 | in place on one object, so after sees what perform wrote: the result, the new state and the hooks appended to the trace are those of the `execute_operation` function |
| Instances.OperationInstance.Call | lib/typed_operation/operations/executable.rb:6-8 | in place, the result, state and trace are those of the instance call |
| Instances.OperationInstance.With | lib/typed_operation/base.rb:20-23 | a fresh object built as `BaseOperation.With` specifies; the receiver is unchanged |
| Instances.New | lib/typed_operation/operations/callable.rb:11-13 | a fresh instance iff construction succeeds, in the constructed state, having run prepare if defined; otherwise construction's error |
| Instances.CallClass | lib/typed_operation/operations/callable.rb:11-13 | constructing an object and calling it gives exactly the class-level call |
| PartialApplication.OperationWith | lib/typed_operation/operations/partial_application.rb:6-9 | `with`/`[]` is already classified, and is Prepared iff every required name is given |
| PartialApplication.OperationWithPositional | lib/typed_operation/operations/partial_application.rb:6-9 | positional extension: too many positional values raise ArgumentError; otherwise the classified application; with none it is `with` |
| PartialApplication.NothingRequiredIsPrepared | lib/typed_operation/operations/partial_application.rb:6-8 | with no required parameter, `with` is Prepared |
| PartialApplication.FooBarBaz | test/typed_operation/base_test.rb:283-291 | foo then bar and baz is Prepared; foo then bar alone, or `[]` with foo alone, is PartiallyApplied |
| Partial.Missing | lib/typed_operation/partially_applied.rb:17 | a name is missing iff it is required and neither bound by position nor among the keys |
| Partial.Classify | lib/typed_operation/partially_applied.rb:17-24 | Prepared iff nothing required is missing; the arguments are kept |
| Partial.New | lib/typed_operation/partially_applied.rb:5-8 | stores the class and the arguments unclassified |
| Partial.With | lib/typed_operation/partially_applied.rb:10-27 | the merged keys are the old ones then the new ones; a given value wins, others are kept; Prepared iff every required name is bound |
| Partial.WithPositional | lib/typed_operation/partially_applied.rb:10-27 | positional extension: ArgumentError iff too many positional values; otherwise positional values are appended and the keywords merge as in `with` |
| Partial.WithPositionalExtendsWith | lib/typed_operation/partially_applied.rb:10-27 | with no positional values the extension is `with` |
| Partial.WithTwice | lib/typed_operation/partially_applied.rb:10-27 | `with(a).with(b)` equals `with(a.merge(b))` |
| Partial.MissingNeverGrows | lib/typed_operation/partially_applied.rb:11-24 | `with` never makes a name missing, so a Prepared application stays Prepared |
| Partial.ApplyNothing | lib/typed_operation/partially_applied.rb:10-27 | applying nothing to a classified application returns it unchanged |
| Partial.OperationAsWritten | lib/typed_operation/prepared.rb:5-7 | a Prepared application constructs from exactly its keyword arguments; a PartiallyApplied one raises NoMethodError |
| Partial.Operation | lib/typed_operation/prepared.rb:5-7 | corrected: Prepared constructs from exactly its arguments; PartiallyApplied raises MissingParameterError |
| Partial.CallAsWritten | lib/typed_operation/partially_applied.rb:29-33 | a Prepared merge is called; otherwise, without `operation_key`, NoMethodError |
| Partial.Call | lib/typed_operation/partially_applied.rb:29-33 | corrected: too many positional values raise ArgumentError; a Prepared merge is constructed and called; otherwise MissingParameterError |
| Partial.MissingMessage | lib/typed_operation/partially_applied.rb:32 | the message names the operation, then its key when the class defines one, and asks whether it was expected to be Prepared |
| Partial.MissingRaisesArgumentError | lib/typed_operation/partially_applied.rb:29-33 | a call that leaves a name missing raises MissingParameterError, which an ArgumentError handler rescues |
| Partial.CallAfterWith | lib/typed_operation/prepared.rb:4-7 | `with(a).with(b).call`, once Prepared, is the class-level call with `a.merge(b)` |
| Partial.ToProc | test/typed_operation/base_test.rb:179-187 | positional extension: the proc applies each value as the next positional argument and calls |
| Partial.ToProcValue | test/typed_operation/base_test.rb:179-187 | positional extension: on one value the proc raises ArgumentError when no positional slot is left, calls the operation with the partial's positional values and that value when the result is Prepared, and raises MissingParameterError otherwise |
| Partial.MapOverPartial | test/typed_operation/base_test.rb:179-187 | positional extension: mapping a partial over values calls the operation once per value, in order, with the partial's positional values and that value; it succeeds when every such call does; otherwise the first value raises ArgumentError or MissingParameterError |
| Partial.Deconstruct | lib/typed_operation/partially_applied.rb:35-37 | the positional values, then the keyword values in insertion order |
| Partial.DeconstructKeys | lib/typed_operation/partially_applied.rb:39-41 | a copy of the applied arguments, positional ones under their parameter names, whatever the keys |
| Partial.DeconstructKeysIgnoresKeys | lib/typed_operation/partially_applied.rb:39-41 | any two key requests give the same answer |
| Partial.KeywordViewsAgree | lib/typed_operation/partially_applied.rb:35-41 | for a keyword-only application, the values of `deconstruct_keys` are `deconstruct` |
| Partial.CallWithoutOperationKey | lib/typed_operation/partially_applied.rb:32 | counterexample: foo alone, no `operation_key`; as written NoMethodError, which ArgumentError does not rescue; corrected MissingParameterError |
| Partial.OperationOnPartiallyApplied | lib/typed_operation/prepared.rb:5-7 | counterexample: `operation` on a PartiallyApplied gives NoMethodError as written, MissingParameterError corrected |
| Currying.NewCurried | lib/typed_operation/curried.rb:5-8 | without a partial, the partial is `operation_class.with`, Prepared iff nothing is required |
| Currying.OperationCurry | lib/typed_operation/operations/partial_application.rb:11-13 | class-level `curry` wraps the class's classified empty application |
| Currying.PartialCurry | test/typed_operation/base_test.rb:420-425 | positional extension: `curry` on a partial application wraps it |
| Currying.NextKeywordParameter | lib/typed_operation/curried.rb:32-35 | None iff every required keyword is applied; otherwise the first unapplied required keyword, in declaration order |
| Currying.Apply | lib/typed_operation/curried.rb:14-18 | for any declared table: by position while required positional slots remain, else under the next required keyword; with neither left, nothing missing is filled |
| Currying.Call | lib/typed_operation/curried.rb:10-24 | corrected, for any declared table: a Prepared partial raises ArgumentError; a further Curried keeps the invariants and is not Prepared; a Prepared application's value is the call's |
| Currying.StallsWithoutNextSlot | lib/typed_operation/curried.rb:14-23 | when a name is missing but neither a required positional slot nor a required keyword is left, the table breaks the order rule and each value returns the same Curried |
| Currying.CallAsWritten | lib/typed_operation/curried.rb:10-24 | as written every call raises NoMethodError, because `prepared?` is undefined |
| Currying.PreparedIffNothingMissing | lib/typed_operation/curried.rb:19-23 | under the invariant, the partial is Prepared iff nothing is missing |
| Currying.NextPositionalIffRequiredUnbound | lib/typed_operation/curried.rb:37-39 | on a table in order, `next_parameter_positional?` holds iff some required positional parameter is not yet filled by position |
| Currying.PositionalKeyWastesValue | lib/typed_operation/curried.rb:14-15 | when the next positional slot belongs to a parameter already applied by keyword, the value still goes there by position and the missing names stay the same |
| Currying.PositionalStep | lib/typed_operation/curried.rb:37-39 | the next value by position fills a required positional not yet filled |
| Currying.KeywordStep | lib/typed_operation/curried.rb:32-35 | a value under the next required keyword adds just that name |
| Currying.ApplyStep | lib/typed_operation/curried.rb:14-18 | a value fills one more slot: the invariant is kept, one name fewer is missing, and the result is Prepared iff it filled the last one |
| Currying.CallStep | lib/typed_operation/curried.rb:10-24 | each value either removes exactly one missing name and keeps the invariant, or, on the last one, calls the operation with the now Prepared application |
| Currying.Completed | lib/typed_operation/curried.rb:10-24 | the application built by applying the values in turn keeps the class and stays classified, and is Prepared iff every missing name was filled |
| Currying.FeedReachesCall | lib/typed_operation/curried.rb:10-24 | as many values as missing names give exactly the class-level call with the completed application |
| Currying.FeedInvokesOnLast | test/typed_operation/base_test.rb:408-418 | with N names missing, each of the first N-1 values gives a Curried, and the N-th calls the operation with the completed, Prepared application |
| Currying.FeedAfterNext | lib/typed_operation/curried.rb:19-23 | after a value that gives a Curried, feeding continues from it, the old one unchanged |
| Currying.CurryOfOneRequired | test/typed_operation/base_test.rb:408-411 | counterexample: one required positional; as written NoMethodError, corrected it calls with that value |
| Currying.CurryAfterPartial | test/typed_operation/base_test.rb:420-425 | after a partial `with`, the curry fills pos2, then kw1, then calls with everything applied |

## Left out

- The Literal library (`Literal::Struct`, `Literal::Data`, `prop`, `attribute`,
  type checks, freezing) is not part of this model. `Binding.Bind` is a reference
  definition of binding, fixed by the gem's tests. It is not derived from the
  library.
- Hooks are functions from the instance state to the instance variables they leave
  (and, for `perform` and a user-defined `call`, a value or error). `prepare`,
  `before_execute_operation` and `after_execute_operation` cannot raise; Ruby code
  that changes other objects, or the attributes, is not modelled.
- Currying.PositionalStep, Currying.KeywordStep, Currying.ApplyStep,
  Currying.CallStep, Currying.Completed, Currying.FeedReachesCall,
  Currying.FeedInvokesOnLast and Currying.NextPositionalIffRequiredUnbound hold for
  a table that keeps the positional-order rule (`Currying.InOrder`). After a
  redeclaration broke it, curried.rb:17 applies the value under a nil key. The model
  keeps the partial as it was instead of storing that entry, and
  `Currying.StallsWithoutNextSlot` shows the curry then never completes.
- Currying.PositionalStep, Currying.KeywordStep, Currying.PositionalShrinks,
  Currying.KeywordShrinks, Currying.ApplyStep, Currying.CallStep, Currying.Completed,
  Currying.FeedReachesCall and Currying.FeedInvokesOnLast also require
  `Currying.NoPositionalKeys`: no applied keyword names a positional parameter.
  Keyword-only `with` (partially_applied.rb:10-11) can apply one, as in
  `with(pos1: v).curry`. The next value still goes by position to that parameter's
  slot and fills no missing name (`Currying.PositionalKeyWastesValue`), so the curry
  takes one value more than there are names missing. The class call it ends with
  passes the parameter both by position and by keyword; `Binding.Bind` treats such
  a keyword as unknown and raises ArgumentError.
- Parameters.Param, Parameters.PositionalParam and Parameters.NamedParam promise the
  positional-order invariant only when the name is new. A redeclaration replaces the
  entry in place (`Schemas.Register`) and can break the invariant
  (`Parameters.RedeclarationCanBreakOrder`). PropertyBuilding.PropertyBuilder.Define,
  AttributeBuilding.AttributeBuilder.Define, AttributeBuilding.DeclareAttribute,
  Schemas.OperationClass.Prop, Schemas.OperationClass.Attribute and
  Parameters.DeclareBody accept any name. Of Literal's redefinition behaviour only the
  Hash assignment into its table is modelled; readers and writers are not.
- Parameters.BodyAccepted and the suite's class bodies built on it are about bodies
  with distinct names; for a repeated name, `Schemas.Register` and
  `Parameters.DeclareEach` state the outcome.
- Parameters.DeclareBody: on a ParameterError its contract states the error only, not
  the table the earlier declarations of the body left behind.
- Curried#to_proc and the instance `to_proc` are not modelled: they are Ruby
  method-object glue. The class-level `to_proc` is `Callable.ToProc`.
- ImmutableBase's frozenness comes from Literal::Data. Only its composition is
  modelled: no writers, and no Executable.
- `action_policy_auth.rb`, `nilable_type.rb`, the generators, the Railtie and the
  version constant are outside the operation core.
- Partial.DeconstructKeys: follows partially_applied.rb:39-41 as written and
  ignores the requested keys. The suite (base_test.rb:333) expects slicing, which
  this library version does not do.
- Partial.With: required names come from "stored default is nil", the same test as
  introspection.rb:15-19. The `attribute_metadata` lookup (partially_applied.rb:13-16)
  belongs to an older Literal API that is not part of this model.
- Partial.WithPositional, PartialApplication.OperationWithPositional, Partial.Operation,
  Partial.Call, Partial.Deconstruct, Partial.DeconstructKeys, Partial.ToProc,
  Partial.ToProcValue and Partial.MapOverPartial: positional partial application is
  not in this version of partially_applied.rb. It is modelled so that Curried and
  the suite's positional cases have a meaning. With no positional value it reduces
  to the keyword-only code.
- Partial.ToProc: PartiallyApplied defines no `to_proc` in this version. The proc is
  what the suite expects of `values.map(&partial)` (base_test.rb:179-187).
- Currying.PartialCurry: in partially_applied.rb:10 and 26-27, `curry` on a partial
  application is the keyword merge that `with` and `[]` alias, modelled as
  `Partial.With`, and returns a PartiallyApplied or Prepared. The suite
  (base_test.rb:420-425) expects `partially_applied.curry` to return a Curried over
  the partial. `Currying.PartialCurry` is that expectation. It is an extension, not
  the library's `curry`.
- BaseOperation.With: as written, the copy passes every attribute by keyword, so an
  operation with positional parameters cannot be copied (`WithRejectsPositional`).
- Messages of errors raised inside Literal are not modelled; only their classes
  are.
- There is no I/O, clock or randomness in the core. Values are nil, Literal::Null,
  integers, strings and other objects known by their class ancestry. Ruby's object
  identity is not modelled.

## Findings

| source | as written | input that shows it | evidently intended | confidence | as-written member | corrected member |
|---|---|---|---|---|---|---|
| lib/typed_operation/partially_applied.rb:32 | the MissingParameterError message calls `@operation.operation_key`, a method the gem never defines | `call` on an operation requiring foo, bar, baz with only foo applied, when the class defines no `operation_key` (base_test.rb:308-320) | raise MissingParameterError, which an ArgumentError handler rescues | not executed | Partial.CallAsWritten, Partial.CallWithoutOperationKey | Partial.Call |
| lib/typed_operation/prepared.rb:5-7 | only Prepared defines `operation` | `operation` on the PartiallyApplied with only foo applied (base_test.rb:304-306) | raise MissingParameterError | not executed | Partial.OperationAsWritten, Partial.OperationOnPartiallyApplied | Partial.Operation |
| lib/typed_operation/curried.rb:11 | `call` asks the partial `prepared?`, and lines 33 and 38 ask it for `keyword_args` and `positional_args`; PartiallyApplied defines none of them, and line 15 passes a positional value to its keyword-only `with` | `Curried#call(v)` on the curry of an operation with one required positional (base_test.rb:408-411) | route the value to the next slot and call once Prepared | not executed | Currying.CallAsWritten, Currying.CurryOfOneRequired | Currying.Call |

=== FILE: attribute_builder.dfy ===
/**
 * The older declaration builder (lib/typed_operation/operations/attribute_builder.rb).
 * It runs the same normalisation pipeline as PropertyBuilder (the pure steps are
 * shared from PropertyBuilding) but registers through `attribute` and hands the
 * converter over as given, even for a Nilable signature.
 */
module AttributeBuilding {
  import opened Wrappers
  import opened RubyValues
  import opened Errors
  import opened Signatures
  import opened Descriptors
  import opened Introspection
  import opened Schemas
  import opened PropertyBuilding

  /** The whole outcome of declaring through this builder. */
  function AttributeDeclaration(ps: seq<Param>, name: string, sig: Signature, options: Options,
                                converter: Option<Value -> Value>, writer: Writer): Result<Param, Error>
  {
    var final := PreparedSignature(sig, options);
    var check := if options.positional then ValidatePositionalOrder(ps, name, final) else Pass;
    match check
    case Fail(e) => Err(e)
    case Pass => Ok(Descriptor(name, sig, options, converter, writer))
  }

  class AttributeBuilder {
    const typedOperation: OperationClass
    const name: string
    var signature: Signature
    const optional: bool
    const positional: bool
    const reader: Visibility
    const defaultKey: bool
    const default: DefaultValue

    constructor (typedOperation: OperationClass, name: string, signature: Signature, options: Options)
      ensures this.typedOperation == typedOperation && this.name == name && this.signature == signature
      ensures optional == options.optional && positional == options.positional
      ensures reader == options.reader.GetOr(Public)
      ensures defaultKey == options.default.Some? && default == options.default.GetOr(NoDefault)
    {
      this.typedOperation := typedOperation;
      this.name := name;
      this.signature := signature;
      optional := options.optional;
      positional := options.positional;
      reader := options.reader.GetOr(Public);
      defaultKey := options.default.Some?;
      default := options.default.GetOr(NoDefault);
    }

    method PrepareTypeSignatureForLiteral() returns (r: Outcome<Error>)
      modifies this`signature
      ensures signature == UnionWithNil(WrapNilable(old(signature), optional), defaultKey, default)
      ensures r == if positional then ValidatePositionalOrder(typedOperation.params, name, signature) else Pass
    {
      if NeedsToBeNilable(signature, optional) {
        signature := Nilable(signature);
      }
      if HasDefaultValueNil(defaultKey, default) {
        signature := Union([signature, NilClass]);
      }
      r := Pass;
      if positional {
        r := ValidatePositionalOrder(typedOperation.params, name, signature);
      }
    }

    /** Registers through `attribute`, passing the converter through unchanged. */
    method Define(converter: Option<Value -> Value>)
      requires typedOperation.Valid()
      modifies typedOperation`params
      ensures typedOperation.Valid()
      ensures typedOperation.params == Register(old(typedOperation.params),
        Param(name, signature, if positional then Positional else Keyword,
              DefaultValueForLiteral(signature, defaultKey, default), reader,
              WriterFor(typedOperation.base), converter))
    {
      typedOperation.Attribute(name, signature, positional,
                               DefaultValueForLiteral(signature, defaultKey, default), reader, converter);
    }
  }

  /** `AttributeBuilder.new`: records the declaration and prepares its signature, raising if the check fails. */
  method NewAttributeBuilder(typedOperation: OperationClass, name: string, signature: Signature, options: Options)
    returns (r: Result<AttributeBuilder, Error>)
    ensures r.Ok? ==> fresh(r.value)
    ensures r.Ok? ==> r.value.typedOperation == typedOperation && r.value.name == name
    ensures r.Ok? ==> r.value.signature == PreparedSignature(signature, options)
    ensures r.Ok? ==> r.value.positional == options.positional
    ensures r.Ok? ==> r.value.reader == options.reader.GetOr(Public)
    ensures r.Ok? ==> r.value.defaultKey == options.default.Some?
    ensures r.Ok? ==> r.value.default == options.default.GetOr(NoDefault)
    ensures r.Err? <==> AttributeDeclaration(typedOperation.params, name, signature, options, None, NoWriter).Err?
    ensures r.Err? ==> r.error == AttributeDeclaration(typedOperation.params, name, signature, options, None, NoWriter).error
    ensures r.Err? ==> r.error.cls == ParameterError
  {
    var b := new AttributeBuilder(typedOperation, name, signature, options);
    var check := b.PrepareTypeSignatureForLiteral();
    match check
    case Fail(e) => r := Err(e);
    case Pass => r := Ok(b);
  }

  /** Declaring through `attribute`, with an AttributeBuilder, and what it leaves in the table. */
  method DeclareAttribute(op: OperationClass, name: string, signature: Signature, options: Options,
                          converter: Option<Value -> Value>) returns (r: Outcome<Error>)
    requires op.Valid()
    modifies op`params
    ensures op.Valid()
    ensures var d := AttributeDeclaration(old(op.params), name, signature, options, converter, WriterFor(op.base));
            (r.Pass? <==> d.Ok?) &&
            (d.Ok? ==> op.params == Register(old(op.params), d.value)) &&
            (d.Err? ==> op.params == old(op.params) && r == Fail(d.error))
  {
    var b := NewAttributeBuilder(op, name, signature, options);
    match b
    case Err(e) =>
      r := Fail(e);
    case Ok(builder) =>
      builder.Define(converter);
      r := Pass;
  }

  /**
   * The two builders agree on everything but the converter: the descriptor this
   * one registers keeps the block as given, where PropertyBuilder's wraps it for a
   * Nilable signature.
   */
  lemma BuildersDifferOnlyInConverter(ps: seq<Param>, name: string, sig: Signature, options: Options,
                                      converter: Option<Value -> Value>, writer: Writer)
    ensures AttributeDeclaration(ps, name, sig, options, converter, writer).Ok? <==>
            Declaration(ps, name, sig, options, converter, writer).Ok?
    ensures AttributeDeclaration(ps, name, sig, options, converter, writer).Ok? ==>
            AttributeDeclaration(ps, name, sig, options, converter, writer).value ==
            Declaration(ps, name, sig, options, converter, writer).value.(coerce := converter)
    ensures AttributeDeclaration(ps, name, sig, options, converter, writer).Ok? ==>
            AttributeDeclaration(ps, name, sig, options, converter, writer).value.coerce == converter
  {
  }
}

=== FILE: base.dfy ===
/**
 * The instance `with` of a Base operation (lib/typed_operation/base.rb:20-23): a new
 * instance of the same class built from the receiver's attributes merged with the
 * given ones, through full construction. The receiver is a value here, so it cannot
 * change; `Instances.OperationInstance.With` shows the same on objects.
 */
module BaseOperation {
  import opened Wrappers
  import opened RubyValues
  import opened Errors
  import opened Lists
  import opened OrderedHash
  import opened Descriptors
  import opened Introspection
  import opened Binding
  import opened Lifecycle

  /** `self.class.new(**attributes.merge(overrides))`: every attribute is passed back by keyword. */
  function With(s: Schema, st: InstanceState, overrides: Hash): (r: Result<InstanceState, Error>)
    requires UniqueNames(s.params)
    ensures r == Construct(s, [], Merge(st.attributes, overrides))
    ensures r.Ok? ==> r.value == Initialized(s, r.value.attributes)
  {
    Construct(s, [], Merge(st.attributes, overrides))
  }

  /**
   * The copy of an instance of a keyword-only operation holds, for each attribute, the
   * given value when one is given and the receiver's value otherwise, each passed
   * through the attribute's converter again.
   */
  lemma WithOverrides(s: Schema, st: InstanceState, overrides: Hash)
    requires UniqueNames(s.params) && With(s, st, overrides).Ok?
    ensures var copy := With(s, st, overrides).value;
      Keys(copy.attributes) == Names(s.params) &&
      forall i :: 0 <= i < |s.params| ==>
        (HasKey(overrides, s.params[i].name) ==>
          copy.attributes[i].1 == Coerce(s.params[i], Get(overrides, s.params[i].name))) &&
        (!HasKey(overrides, s.params[i].name) && HasKey(st.attributes, s.params[i].name) ==>
          copy.attributes[i].1 == Coerce(s.params[i], Get(st.attributes, s.params[i].name)))
  {
    var copy := With(s, st, overrides).value;
    forall i | 0 <= i < |s.params|
      ensures HasKey(overrides, s.params[i].name) ==>
          copy.attributes[i].1 == Coerce(s.params[i], Get(overrides, s.params[i].name))
      ensures !HasKey(overrides, s.params[i].name) && HasKey(st.attributes, s.params[i].name) ==>
          copy.attributes[i].1 == Coerce(s.params[i], Get(st.attributes, s.params[i].name))
    {
      CopiedAttribute(s, st, overrides, i);
    }
  }

  /** The i-th attribute of the copy is the converted merged value under its name. */
  lemma CopiedAttribute(s: Schema, st: InstanceState, overrides: Hash, i: nat)
    requires UniqueNames(s.params) && With(s, st, overrides).Ok? && i < |s.params|
    ensures var merged := Merge(st.attributes, overrides);
      HasKey(merged, s.params[i].name) ==>
        With(s, st, overrides).value.attributes[i].1 == Coerce(s.params[i], Get(merged, s.params[i].name))
  {
    var merged := Merge(st.attributes, overrides);
    var n := s.params[i].name;
    if HasKey(merged, n) {
      assert n in KeywordParameters(s.params);
      InFilterMapNames(s.params, IsKeyword, n);
      var k :| 0 <= k < |s.params| && IsKeyword(s.params[k]) && s.params[k].name == n;
      SameName(s.params, i, k);
    }
  }

  /**
   * An operation with a positional parameter cannot be copied with `with`: its name is
   * passed as a keyword, which construction rejects with ArgumentError.
   */
  lemma WithRejectsPositional(s: Schema, st: InstanceState, overrides: Hash, i: nat)
    requires UniqueNames(s.params) && i < |s.params| && IsPositional(s.params[i])
    requires Keys(st.attributes) == Names(s.params)
    ensures With(s, st, overrides).Err?
    ensures Rescues(ArgumentError, With(s, st, overrides).error)
  {
    var merged := Merge(st.attributes, overrides);
    var n := s.params[i].name;
    assert n in Keys(st.attributes);
    assert HasKey(merged, n);
    var j :| 0 <= j < |merged| && Keys(merged)[j] == n;
    assert n !in KeywordParameters(s.params) by {
      InFilterMapNames(s.params, IsPositional, n);
      PositionalKeywordPartition(s.params);
    }
    assert SomeUnknown(s.params, merged);
  }
}

=== FILE: binding.dfy ===
/**
 * Building an instance's attributes from call arguments.
 *
 * In the gem this is the generated initializer of Literal::Struct / Literal::Data
 * (the Literal library), which is not part of this model. `Bind` is a reference
 * definition of what that initializer does, fixed by the behaviour the gem's own
 * tests expect of it: too many positional arguments, a missing required argument or
 * an unknown keyword raise ArgumentError; a value that does not satisfy its
 * signature after conversion raises TypeError; omitted optional parameters take
 * their default. Positional parameters are bound by position only and keyword
 * parameters by name only.
 */
module Binding {
  import opened Wrappers
  import opened RubyValues
  import opened Errors
  import opened OrderedHash
  import opened Signatures
  import opened Descriptors
  import opened Introspection

  /** The index of ps[i]'s slot among the positional arguments. */
  function PositionalSlot(ps: seq<Param>, i: nat): nat
    requires i <= |ps|
  {
    |PositionalParameters(ps[..i])|
  }

  /** The value a default yields: the value itself, or what the proc returns. */
  function Produce(d: DefaultValue): Value
  {
    d.v
  }

  /**
   * The value ps[i] receives before conversion: its positional argument, its
   * keyword argument, or its default; None when it is required and not given.
   */
  function Supplied(ps: seq<Param>, i: nat, positional: seq<Value>, kw: Hash): Option<Value>
    requires i < |ps|
  {
    var p := ps[i];
    if IsPositional(p) && PositionalSlot(ps, i) < |positional| then Some(positional[PositionalSlot(ps, i)])
    else if IsKeyword(p) && HasKey(kw, p.name) then Some(Get(kw, p.name))
    else if IsRequired(p) then None
    else Some(Produce(p.default))
  }

  /** The parameter's converter applied to v, if it has one. */
  function Coerce(p: Param, v: Value): Value
  {
    match p.coerce
    case None => v
    case Some(f) => f(v)
  }

  predicate TooManyPositional(ps: seq<Param>, positional: seq<Value>)
  {
    |positional| > |PositionalParameters(ps)|
  }

  predicate SomeMissing(ps: seq<Param>, positional: seq<Value>, kw: Hash)
  {
    exists i :: 0 <= i < |ps| && Supplied(ps, i, positional, kw).None?
  }

  predicate SomeUnknown(ps: seq<Param>, kw: Hash)
  {
    exists j :: 0 <= j < |kw| && kw[j].0 !in KeywordParameters(ps)
  }

  /** Some supplied value fails its signature once converted. */
  predicate SomeMismatch(ps: seq<Param>, positional: seq<Value>, kw: Hash)
  {
    exists i :: 0 <= i < |ps| && Supplied(ps, i, positional, kw).Some? &&
      !Matches(ps[i].signature, Coerce(ps[i], Supplied(ps, i, positional, kw).value))
  }

  /** The attributes of a new instance, in declaration order, or the error construction raises. */
  function Bind(ps: seq<Param>, positional: seq<Value>, kw: Hash): (r: Result<Hash, Error>)
    requires UniqueNames(ps)
    ensures r.Ok? <==>
      !TooManyPositional(ps, positional) && !SomeMissing(ps, positional, kw) &&
      !SomeUnknown(ps, kw) && !SomeMismatch(ps, positional, kw)
    ensures r.Err? && (TooManyPositional(ps, positional) || SomeMissing(ps, positional, kw) || SomeUnknown(ps, kw))
      ==> r.error.cls == ArgumentError
    ensures r.Err? && r.error.cls != ArgumentError ==> r.error.cls == TypeError
    ensures r.Ok? ==> Keys(r.value) == Names(ps)
    ensures r.Ok? ==> forall i :: 0 <= i < |ps| ==>
      Supplied(ps, i, positional, kw).Some? &&
      r.value[i].1 == Coerce(ps[i], Supplied(ps, i, positional, kw).value) &&
      Matches(ps[i].signature, r.value[i].1)
  {
    if TooManyPositional(ps, positional) then
      Err(Error(ArgumentError, "wrong number of arguments"))
    else if SomeMissing(ps, positional, kw) then
      Err(Error(ArgumentError, "missing argument"))
    else if SomeUnknown(ps, kw) then
      Err(Error(ArgumentError, "unknown keyword"))
    else
      match BindFrom(ps, 0, positional, kw)
      case Err(e) => Err(e)
      case Ok(entries) =>
        assert Keys(entries) == Names(ps);
        Ok(entries)
  }

  /** Converts and checks ps[i..] in order; the first value that fails its signature raises TypeError. */
  function BindFrom(ps: seq<Param>, i: nat, positional: seq<Value>, kw: Hash): (r: Result<seq<Entry>, Error>)
    requires i <= |ps|
    requires forall j :: i <= j < |ps| ==> Supplied(ps, j, positional, kw).Some?
    ensures r.Ok? <==> forall j :: i <= j < |ps| ==>
      Matches(ps[j].signature, Coerce(ps[j], Supplied(ps, j, positional, kw).value))
    ensures r.Err? ==> r.error.cls == TypeError
    ensures r.Ok? ==> |r.value| == |ps| - i && forall j :: i <= j < |ps| ==>
      r.value[j - i] == (ps[j].name, Coerce(ps[j], Supplied(ps, j, positional, kw).value))
    decreases |ps| - i
  {
    if i == |ps| then Ok([])
    else
      var v := Coerce(ps[i], Supplied(ps, i, positional, kw).value);
      if !Matches(ps[i].signature, v) then
        Err(Error(TypeError, "wrong type for " + ps[i].name))
      else
        match BindFrom(ps, i + 1, positional, kw)
        case Err(e) => Err(e)
        case Ok(rest) => Ok([(ps[i].name, v)] + rest)
  }

  /** An omitted optional parameter holds its (converted) default once construction succeeds. */
  lemma DefaultsFill(ps: seq<Param>, positional: seq<Value>, kw: Hash, i: nat)
    requires UniqueNames(ps) && i < |ps| && !IsRequired(ps[i])
    requires IsPositional(ps[i]) ==> PositionalSlot(ps, i) >= |positional|
    requires IsKeyword(ps[i]) ==> !HasKey(kw, ps[i].name)
    requires Bind(ps, positional, kw).Ok?
    ensures Bind(ps, positional, kw).value[i] == (ps[i].name, Coerce(ps[i], Produce(ps[i].default)))
  {
  }

  /** A required parameter given neither by position nor by name makes construction raise ArgumentError. */
  lemma MissingRequiredRaises(ps: seq<Param>, positional: seq<Value>, kw: Hash, i: nat)
    requires UniqueNames(ps) && i < |ps| && IsRequired(ps[i])
    requires IsPositional(ps[i]) ==> PositionalSlot(ps, i) >= |positional|
    requires IsKeyword(ps[i]) ==> !HasKey(kw, ps[i].name)
    ensures Bind(ps, positional, kw).Err?
    ensures Rescues(ArgumentError, Bind(ps, positional, kw).error)
  {
    assert Supplied(ps, i, positional, kw).None?;
  }
}

=== FILE: callable.dfy ===
/**
 * Invocation entry points (lib/typed_operation/operations/callable.rb and the module
 * composition of lib/typed_operation/base.rb): the class-level `call(...)` is
 * `new(...).call`, the class-level `to_proc` calls it, and the instance `call` is the
 * user's own `call` when defined, otherwise Executable's `call` for a Base operation
 * (Executable is included after Callable) and Callable's raising default for an
 * ImmutableBase one, which does not include Executable.
 */
module Callable {
  import opened Wrappers
  import opened RubyValues
  import opened Errors
  import opened OrderedHash
  import opened Descriptors
  import opened Binding
  import opened Lifecycle
  import opened Executable

  const MustImplementCall: string := "You must implement #call"

  /** The instance `call` that method lookup finds, run on the instance state. */
  function InstanceCall(s: Schema, st: InstanceState): (e: Execution)
    ensures e.state.attributes == st.attributes
    ensures e.result.Err? && s.hooks.call.None? ==> IsA(e.result.error.cls, StandardError)
  {
    Taxonomy();
    match s.hooks.call
    case Some(call) =>
      var (ivars, outcome) := call(st);
      Execution(outcome, InstanceState(st.attributes, ivars), [CallHook])
    case None =>
      match s.base
      case MutableBase => ExecuteOperation(s, st)
      case ImmutableBase => Execution(Err(Error(InvalidOperationError, MustImplementCall)), st, [])
  }

  /** Class-level `call(...)`: construct, then call the instance; a construction error is raised before any hook runs. */
  function ClassCall(s: Schema, positional: seq<Value>, kw: Hash): (r: Result<Value, Error>)
    requires UniqueNames(s.params)
    ensures Construct(s, positional, kw).Err? ==> r == Err(Construct(s, positional, kw).error)
    ensures Construct(s, positional, kw).Ok? ==> r == InstanceCall(s, Construct(s, positional, kw).value).result
  {
    match Construct(s, positional, kw)
    case Err(e) => Err(e)
    case Ok(st) => InstanceCall(s, st).result
  }

  /** Class-level `to_proc`: a one-argument function that calls the class with that argument. */
  function ToProc(s: Schema): (f: Value -> Result<Value, Error>)
    requires UniqueNames(s.params)
    ensures forall v :: f(v) == ClassCall(s, [v], [])
  {
    v => ClassCall(s, [v], [])
  }

  /** `values.map(&f)`: f applied to each value in turn; the first error is raised. */
  function MapProc(f: Value -> Result<Value, Error>, vs: seq<Value>): (r: Result<seq<Value>, Error>)
    ensures r.Ok? ==> |r.value| == |vs| && forall i :: 0 <= i < |vs| ==> f(vs[i]) == Ok(r.value[i])
    ensures r.Err? ==> exists i :: 0 <= i < |vs| && f(vs[i]) == Err(r.error)
  {
    if vs == [] then Ok([])
    else
      match f(vs[0])
      case Err(e) => Err(e)
      case Ok(w) =>
        match MapProc(f, vs[1..])
        case Err(e) =>
          assert exists i :: 0 <= i < |vs[1..]| && f(vs[1..][i]) == Err(e);
          var i :| 0 <= i < |vs[1..]| && f(vs[1..][i]) == Err(e);
          assert f(vs[i + 1]) == Err(e);
          Err(e)
        case Ok(ws) => Ok([w] + ws)
  }

  /** Mapping an operation class over values constructs and calls it once per value, in order. */
  lemma MapOverClass(s: Schema, vs: seq<Value>)
    requires UniqueNames(s.params)
    ensures var r := MapProc(ToProc(s), vs);
      r.Ok? ==> |r.value| == |vs| && forall i :: 0 <= i < |vs| ==> ClassCall(s, [vs[i]], []) == Ok(r.value[i])
    ensures (forall i :: 0 <= i < |vs| ==> ClassCall(s, [vs[i]], []).Ok?) ==> MapProc(ToProc(s), vs).Ok?
  {
    var r := MapProc(ToProc(s), vs);
    if r.Err? {
      var i :| 0 <= i < |vs| && ToProc(s)(vs[i]) == Err(r.error);
      assert !ClassCall(s, [vs[i]], []).Ok?;
    }
  }

  /**
   * A class's own `call` wins on either base: its value or error is the result, the
   * instance keeps the instance variables it wrote and the attributes it had, and no
   * other hook runs.
   */
  lemma UserCallWins(s: Schema, st: InstanceState)
    requires s.hooks.call.Some?
    ensures var (ivars, outcome) := s.hooks.call.value(st);
      InstanceCall(s, st) == Execution(outcome, InstanceState(st.attributes, ivars), [CallHook])
  {
  }

  /** On a Base operation without its own `call`, calling an instance is `execute_operation`. */
  lemma ExecutableCallWins(s: Schema, st: InstanceState)
    requires s.base == MutableBase && s.hooks.call.None?
    ensures InstanceCall(s, st) == ExecuteOperation(s, st)
  {
  }

  /** On an ImmutableBase operation without its own `call`, calling raises "You must implement #call" and runs no hook. */
  lemma ImmutableWithoutCallRaises(s: Schema, st: InstanceState)
    requires s.base == ImmutableBase && s.hooks.call.None?
    ensures InstanceCall(s, st).result == Err(Error(InvalidOperationError, MustImplementCall))
    ensures InstanceCall(s, st).trace == []
  {
  }

  /**
   * Class-level `call` on a Base operation that binds its arguments: the instance is
   * initialized (prepare included) and `execute_operation` runs on it.
   */
  lemma ClassCallRunsLifecycle(s: Schema, positional: seq<Value>, kw: Hash)
    requires UniqueNames(s.params) && s.base == MutableBase && s.hooks.call.None?
    requires Bind(s.params, positional, kw).Ok?
    ensures ClassCall(s, positional, kw) ==
      ExecuteOperation(s, Initialized(s, Bind(s.params, positional, kw).value)).result
  {
  }
}

=== FILE: curried.dfy ===
/**
 * Currying (lib/typed_operation/curried.rb): a Curried wraps an operation class and a
 * partial application of it, and `call(arg)` applies one value to the next required
 * slot, positional slots first, then required keywords in declaration order. Once the
 * application is Prepared it is called and its value returned; otherwise a new Curried
 * is returned and the old one is left as it was. The class-level `curry`
 * (lib/typed_operation/operations/partial_application.rb:11-13) is here too.
 */
module Currying {
  import opened Wrappers
  import opened RubyValues
  import opened Errors
  import opened Lists
  import opened OrderedHash
  import opened Descriptors
  import opened Introspection
  import opened Callable
  import opened Partial
  import opened PartialApplication

  datatype Curried = Curried(operationClass: Schema, partial: Application)

  /** What `call(arg)` returns: a further Curried, or the operation's value. */
  datatype Step = Next(curried: Curried) | Done(value: Value)

  /** `Curried.new(operation_class, partial = nil)`: without a partial, `operation_class.with`. */
  function NewCurried(s: Schema, partial: Option<Application>): (c: Curried)
    ensures c.operationClass == s
    ensures partial.Some? ==> c.partial == partial.value
    ensures partial.None? ==> c.partial.operation == s && c.partial.positional == [] && c.partial.applied == []
    ensures partial.None? ==> (c.partial.Prepared? <==> RequiredNames(s.params) == [])
  {
    match partial
    case Some(p) => Curried(s, p)
    case None =>
      var p := OperationWith(s, []);
      assert RequiredNames(s.params) != [] ==> p.PartiallyApplied? by {
        if RequiredNames(s.params) != [] {
          var n := RequiredNames(s.params)[0];
          assert n in RequiredNames(s.params) && !HasKey([], n);
        }
      }
      Curried(s, p)
  }

  /** The class-level `curry`: a Curried with nothing applied. */
  function OperationCurry(s: Schema): (c: Curried)
    ensures c.operationClass == s && c.partial.operation == s
    ensures c.partial.positional == [] && c.partial.applied == []
    ensures c.partial == Classify(s, [], [])
  {
    NewCurried(s, None)
  }

  /** `curry` on a partial application, the extension base_test.rb:420-425 relies on: a Curried over it. */
  function PartialCurry(p: Application): (c: Curried)
    ensures c.operationClass == p.operation && c.partial == p
  {
    NewCurried(p.operation, Some(p))
  }

  /**
   * What every Curried the gem builds satisfies: its schema came from the parameter DSL
   * (unique names), its partial applies to the same class, and the partial's class
   * reflects what is missing.
   */
  ghost predicate Ready(c: Curried)
  {
    var ps := c.operationClass.params;
    UniqueNames(ps) &&
    c.partial.operation == c.operationClass &&
    c.partial == Classify(c.operationClass, c.partial.positional, c.partial.applied)
  }

  /**
   * The class's positional parameters respect the order rule: no required positional
   * after an optional one. The DSL keeps this for new names; a redeclaration can break it.
   */
  ghost predicate InOrder(c: Curried)
  {
    PositionalOrderHolds(c.operationClass.params)
  }

  /** No applied keyword names a positional parameter (positional parameters are filled by position). */
  ghost predicate NoPositionalKeys(c: Curried)
  {
    forall k :: HasKey(c.partial.applied, k) ==> k !in PositionalParameters(c.operationClass.params)
  }

  /** The required names the wrapped partial still lacks. */
  function MissingOf(c: Curried): seq<string>
  {
    Missing(c.operationClass.params, |c.partial.positional|, Keys(c.partial.applied))
  }

  /** `next_parameter_positional?`: fewer values applied by position than required positional parameters. */
  function NextParameterPositional(c: Curried): bool
  {
    |c.partial.positional| < |RequiredPositionalParameters(c.operationClass.params)|
  }

  /**
   * `next_keyword_parameter`: the first required keyword, in declaration order, that the
   * partial has not applied; None when all are applied.
   */
  function NextKeywordParameter(c: Curried): (r: Option<string>)
    ensures r.None? <==> forall n :: n in RequiredKeywordParameters(c.operationClass.params) ==> HasKey(c.partial.applied, n)
    ensures r.Some? ==> r.value in RequiredKeywordParameters(c.operationClass.params) && !HasKey(c.partial.applied, r.value)
    ensures r.Some? ==> var kws := RequiredKeywordParameters(c.operationClass.params);
      exists i :: 0 <= i < |kws| && kws[i] == r.value && forall j :: 0 <= j < i ==> HasKey(c.partial.applied, kws[j])
  {
    var kws := RequiredKeywordParameters(c.operationClass.params);
    var remaining := Minus(kws, Keys(c.partial.applied));
    if remaining == [] then
      assert forall n :: n in kws ==> HasKey(c.partial.applied, n) by {
        forall n | n in kws
          ensures HasKey(c.partial.applied, n)
        {
          MinusMember(kws, Keys(c.partial.applied), n);
        }
      }
      None
    else
      MinusFirst(kws, Keys(c.partial.applied));
      assert remaining[0] in remaining;
      Some(remaining[0])
  }

  /**
   * The partial with arg applied to the next slot: by position, or under the next keyword.
   * When neither is left (a table whose order a redeclaration broke), curried.rb:17
   * applies arg under a nil key, which no required name is, so nothing missing is filled;
   * the nil-keyed entry itself is not part of this model.
   */
  function Apply(c: Curried, arg: Value): (r: Result<Application, Error>)
    requires Ready(c) && !c.partial.Prepared?
    ensures NextParameterPositional(c) ==> r == WithPositional(c.partial, [arg], [])
    ensures !NextParameterPositional(c) && NextKeywordParameter(c).Some? ==>
      r == Ok(With(c.partial, Single(NextKeywordParameter(c).value, arg)))
    ensures !NextParameterPositional(c) && NextKeywordParameter(c).None? ==> r == Ok(c.partial)
  {
    if NextParameterPositional(c) then WithPositional(c.partial, [arg], [])
    else
      match NextKeywordParameter(c)
      case Some(k) => Ok(With(c.partial, Single(k, arg)))
      case None => Ok(c.partial)
  }

  /**
   * `call(arg)`: refuses a Prepared partial with ArgumentError; otherwise applies arg and
   * either calls the now Prepared application or returns a new Curried over the result.
   */
  function Call(c: Curried, arg: Value): (r: Result<Step, Error>)
    requires Ready(c)
    ensures c.partial.Prepared? ==> r == Err(Error(ArgumentError, "A prepared operation should not be curried"))
    ensures r.Ok? && r.value.Next? ==>
      !c.partial.Prepared? && Apply(c, arg).Ok? &&
      Ready(r.value.curried) && r.value.curried.operationClass == c.operationClass &&
      !r.value.curried.partial.Prepared? && r.value.curried.partial == Apply(c, arg).value
    ensures !c.partial.Prepared? && Apply(c, arg).Ok? && Apply(c, arg).value.Prepared? ==>
      r == AsStep(ClassCall(c.operationClass, Apply(c, arg).value.positional, Apply(c, arg).value.applied))
  {
    if c.partial.Prepared? then Err(Error(ArgumentError, "A prepared operation should not be curried"))
    else
      match Apply(c, arg)
      case Err(e) => Err(e)
      case Ok(next) =>
        if next.Prepared? then
          ApplyNothing(next);
          AsStep(Partial.Call(next, [], []))
        else Ok(Next(Curried(c.operationClass, next)))
  }

  /** The operation's value as the last step of a curry. */
  function AsStep(r: Result<Value, Error>): (s: Result<Step, Error>)
    ensures s.Ok? <==> r.Ok?
    ensures s.Ok? ==> s.value == Done(r.value)
    ensures s.Err? ==> s.error == r.error
  {
    match r
    case Ok(v) => Ok(Done(v))
    case Err(e) => Err(e)
  }

  /**
   * curried.rb:10-24 as written: PartiallyApplied has no `prepared?` (nor
   * `positional_args` or `keyword_args`), so the first line of `call` raises NoMethodError.
   */
  function CallAsWritten(c: Curried, arg: Value): (r: Result<Step, Error>)
    ensures r.Err? && r.error.cls == NoMethodError
  {
    Err(Error(NoMethodError, "undefined method 'prepared?' for " + c.partial.operation.name))
  }

  /** Feeding values one after another, stopping at the first that does not give a further Curried. */
  function Feed(c: Curried, args: seq<Value>): Result<Step, Error>
    requires Ready(c)
    decreases |args|
  {
    if args == [] then Ok(Next(c))
    else
      match Call(c, args[0])
      case Ok(Next(c2)) => Feed(c2, args[1..])
      case other => other
  }

  // ----- lemmas

  /** Every required name is a required positional or a required keyword name. */
  lemma RequiredSplit(ps: seq<Param>, n: string)
    ensures n in RequiredNames(ps) <==>
      n in RequiredPositionalParameters(ps) || n in RequiredKeywordParameters(ps)
  {
    InFilterMapNames(ps, IsRequired, n);
    InFilteredNames(ps, IsRequired, IsPositional, n);
    InFilteredNames(ps, IsRequired, IsKeyword, n);
    if n in RequiredNames(ps) {
      var i :| 0 <= i < |ps| && IsRequired(ps[i]) && ps[i].name == n;
      assert IsPositional(ps[i]) || IsKeyword(ps[i]);
    }
  }

  /** A required keyword name is no positional parameter's name. */
  lemma KeywordIsNotPositional(ps: seq<Param>, n: string)
    requires UniqueNames(ps) && n in RequiredKeywordParameters(ps)
    ensures n !in PositionalParameters(ps)
  {
    RequiredViewsAreSubsequences(ps);
    SubsequenceMembers(RequiredKeywordParameters(ps), KeywordParameters(ps));
    PositionalKeywordPartition(ps);
  }

  /** The names filled by position are distinct and positional. */
  lemma BoundFacts(ps: seq<Param>, k: nat)
    requires UniqueNames(ps)
    ensures NoDup(BoundByPosition(ps, k))
    ensures forall n :: n in BoundByPosition(ps, k) ==> n in PositionalParameters(ps)
  {
    FilterMapNamesIsSubsequence(ps, IsPositional);
    SubsequenceNoDup(PositionalParameters(ps), Names(ps));
  }

  /** Under Ready, the partial is Prepared exactly when nothing is missing. */
  lemma PreparedIffNothingMissing(c: Curried)
    requires Ready(c)
    ensures c.partial.Prepared? <==> MissingOf(c) == []
  {
    if MissingOf(c) != [] {
      assert MissingOf(c)[0] in MissingOf(c);
    }
  }

  /** When the next value does not go by position, some required keyword is still to be applied. */
  lemma NextKeywordExists(c: Curried)
    requires Ready(c) && !c.partial.Prepared? && !NextParameterPositional(c) && InOrder(c)
    ensures NextKeywordParameter(c).Some?
  {
    var ps := c.operationClass.params;
    PreparedIffNothingMissing(c);
    var n := MissingOf(c)[0];
    assert n in MissingOf(c);
    RequiredPositionalPrefix(ps);
    var req := RequiredPositionalParameters(ps);
    assert req == BoundByPosition(ps, |req|);
    assert forall m :: m in req ==> m in BoundByPosition(ps, |c.partial.positional|) by {
      forall m | m in req
        ensures m in BoundByPosition(ps, |c.partial.positional|)
      {
        var i :| 0 <= i < |req| && req[i] == m;
        assert BoundByPosition(ps, |c.partial.positional|)[i] == m;
      }
    }
    RequiredSplit(ps, n);
    assert n in RequiredKeywordParameters(ps);
  }

  /** The next value by position fills a required positional parameter that nothing fills yet. */
  lemma PositionalStep(c: Curried)
    requires Ready(c) && NoPositionalKeys(c) && NextParameterPositional(c) && InOrder(c)
    ensures var ps := c.operationClass.params;
      var k := |c.partial.positional|;
      k < |PositionalParameters(ps)| &&
      BoundByPosition(ps, k + 1) == BoundByPosition(ps, k) + [PositionalParameters(ps)[k]] &&
      PositionalParameters(ps)[k] in RequiredNames(ps) &&
      PositionalParameters(ps)[k] !in BoundByPosition(ps, k) + Keys(c.partial.applied)
  {
    var ps := c.operationClass.params;
    var k := |c.partial.positional|;
    var pos := PositionalParameters(ps);
    RequiredPositionalPrefix(ps);
    var req := RequiredPositionalParameters(ps);
    assert pos[k] == req[k];
    RequiredSplit(ps, pos[k]);
    BoundFacts(ps, k + 1);
    assert BoundByPosition(ps, k + 1) == pos[..k + 1];
    assert pos[..k + 1] == pos[..k] + [pos[k]];
    assert pos[k] !in BoundByPosition(ps, k) by {
      assert BoundByPosition(ps, k + 1)[k] == pos[k];
      forall i | 0 <= i < k
        ensures BoundByPosition(ps, k)[i] != pos[k]
      {
        assert BoundByPosition(ps, k + 1)[i] == BoundByPosition(ps, k)[i];
      }
    }
    assert pos[k] in pos;
    assert !HasKey(c.partial.applied, pos[k]);
  }

  /**
   * `next_parameter_positional?` holds exactly when some required positional parameter
   * is not yet filled by position.
   */
  lemma NextPositionalIffRequiredUnbound(c: Curried)
    requires Ready(c) && InOrder(c)
    ensures var ps := c.operationClass.params;
      NextParameterPositional(c) <==>
      exists n :: n in RequiredPositionalParameters(ps) && n !in BoundByPosition(ps, |c.partial.positional|)
  {
    var ps := c.operationClass.params;
    var k := |c.partial.positional|;
    var pos := PositionalParameters(ps);
    var req := RequiredPositionalParameters(ps);
    RequiredPositionalPrefix(ps);
    if k < |req| {
      PositionalKeywordPartition(ps);
      SubsequenceNoDup(pos, Names(ps));
      assert req[k] == pos[k];
      assert pos[k] !in pos[..k] by {
        forall i | 0 <= i < k
          ensures pos[..k][i] != pos[k]
        {
        }
      }
      assert req[k] in req;
    } else {
      forall n | n in req
        ensures n in BoundByPosition(ps, k)
      {
        var i :| 0 <= i < |req| && req[i] == n;
        assert pos[i] == n && BoundByPosition(ps, k)[i] == pos[i];
      }
    }
  }

  /** Applying a value keeps the schema's invariants and the partial classified. */
  lemma ApplyKeepsReady(c: Curried, arg: Value)
    requires Ready(c) && !c.partial.Prepared? && Apply(c, arg).Ok?
    ensures Ready(Curried(c.operationClass, Apply(c, arg).value))
  {
  }

  /**
   * When no required positional slot and no required keyword is left but a name is
   * still missing, each further value returns the same Curried: the curry never
   * completes. Only a table whose order a redeclaration broke gets there.
   */
  lemma StallsWithoutNextSlot(c: Curried, arg: Value)
    requires Ready(c) && !c.partial.Prepared? && !NextParameterPositional(c) && NextKeywordParameter(c).None?
    ensures !InOrder(c)
    ensures Call(c, arg) == Ok(Next(c))
  {
    if InOrder(c) {
      NextKeywordExists(c);
      assert false;
    }
  }

  /** Once the given names grow by exactly one missing name e, one name fewer is missing. */
  lemma MissingDrop(ps: seq<Param>, k: nat, keys: seq<string>, e: string, k2: nat, keys2: seq<string>)
    requires UniqueNames(ps) && e in RequiredNames(ps) && e !in BoundByPosition(ps, k) + keys
    requires forall n :: n in BoundByPosition(ps, k2) + keys2 <==> n in (BoundByPosition(ps, k) + keys) + [e]
    ensures |Missing(ps, k2, keys2)| + 1 == |Missing(ps, k, keys)|
  {
    var required := RequiredNames(ps);
    FilterMapNamesIsSubsequence(ps, IsRequired);
    SubsequenceNoDup(required, Names(ps));
    MinusSameMembers(required, BoundByPosition(ps, k2) + keys2, (BoundByPosition(ps, k) + keys) + [e]);
    MinusDropOne(required, BoundByPosition(ps, k) + keys, e);
  }

  /** A value by position leaves one required name fewer missing. */
  lemma PositionalShrinks(c: Curried, arg: Value)
    requires Ready(c) && NoPositionalKeys(c) && !c.partial.Prepared? && NextParameterPositional(c) && InOrder(c)
    ensures Apply(c, arg).Ok?
    ensures var c2 := Curried(c.operationClass, Apply(c, arg).value);
      Ready(c2) && NoPositionalKeys(c2) && |MissingOf(c2)| + 1 == |MissingOf(c)|
  {
    var ps := c.operationClass.params;
    var k := |c.partial.positional|;
    PositionalStep(c);
    PositionalApply(c, arg);
    ApplyKeepsReady(c, arg);
    MissingDrop(ps, k, Keys(c.partial.applied), PositionalParameters(ps)[k], k + 1, Keys(c.partial.applied));
  }

  /**
   * A positional parameter already applied by keyword (`with(pos1: v)`, the only way
   * partially_applied.rb:10-11 can pre-apply it) still takes the next value by
   * position: that value fills no missing name, so the curry needs one value more
   * than there are names missing.
   */
  lemma PositionalKeyWastesValue(c: Curried, arg: Value)
    requires Ready(c) && !c.partial.Prepared? && NextParameterPositional(c)
    requires var pos := PositionalParameters(c.operationClass.params);
      |c.partial.positional| < |pos| && HasKey(c.partial.applied, pos[|c.partial.positional|])
    ensures Apply(c, arg).Ok?
    ensures Apply(c, arg).value.positional == c.partial.positional + [arg]
    ensures MissingOf(Curried(c.operationClass, Apply(c, arg).value)) == MissingOf(c)
  {
    PositionalApply(c, arg);
    MissingIgnoresBoundKey(c.operationClass.params, |c.partial.positional|, Keys(c.partial.applied));
  }

  /** Binding by position a name the keys already give leaves the missing names as they were. */
  lemma MissingIgnoresBoundKey(ps: seq<Param>, k: nat, keys: seq<string>)
    requires k < |PositionalParameters(ps)| && PositionalParameters(ps)[k] in keys
    ensures Missing(ps, k + 1, keys) == Missing(ps, k, keys)
  {
    var pos := PositionalParameters(ps);
    assert pos[..k + 1] == pos[..k] + [pos[k]];
    MinusSameMembers(RequiredNames(ps), BoundByPosition(ps, k + 1) + keys, BoundByPosition(ps, k) + keys);
  }

  /** A value by position is appended to the positional values; the keywords stay as they were. */
  lemma PositionalApply(c: Curried, arg: Value)
    requires Ready(c) && !c.partial.Prepared? && NextParameterPositional(c)
    requires |c.partial.positional| < |PositionalParameters(c.operationClass.params)|
    ensures Apply(c, arg).Ok?
    ensures Apply(c, arg).value.positional == c.partial.positional + [arg]
    ensures Apply(c, arg).value.applied == c.partial.applied
  {
    MergeEmptyRight(c.partial.applied);
  }

  /** A value under the next required keyword adds that one name to the applied keys. */
  lemma KeywordStep(c: Curried, arg: Value)
    requires Ready(c) && NoPositionalKeys(c) && !c.partial.Prepared? && !NextParameterPositional(c) && InOrder(c)
    ensures NextKeywordParameter(c).Some? && Apply(c, arg).Ok?
    ensures var ps := c.operationClass.params;
      var e := NextKeywordParameter(c).value;
      var next := Apply(c, arg).value;
      next.positional == c.partial.positional &&
      Keys(next.applied) == Keys(c.partial.applied) + [e] &&
      NoPositionalKeys(Curried(c.operationClass, next)) &&
      e in RequiredNames(ps) && e !in BoundByPosition(ps, |c.partial.positional|) + Keys(c.partial.applied)
  {
    var ps := c.operationClass.params;
    var keys := Keys(c.partial.applied);
    NextKeywordExists(c);
    var e := NextKeywordParameter(c).value;
    var next := Apply(c, arg).value;
    RequiredSplit(ps, e);
    KeywordIsNotPositional(ps, e);
    BoundFacts(ps, |c.partial.positional|);
    var single := Single(e, arg);
    assert next.applied == Merge(c.partial.applied, single);
    assert Minus(Keys(single), keys) == [e] by {
      MinusUnfold([e], keys);
    }
    assert Keys(next.applied) == keys + [e];
    assert NoPositionalKeys(Curried(c.operationClass, next)) by {
      forall m | HasKey(next.applied, m)
        ensures m !in PositionalParameters(ps)
      {
        assert m in keys + [e];
      }
    }
  }

  /** A value under the next required keyword leaves one required name fewer missing. */
  lemma KeywordShrinks(c: Curried, arg: Value)
    requires Ready(c) && NoPositionalKeys(c) && !c.partial.Prepared? && !NextParameterPositional(c) && InOrder(c)
    ensures Apply(c, arg).Ok?
    ensures var c2 := Curried(c.operationClass, Apply(c, arg).value);
      Ready(c2) && NoPositionalKeys(c2) && |MissingOf(c2)| + 1 == |MissingOf(c)|
  {
    var ps := c.operationClass.params;
    var k := |c.partial.positional|;
    var keys := Keys(c.partial.applied);
    KeywordStep(c, arg);
    var e := NextKeywordParameter(c).value;
    var c2 := Curried(c.operationClass, Apply(c, arg).value);
    assert |c2.partial.positional| == k && Keys(c2.partial.applied) == keys + [e];
    ApplyKeepsReady(c, arg);
    MissingDrop(ps, k, keys, e, k, keys + [e]);
    assert MissingOf(c2) == Missing(ps, k, keys + [e]);
  }

  /**
   * Applying a value to a curry that is not yet Prepared fills one more required slot:
   * the new Curried keeps the invariants, one name fewer is missing, and its partial is
   * Prepared exactly when the value filled the last slot.
   */
  lemma ApplyStep(c: Curried, arg: Value)
    requires Ready(c) && NoPositionalKeys(c) && !c.partial.Prepared? && InOrder(c)
    ensures Apply(c, arg).Ok?
    ensures var c2 := Curried(c.operationClass, Apply(c, arg).value);
      Ready(c2) && NoPositionalKeys(c2) && |MissingOf(c2)| + 1 == |MissingOf(c)| &&
      (c2.partial.Prepared? <==> |MissingOf(c)| == 1)
  {
    if NextParameterPositional(c) {
      PositionalShrinks(c, arg);
    } else {
      KeywordShrinks(c, arg);
    }
    var c2 := Curried(c.operationClass, Apply(c, arg).value);
    PreparedIffNothingMissing(c2);
  }

  /**
   * Each value fed to a curry that is not yet Prepared either fills one more required
   * slot (the missing set shrinks by exactly one and the new Curried keeps the
   * invariants), or, when it fills the last one, the operation is called with the
   * completed application.
   */
  lemma CallStep(c: Curried, arg: Value)
    requires Ready(c) && NoPositionalKeys(c) && !c.partial.Prepared? && InOrder(c)
    ensures |MissingOf(c)| > 1 ==>
      Call(c, arg).Ok? && Call(c, arg).value.Next? &&
      NoPositionalKeys(Call(c, arg).value.curried) &&
      |MissingOf(Call(c, arg).value.curried)| + 1 == |MissingOf(c)|
    ensures |MissingOf(c)| <= 1 ==> !(Call(c, arg).Ok? && Call(c, arg).value.Next?)
    ensures |MissingOf(c)| == 1 ==>
      Apply(c, arg).Ok? && Apply(c, arg).value.Prepared? &&
      Call(c, arg) == AsStep(ClassCall(c.operationClass, Apply(c, arg).value.positional, Apply(c, arg).value.applied))
  {
    ApplyStep(c, arg);
  }

  /**
   * The application a curry has built once the values in args have been applied in
   * turn, each to the next missing slot.
   */
  ghost function Completed(c: Curried, args: seq<Value>): (a: Application)
    requires Ready(c) && NoPositionalKeys(c) && !c.partial.Prepared? && InOrder(c)
    requires 1 <= |args| <= |MissingOf(c)|
    ensures a.operation == c.operationClass
    ensures a == Classify(c.operationClass, a.positional, a.applied)
    ensures a.Prepared? <==> |args| == |MissingOf(c)|
    decreases |args|
  {
    ApplyStep(c, args[0]);
    var next := Apply(c, args[0]).value;
    if |args| == 1 then next else Completed(Curried(c.operationClass, next), args[1..])
  }

  /**
   * Feeding as many values as there are missing required names: every shorter prefix
   * gives a further Curried, and the whole sequence calls the operation with the
   * completed application.
   */
  lemma FeedInvokesOnLast(c: Curried, args: seq<Value>)
    requires Ready(c) && NoPositionalKeys(c) && !c.partial.Prepared? && InOrder(c)
    requires |args| == |MissingOf(c)|
    ensures forall k :: 0 <= k < |args| ==> Feed(c, args[..k]).Ok? && Feed(c, args[..k]).value.Next?
    ensures Completed(c, args).Prepared?
    ensures Feed(c, args) == AsStep(ClassCall(c.operationClass, Completed(c, args).positional, Completed(c, args).applied))
  {
    forall k | 0 <= k < |args|
      ensures Feed(c, args[..k]).Ok? && Feed(c, args[..k]).value.Next?
    {
      FeedBeforeLast(c, args, k);
    }
    FeedReachesCall(c, args);
  }

  /** Fewer values than missing names leave a further Curried. */
  lemma {:induction false} FeedBeforeLast(c: Curried, args: seq<Value>, k: nat)
    requires Ready(c) && NoPositionalKeys(c) && !c.partial.Prepared? && InOrder(c)
    requires |args| == |MissingOf(c)| && k < |args|
    ensures Feed(c, args[..k]).Ok? && Feed(c, args[..k]).value.Next?
    decreases k
  {
    if k == 0 {
      assert args[..k] == [];
    } else {
      CallStep(c, args[0]);
      var c2 := Call(c, args[0]).value.curried;
      FeedBeforeLast(c2, args[1..], k - 1);
      assert args[..k][0] == args[0] && args[..k][1..] == args[1..][..k - 1];
      FeedAfterNext(c, args[..k]);
    }
  }

  /** As many values as missing names call the operation with the completed application. */
  lemma {:induction false} FeedReachesCall(c: Curried, args: seq<Value>)
    requires Ready(c) && NoPositionalKeys(c) && !c.partial.Prepared? && InOrder(c)
    requires |args| == |MissingOf(c)|
    ensures |args| >= 1
    ensures Feed(c, args) == AsStep(ClassCall(c.operationClass, Completed(c, args).positional, Completed(c, args).applied))
    decreases |args|
  {
    PreparedIffNothingMissing(c);
    assert args != [];
    CallStep(c, args[0]);
    if |args| > 1 {
      var c2 := Call(c, args[0]).value.curried;
      FeedReachesCall(c2, args[1..]);
      FeedAfterNext(c, args);
    }
  }

  /** After a value that gives a further Curried, feeding goes on from that Curried. */
  lemma FeedAfterNext(c: Curried, args: seq<Value>)
    requires Ready(c) && args != [] && Call(c, args[0]).Ok? && Call(c, args[0]).value.Next?
    ensures Feed(c, args) == Feed(Call(c, args[0]).value.curried, args[1..])
  {
  }

  /**
   * An operation whose only required parameter is its first positional one
   * (base_test.rb:408-411): as written, calling its curry raises NoMethodError; with
   * the corrected `call` the first value calls the operation with that value.
   */
  lemma CurryOfOneRequired(s: Schema, v: Value)
    requires UniqueNames(s.params) && PositionalOrderHolds(s.params)
    requires RequiredNames(s.params) == ["first"] && RequiredPositionalParameters(s.params) == ["first"]
    ensures CallAsWritten(OperationCurry(s), v).Err?
    ensures CallAsWritten(OperationCurry(s), v).error.cls == NoMethodError
    ensures Call(OperationCurry(s), v) == AsStep(ClassCall(s, [v], []))
  {
    var c := OperationCurry(s);
    RequiredPositionalPrefix(s.params);
    assert "first" in RequiredNames(s.params) && !HasKey(c.partial.applied, "first");
    assert BoundByPosition(s.params, 0) == [];
    assert NextParameterPositional(c);
    var next := Apply(c, v).value;
    MergeEmptyLeft([]);
    assert next.positional == [v] && next.applied == [];
    assert BoundByPosition(s.params, 1) == ["first"];
    assert next.Prepared?;
  }

  /**
   * A partial application with the first positional value and kw2, kw3 given, of an
   * operation requiring pos1, pos2 by position and kw1, kw2 by name
   * (base_test.rb:420-425): its curry takes pos2 first, then kw1, and then calls the
   * operation with everything applied.
   */
  lemma CurryAfterPartial(s: Schema, pos1: Value, pos2: Value, kw1: Value, rest: Hash)
    requires UniqueNames(s.params) && PositionalOrderHolds(s.params)
    requires RequiredPositionalParameters(s.params) == ["pos1", "pos2"]
    requires RequiredKeywordParameters(s.params) == ["kw1", "kw2"]
    requires Keys(rest) == ["kw2", "kw3"]
    ensures var c := PartialCurry(Classify(s, [pos1], rest));
      Call(c, pos2).Ok? && Call(c, pos2).value.Next? &&
      Call(Call(c, pos2).value.curried, kw1) == AsStep(ClassCall(s, [pos1, pos2], Merge(rest, Single("kw1", kw1))))
  {
    var c := PartialCurry(Classify(s, [pos1], rest));
    FirstValueByPosition(s, pos1, pos2, rest);
    var c2 := Call(c, pos2).value.curried;
    ThenByKeyword(c2, kw1);
  }

  /** The first value of CurryAfterPartial goes to pos2. */
  lemma FirstValueByPosition(s: Schema, pos1: Value, pos2: Value, rest: Hash)
    requires UniqueNames(s.params) && PositionalOrderHolds(s.params)
    requires RequiredPositionalParameters(s.params) == ["pos1", "pos2"]
    requires RequiredKeywordParameters(s.params) == ["kw1", "kw2"]
    requires Keys(rest) == ["kw2", "kw3"]
    ensures var c := PartialCurry(Classify(s, [pos1], rest));
      Call(c, pos2).Ok? && Call(c, pos2).value.Next? &&
      Call(c, pos2).value.curried.operationClass == s &&
      Call(c, pos2).value.curried.partial.positional == [pos1, pos2] &&
      Call(c, pos2).value.curried.partial.applied == rest
  {
    var c := PartialCurry(Classify(s, [pos1], rest));
    Kw1Missing(s.params, rest);
    assert c.partial.PartiallyApplied?;
    PositionalApply(c, pos2);
    assert [pos1] + [pos2] == [pos1, pos2];
  }

  /** In that schema kw1 is required, filled neither by the first two positions nor by rest. */
  lemma Kw1Missing(ps: seq<Param>, rest: Hash)
    requires UniqueNames(ps) && PositionalOrderHolds(ps)
    requires RequiredPositionalParameters(ps) == ["pos1", "pos2"]
    requires RequiredKeywordParameters(ps) == ["kw1", "kw2"]
    requires Keys(rest) == ["kw2", "kw3"]
    ensures "kw1" in RequiredNames(ps) && !HasKey(rest, "kw1")
    ensures "kw1" !in BoundByPosition(ps, 1) && "kw1" !in BoundByPosition(ps, 2)
    ensures 2 <= |PositionalParameters(ps)|
  {
    RequiredPositionalPrefix(ps);
    RequiredSplit(ps, "kw1");
    KeywordIsNotPositional(ps, "kw1");
  }

  /** The second value of CurryAfterPartial goes to kw1 and completes the application. */
  lemma ThenByKeyword(c: Curried, kw1: Value)
    requires Ready(c) && InOrder(c) && !c.partial.Prepared?
    requires RequiredPositionalParameters(c.operationClass.params) == ["pos1", "pos2"]
    requires RequiredKeywordParameters(c.operationClass.params) == ["kw1", "kw2"]
    requires |c.partial.positional| == 2 && Keys(c.partial.applied) == ["kw2", "kw3"]
    ensures Call(c, kw1) ==
      AsStep(ClassCall(c.operationClass, c.partial.positional, Merge(c.partial.applied, Single("kw1", kw1))))
  {
    NextIsKw1(c);
    Kw1Completes(c, kw1);
  }

  /** With pos1 and pos2 bound and kw2 applied, the next slot is kw1. */
  lemma NextIsKw1(c: Curried)
    requires Ready(c) && !c.partial.Prepared?
    requires RequiredPositionalParameters(c.operationClass.params) == ["pos1", "pos2"]
    requires RequiredKeywordParameters(c.operationClass.params) == ["kw1", "kw2"]
    requires |c.partial.positional| == 2 && Keys(c.partial.applied) == ["kw2", "kw3"]
    ensures !NextParameterPositional(c) && NextKeywordParameter(c) == Some("kw1")
  {
    assert Minus(RequiredKeywordParameters(c.operationClass.params), Keys(c.partial.applied)) == ["kw1"];
  }

  /** Applying kw1 then leaves nothing missing. */
  lemma Kw1Completes(c: Curried, kw1: Value)
    requires Ready(c) && InOrder(c) && !c.partial.Prepared?
    requires RequiredPositionalParameters(c.operationClass.params) == ["pos1", "pos2"]
    requires RequiredKeywordParameters(c.operationClass.params) == ["kw1", "kw2"]
    requires |c.partial.positional| == 2 && Keys(c.partial.applied) == ["kw2", "kw3"]
    requires !NextParameterPositional(c) && NextKeywordParameter(c) == Some("kw1")
    ensures Apply(c, kw1).Ok? && Apply(c, kw1).value.Prepared?
    ensures Apply(c, kw1).value.positional == c.partial.positional
    ensures Apply(c, kw1).value.applied == Merge(c.partial.applied, Single("kw1", kw1))
  {
    var ps := c.operationClass.params;
    forall n | n in RequiredNames(ps)
      ensures n in BoundByPosition(ps, 2) || HasKey(c.partial.applied, n) || HasKey(Single("kw1", kw1), n)
    {
      Kw1Slot(ps, c.partial.applied, n);
    }
  }

  /** Every required name of that schema is bound by position, applied already, or kw1. */
  lemma Kw1Slot(ps: seq<Param>, applied: Hash, n: string)
    requires UniqueNames(ps) && PositionalOrderHolds(ps)
    requires RequiredPositionalParameters(ps) == ["pos1", "pos2"]
    requires RequiredKeywordParameters(ps) == ["kw1", "kw2"]
    requires Keys(applied) == ["kw2", "kw3"]
    requires n in RequiredNames(ps)
    ensures n in BoundByPosition(ps, 2) || HasKey(applied, n) || n == "kw1"
  {
    RequiredPositionalPrefix(ps);
    RequiredSplit(ps, n);
    if n in RequiredPositionalParameters(ps) {
      assert BoundByPosition(ps, 2) == ["pos1", "pos2"];
    } else {
      assert HasKey(applied, "kw2");
    }
  }
}

=== FILE: deconstruct.dfy ===
/**
 * Pattern-matching support of an instance (lib/typed_operation/operations/deconstruct.rb):
 * `deconstruct` is the attribute values, `deconstruct_keys` the attribute hash, sliced
 * to the requested keys unless the keys are nil. Both only read the instance.
 */
module Deconstruct {
  import opened Wrappers
  import opened RubyValues
  import opened OrderedHash
  import opened Descriptors
  import opened Binding
  import opened Lifecycle

  /** `deconstruct`: the attribute values in the order the attributes are held. */
  function Deconstruct(st: InstanceState): (vs: seq<Value>)
    ensures |vs| == |st.attributes|
    ensures forall i :: 0 <= i < |vs| ==> vs[i] == st.attributes[i].1
  {
    Values(st.attributes)
  }

  /** `deconstruct_keys(keys)`: all attributes for nil, else those named in keys that exist, in the order requested. */
  function DeconstructKeys(st: InstanceState, keys: Option<seq<string>>): (h: Hash)
    ensures keys.None? ==> h == st.attributes
    ensures keys.Some? ==> forall k :: HasKey(h, k) <==> k in keys.value && HasKey(st.attributes, k)
    ensures forall k :: HasKey(h, k) ==> Get(h, k) == Get(st.attributes, k)
  {
    match keys
    case None => st.attributes
    case Some(ks) => Slice(st.attributes, ks)
  }

  /** The values of `deconstruct_keys(nil)`, in order, are `deconstruct`. */
  lemma KeysAndValuesAgree(st: InstanceState)
    ensures Values(DeconstructKeys(st, None)) == Deconstruct(st)
  {
  }

  /**
   * On a constructed instance both views follow declaration order: the i-th value is
   * the i-th parameter's bound value, under its name.
   */
  lemma DeclarationOrder(s: Schema, positional: seq<Value>, kw: Hash)
    requires UniqueNames(s.params) && Construct(s, positional, kw).Ok?
    ensures var st := Construct(s, positional, kw).value;
      Keys(DeconstructKeys(st, None)) == Names(s.params) &&
      |Deconstruct(st)| == |s.params| &&
      forall i :: 0 <= i < |s.params| ==>
        Deconstruct(st)[i] == Coerce(s.params[i], Supplied(s.params, i, positional, kw).value)
  {
  }

  /** Asking for names that are not attributes yields nothing for them; asking for all names yields them all. */
  lemma SliceByNames(s: Schema, st: InstanceState, keys: seq<string>)
    requires Keys(st.attributes) == Names(s.params)
    ensures forall k :: k in keys && k !in Names(s.params) ==> !HasKey(DeconstructKeys(st, Some(keys)), k)
    ensures forall k :: k in keys && k in Names(s.params) ==>
      HasKey(DeconstructKeys(st, Some(keys)), k) && Get(DeconstructKeys(st, Some(keys)), k) == Get(st.attributes, k)
  {
    forall k | k in keys
      ensures HasKey(st.attributes, k) <==> k in Names(s.params)
    {
      assert HasKey(st.attributes, k) <==> k in Keys(st.attributes);
    }
  }
}

=== FILE: descriptors.dfy ===
/**
 * The data an operation class is made of: its parameter descriptors (what the
 * Literal library records for each `prop`), the hooks a user's subclass defines,
 * and the state of one instance.
 */
module Descriptors {
  import opened Wrappers
  import opened RubyValues
  import opened Signatures
  import opened Errors
  import opened OrderedHash
  import opened Lists

  datatype Kind = Positional | Keyword

  datatype Visibility = Public | Protected | Private

  /** Whether the library generates an attribute writer (`writer: false` turns it off). */
  datatype Writer = DefaultWriter | NoWriter

  /**
   * The default a descriptor stores: a plain value, or a proc that produces one.
   * A stored plain nil (`NoDefault`) means "no default", i.e. the parameter is required.
   */
  datatype DefaultValue = Literal(v: Value) | Producer(v: Value)

  const NoDefault: DefaultValue := Literal(Nil)

  /**
   * The keyword options of a `param` declaration; an absent key is None for reader
   * and default, and false (Ruby's falsy nil) for optional and positional.
   */
  datatype Options = Options(
    optional: bool,
    positional: bool,
    reader: Option<Visibility>,
    default: Option<DefaultValue>)

  const NoOptions: Options := Options(false, false, None, None)

  /** One registered property. */
  datatype Param = Param(
    name: string,
    signature: Signature,
    kind: Kind,
    default: DefaultValue,
    reader: Visibility,
    writer: Writer,
    coerce: Option<Value -> Value>)

  /** Required means the stored default is nil (lib/typed_operation/operations/introspection.rb). */
  predicate IsRequired(p: Param)
  {
    p.default == NoDefault
  }

  predicate IsPositional(p: Param)
  {
    p.kind == Positional
  }

  predicate IsKeyword(p: Param)
  {
    p.kind == Keyword
  }

  function Names(ps: seq<Param>): (ns: seq<string>)
    ensures |ns| == |ps|
    ensures forall i :: 0 <= i < |ps| ==> ns[i] == ps[i].name
  {
    if ps == [] then [] else [ps[0].name] + Names(ps[1..])
  }

  predicate UniqueNames(ps: seq<Param>)
  {
    NoDup(Names(ps))
  }

  /** `Base` builds on Literal::Struct, `ImmutableBase` on Literal::Data. */
  datatype BaseKind = MutableBase | ImmutableBase

  /** The steps of an instance's life that a trace records. */
  datatype Hook = PrepareHook | BeforeHook | PerformHook | AfterHook | CallHook

  /** An instance: its bound attributes and the instance variables its hooks set. */
  datatype InstanceState = InstanceState(attributes: Hash, ivars: map<string, Value>)

  /**
   * The methods a user's subclass may define. Each hook sees the instance state and
   * returns the instance variables it leaves behind; perform and call also return a
   * value or raise, and what they wrote before raising stays on the instance.
   */
  datatype Hooks = Hooks(
    prepare: Option<InstanceState -> map<string, Value>>,
    before: Option<InstanceState -> map<string, Value>>,
    perform: Option<InstanceState -> (map<string, Value>, Result<Value, Error>)>,
    after: Option<(InstanceState, Value) -> (map<string, Value>, Value)>,
    call: Option<InstanceState -> (map<string, Value>, Result<Value, Error>)>)

  const NoHooks: Hooks := Hooks(None, None, None, None, None)

  /**
   * An operation class as the rest of the model sees it: its name, its parameters in
   * declaration order, which base it inherits from, its hooks, and the `operation_key`
   * class method when the application defines one.
   */
  datatype Schema = Schema(
    name: string,
    params: seq<Param>,
    base: BaseKind,
    hooks: Hooks,
    operationKey: Option<string>)
}

=== FILE: errors.dfy ===
/**
 * The exceptions the operation core raises, with Ruby's superclass links.
 * The gem declares three of them (lib/typed_operation.rb): InvalidOperationError
 * is a StandardError, MissingParameterError an ArgumentError and ParameterError
 * a TypeError; the others are Ruby's own.
 */
module Errors {
  import opened Wrappers

  datatype ErrorClass =
    | StandardError
    | ArgumentError
    | TypeError
    | NameError
    | NoMethodError
    | InvalidOperationError
    | MissingParameterError
    | ParameterError

  /** Distance from StandardError in the class tree. */
  function Depth(c: ErrorClass): nat
  {
    match c
    case StandardError => 0
    case ArgumentError => 1
    case TypeError => 1
    case NameError => 1
    case InvalidOperationError => 1
    case NoMethodError => 2
    case MissingParameterError => 2
    case ParameterError => 2
  }

  /** The direct superclass; StandardError is the root of this tree. */
  function Superclass(c: ErrorClass): (r: Option<ErrorClass>)
    ensures r.None? <==> c == StandardError
    ensures r.Some? ==> Depth(r.value) + 1 == Depth(c)
  {
    match c
    case StandardError => None
    case ArgumentError => Some(StandardError)
    case TypeError => Some(StandardError)
    case NameError => Some(StandardError)
    case InvalidOperationError => Some(StandardError)
    case NoMethodError => Some(NameError)
    case MissingParameterError => Some(ArgumentError)
    case ParameterError => Some(TypeError)
  }

  /** Ruby's `c <= ancestor`: c is ancestor or inherits from it. */
  predicate IsA(c: ErrorClass, ancestor: ErrorClass)
    decreases Depth(c)
  {
    c == ancestor || (Superclass(c).Some? && IsA(Superclass(c).value, ancestor))
  }

  datatype Error = Error(cls: ErrorClass, message: string)

  /** Whether `rescue handler` (or `assert_raises(handler)`) catches e. */
  predicate Rescues(handler: ErrorClass, e: Error)
  {
    IsA(e.cls, handler)
  }

  lemma {:induction false} IsATransitive(a: ErrorClass, b: ErrorClass, c: ErrorClass)
    requires IsA(a, b) && IsA(b, c)
    ensures IsA(a, c)
    decreases Depth(a)
  {
    if a != b {
      IsATransitive(Superclass(a).value, b, c);
    }
  }

  /** An ancestor sits strictly higher in the tree unless it is the class itself. */
  lemma {:induction false} IsARaises(a: ErrorClass, b: ErrorClass)
    requires IsA(a, b)
    ensures Depth(b) <= Depth(a)
    ensures Depth(a) == Depth(b) ==> a == b
    decreases Depth(a)
  {
    if a != b {
      IsARaises(Superclass(a).value, b);
    }
  }

  lemma IsAAntisymmetric(a: ErrorClass, b: ErrorClass)
    requires IsA(a, b) && IsA(b, a)
    ensures a == b
  {
    IsARaises(a, b);
    IsARaises(b, a);
  }

  /** The three gem errors are caught by their Ruby parents and by nothing unrelated. */
  lemma Taxonomy()
    ensures IsA(MissingParameterError, ArgumentError)
    ensures IsA(ParameterError, TypeError)
    ensures IsA(InvalidOperationError, StandardError)
    ensures !IsA(MissingParameterError, TypeError) && !IsA(ParameterError, ArgumentError)
    ensures !IsA(InvalidOperationError, ArgumentError) && !IsA(InvalidOperationError, TypeError)
    ensures !IsA(NoMethodError, ArgumentError)
    ensures forall c :: IsA(c, StandardError)
  {
  }
}

=== FILE: executable.dfy ===
/**
 * The execution sequence of a mutable operation
 * (lib/typed_operation/operations/executable.rb): `call` is `execute_operation`,
 * which runs `before_execute_operation`, then `perform`, then
 * `after_execute_operation` on perform's value. Each step is the user's hook when
 * the class defines one and the gem's default otherwise. These functions specify
 * what the steps compute; `Instances.OperationInstance` performs them in place.
 */
module Executable {
  import opened Wrappers
  import opened RubyValues
  import opened Errors
  import opened OrderedHash
  import opened Descriptors

  /** The default `before_execute_operation` does nothing. */
  function BeforeExecuteOperation(s: Schema, st: InstanceState): (r: InstanceState)
    ensures r.attributes == st.attributes
    ensures s.hooks.before.None? ==> r == st
  {
    match s.hooks.before
    case None => st
    case Some(before) => InstanceState(st.attributes, before(st))
  }

  function NoPerformMessage(s: Schema): string
  {
    "Operation " + s.name + " does not implement #perform"
  }

  /**
   * `perform`: the instance it leaves and its value or error. The default raises
   * InvalidOperationError naming the class and leaves the instance as it was.
   */
  function Perform(s: Schema, st: InstanceState): (r: (InstanceState, Result<Value, Error>))
    ensures r.0.attributes == st.attributes
    ensures s.hooks.perform.None? ==> r == (st, Err(Error(InvalidOperationError, NoPerformMessage(s))))
  {
    match s.hooks.perform
    case None => (st, Err(Error(InvalidOperationError, NoPerformMessage(s))))
    case Some(perform) =>
      var (ivars, outcome) := perform(st);
      (InstanceState(st.attributes, ivars), outcome)
  }

  /** The default `after_execute_operation` returns perform's value unchanged. */
  function AfterExecuteOperation(s: Schema, st: InstanceState, retval: Value): (r: (InstanceState, Value))
    ensures r.0.attributes == st.attributes
    ensures s.hooks.after.None? ==> r == (st, retval)
  {
    match s.hooks.after
    case None => (st, retval)
    case Some(after) =>
      var (ivars, v) := after(st, retval);
      (InstanceState(st.attributes, ivars), v)
  }

  /** What a run leaves behind: its value or error, the instance, and the hooks it entered, in order. */
  datatype Execution = Execution(result: Result<Value, Error>, state: InstanceState, trace: seq<Hook>)

  /**
   * `execute_operation`: before, then perform on the instance before left, then after
   * on the instance perform left and on perform's value, all on one object. When
   * perform raises, after is not reached, the error is the result and the instance
   * keeps what perform wrote.
   */
  function ExecuteOperation(s: Schema, st: InstanceState): (e: Execution)
    ensures e.state.attributes == st.attributes
    ensures |e.trace| >= 2 && e.trace[..2] == [BeforeHook, PerformHook]
    ensures e.result.Ok? <==> e.trace == [BeforeHook, PerformHook, AfterHook]
    ensures e.result.Err? ==> (e.state, e.result) == Perform(s, BeforeExecuteOperation(s, st))
    ensures e.result.Ok? ==>
      var (performed, outcome) := Perform(s, BeforeExecuteOperation(s, st));
      outcome.Ok? && (e.state, e.result.value) == AfterExecuteOperation(s, performed, outcome.value)
  {
    var before := BeforeExecuteOperation(s, st);
    var (performed, outcome) := Perform(s, before);
    match outcome
    case Err(err) => Execution(Err(err), performed, [BeforeHook, PerformHook])
    case Ok(retval) =>
      var (after, v) := AfterExecuteOperation(s, performed, retval);
      Execution(Ok(v), after, [BeforeHook, PerformHook, AfterHook])
  }

  /** With the default before and after, a run gives perform's result and leaves the instance as perform left it. */
  lemma DefaultHooksGivePerformResult(s: Schema, st: InstanceState)
    requires s.hooks.before.None? && s.hooks.after.None?
    ensures (ExecuteOperation(s, st).state, ExecuteOperation(s, st).result) == Perform(s, st)
  {
  }

  /** An operation that does not define perform raises InvalidOperationError, which no ArgumentError or TypeError handler rescues. */
  lemma MissingPerformRaises(s: Schema, st: InstanceState)
    requires s.hooks.perform.None?
    ensures ExecuteOperation(s, st).result == Err(Error(InvalidOperationError, NoPerformMessage(s)))
    ensures ExecuteOperation(s, st).trace == [BeforeHook, PerformHook]
    ensures ExecuteOperation(s, st).state == BeforeExecuteOperation(s, st)
    ensures !Rescues(ArgumentError, ExecuteOperation(s, st).result.error)
    ensures !Rescues(TypeError, ExecuteOperation(s, st).result.error)
    ensures Rescues(StandardError, ExecuteOperation(s, st).result.error)
  {
    Taxonomy();
  }

  /** perform's value and after's value depend on the attributes only, not on instance variables. */
  ghost predicate ValueReadsAttributesOnly(s: Schema)
  {
    (s.hooks.perform.Some? ==>
      forall a: Hash, i1: map<string, Value>, i2: map<string, Value> ::
        s.hooks.perform.value(InstanceState(a, i1)).1 == s.hooks.perform.value(InstanceState(a, i2)).1) &&
    (s.hooks.after.Some? ==>
      forall a: Hash, i1: map<string, Value>, i2: map<string, Value>, v: Value ::
        s.hooks.after.value(InstanceState(a, i1), v).1 == s.hooks.after.value(InstanceState(a, i2), v).1)
  }

  /**
   * Nothing records that a run has happened: running again on the state a run leaves
   * enters all three steps again, on the same attributes, and (when the value does not
   * depend on instance variables) gives the same result.
   */
  lemma RunAgain(s: Schema, st: InstanceState)
    ensures var again := ExecuteOperation(s, ExecuteOperation(s, st).state);
      again.state.attributes == st.attributes && again.trace[..2] == [BeforeHook, PerformHook]
    ensures ValueReadsAttributesOnly(s) ==>
      ExecuteOperation(s, ExecuteOperation(s, st).state).result == ExecuteOperation(s, st).result
  {
    var first := ExecuteOperation(s, st);
    if ValueReadsAttributesOnly(s) {
      var b1 := BeforeExecuteOperation(s, st);
      var b2 := BeforeExecuteOperation(s, first.state);
      assert b1.attributes == b2.attributes;
      assert Perform(s, b1).1 == Perform(s, b2).1 by {
        if s.hooks.perform.Some? {
          assert b1 == InstanceState(b1.attributes, b1.ivars);
          assert b2 == InstanceState(b1.attributes, b2.ivars);
        }
      }
      var p1, p2 := Perform(s, b1).0, Perform(s, b2).0;
      if Perform(s, b1).1.Ok? && s.hooks.after.Some? {
        var v := Perform(s, b1).1.value;
        assert p1 == InstanceState(b1.attributes, p1.ivars);
        assert p2 == InstanceState(b1.attributes, p2.ivars);
        assert s.hooks.after.value(p1, v).1 == s.hooks.after.value(p2, v).1;
      }
    }
  }
}

=== FILE: instances.dfy ===
/**
 * An operation instance as an object: its attributes are fixed once bound (Base
 * declares every attribute without a writer, ImmutableBase is a frozen data object),
 * while the hooks change its instance variables. `trace` records the hooks entered,
 * in order. Each method performs one step of lib/typed_operation/operations/lifecycle.rb,
 * executable.rb or callable.rb in place and is proved against the function that
 * specifies that step.
 */
module Instances {
  import opened Wrappers
  import opened RubyValues
  import opened Errors
  import opened OrderedHash
  import opened Descriptors
  import opened Binding
  import opened Lifecycle
  import opened Executable
  import opened Callable
  import BaseOperation

  class OperationInstance {
    const schema: Schema
    const attributes: Hash
    var ivars: map<string, Value>
    var trace: seq<Hook>

    function State(): InstanceState
      reads this
    {
      InstanceState(attributes, ivars)
    }

    /** The generated initializer: attributes already bound, then `after_initialization`. */
    constructor (s: Schema, attributes: Hash)
      ensures schema == s && State() == Initialized(s, attributes)
      ensures trace == if s.hooks.prepare.Some? then [PrepareHook] else []
    {
      schema := s;
      this.attributes := attributes;
      ivars := map[];
      trace := [];
      new;
      AfterInitialization();
    }

    /** Runs prepare when the class defines it. */
    method AfterInitialization()
      modifies this
      ensures State() == Lifecycle.AfterInitialization(schema, old(State()))
      ensures trace == old(trace) + if schema.hooks.prepare.Some? then [PrepareHook] else []
    {
      match schema.hooks.prepare
      case None =>
      case Some(prepare) =>
        ivars := prepare(State());
        trace := trace + [PrepareHook];
    }

    method BeforeExecuteOperation()
      modifies this
      ensures State() == Executable.BeforeExecuteOperation(schema, old(State()))
      ensures trace == old(trace) + [BeforeHook]
    {
      trace := trace + [BeforeHook];
      match schema.hooks.before
      case None =>
      case Some(before) =>
        ivars := before(State());
    }

    method Perform() returns (r: Result<Value, Error>)
      modifies this
      ensures (State(), r) == Executable.Perform(schema, old(State()))
      ensures trace == old(trace) + [PerformHook]
    {
      trace := trace + [PerformHook];
      match schema.hooks.perform
      case None =>
        r := Err(Error(InvalidOperationError, NoPerformMessage(schema)));
      case Some(perform) =>
        var (newIvars, outcome) := perform(State());
        ivars := newIvars;
        r := outcome;
    }

    method AfterExecuteOperation(retval: Value) returns (r: Value)
      modifies this
      ensures (State(), r) == Executable.AfterExecuteOperation(schema, old(State()), retval)
      ensures trace == old(trace) + [AfterHook]
    {
      trace := trace + [AfterHook];
      r := retval;
      match schema.hooks.after
      case None =>
      case Some(after) =>
        var (newIvars, v) := after(State(), retval);
        ivars := newIvars;
        r := v;
    }

    /** `execute_operation`: before, perform, and after on perform's value unless perform raised, all on this object. */
    method ExecuteOperation() returns (r: Result<Value, Error>)
      modifies this
      ensures var e := Executable.ExecuteOperation(schema, old(State()));
        r == e.result && State() == e.state && trace == old(trace) + e.trace
    {
      BeforeExecuteOperation();
      var retval := Perform();
      if retval.Err? {
        r := retval;
        return;
      }
      var v := AfterExecuteOperation(retval.value);
      r := Ok(v);
    }

    /** The instance `call` that method lookup finds. */
    method Call() returns (r: Result<Value, Error>)
      modifies this
      ensures var e := InstanceCall(schema, old(State()));
        r == e.result && State() == e.state && trace == old(trace) + e.trace
    {
      match schema.hooks.call
      case Some(call) =>
        var (newIvars, outcome) := call(State());
        ivars := newIvars;
        r := outcome;
        trace := trace + [CallHook];
      case None =>
        match schema.base
        case MutableBase =>
          r := ExecuteOperation();
        case ImmutableBase =>
          r := Err(Error(InvalidOperationError, MustImplementCall));
    }

    /** Base's `with`: a fresh instance built from the merged attributes; the receiver is not modified. */
    method With(overrides: Hash) returns (r: Result<OperationInstance, Error>)
      requires UniqueNames(schema.params)
      ensures var spec := BaseOperation.With(schema, State(), overrides);
        (r.Ok? <==> spec.Ok?) &&
        (r.Ok? ==> fresh(r.value) && r.value.schema == schema && r.value.State() == spec.value) &&
        (r.Err? ==> r.error == spec.error)
    {
      r := New(schema, [], Merge(attributes, overrides));
    }
  }

  /** `new(*positional, **kw)`: binds the arguments, then initializes a fresh instance. */
  method New(s: Schema, positional: seq<Value>, kw: Hash) returns (r: Result<OperationInstance, Error>)
    requires UniqueNames(s.params)
    ensures r.Ok? <==> Construct(s, positional, kw).Ok?
    ensures r.Ok? ==> fresh(r.value) && r.value.schema == s && r.value.State() == Construct(s, positional, kw).value
    ensures r.Ok? ==> r.value.trace == if s.hooks.prepare.Some? then [PrepareHook] else []
    ensures r.Err? ==> r.error == Construct(s, positional, kw).error
  {
    match Bind(s.params, positional, kw)
    case Err(e) =>
      r := Err(e);
    case Ok(attributes) =>
      var instance := new OperationInstance(s, attributes);
      r := Ok(instance);
  }

  /** Class-level `call(...)`: `new(...).call` on a fresh instance. */
  method CallClass(s: Schema, positional: seq<Value>, kw: Hash) returns (r: Result<Value, Error>)
    requires UniqueNames(s.params)
    ensures r == ClassCall(s, positional, kw)
  {
    var instance := New(s, positional, kw);
    match instance
    case Err(e) =>
      r := Err(e);
    case Ok(op) =>
      r := op.Call();
  }
}

=== FILE: introspection.dfy ===
/**
 * The class-level views of an operation's parameter table
 * (lib/typed_operation/operations/introspection.rb): which names are positional
 * or keyword, which are required, which optional. Each is an order-preserving
 * filter over the declared parameters.
 */
module Introspection {
  import opened Lists
  import opened Descriptors

  /** Ruby's `filter_map { |name, attribute| name if keep(attribute) }`. */
  function FilterMapNames(ps: seq<Param>, keep: Param -> bool): seq<string>
  {
    if ps == [] then []
    else (if keep(ps[0]) then [ps[0].name] else []) + FilterMapNames(ps[1..], keep)
  }

  /** Ruby's `filter { |name, attribute| keep(attribute) }`. */
  function Filter(ps: seq<Param>, keep: Param -> bool): seq<Param>
  {
    if ps == [] then []
    else (if keep(ps[0]) then [ps[0]] else []) + Filter(ps[1..], keep)
  }

  function PositionalParameters(ps: seq<Param>): seq<string>
  {
    FilterMapNames(ps, IsPositional)
  }

  function KeywordParameters(ps: seq<Param>): seq<string>
  {
    FilterMapNames(ps, IsKeyword)
  }

  function RequiredParameters(ps: seq<Param>): seq<Param>
  {
    Filter(ps, IsRequired)
  }

  function RequiredPositionalParameters(ps: seq<Param>): seq<string>
  {
    FilterMapNames(RequiredParameters(ps), IsPositional)
  }

  function RequiredKeywordParameters(ps: seq<Param>): seq<string>
  {
    FilterMapNames(RequiredParameters(ps), IsKeyword)
  }

  function OptionalPositionalParameters(ps: seq<Param>): seq<string>
  {
    Minus(PositionalParameters(ps), RequiredPositionalParameters(ps))
  }

  function OptionalKeywordParameters(ps: seq<Param>): seq<string>
  {
    Minus(KeywordParameters(ps), RequiredKeywordParameters(ps))
  }

  /**
   * The declaration-order rule the parameter DSL enforces: once an optional
   * positional parameter is declared, no required positional one follows it.
   */
  predicate PositionalOrderHolds(ps: seq<Param>)
  {
    forall i, j :: 0 <= i < j < |ps| && IsPositional(ps[i]) && IsPositional(ps[j]) && !IsRequired(ps[i])
      ==> !IsRequired(ps[j])
  }

  // ----- membership

  /** A name is listed by a filter_map exactly when some parameter that passes has it. */
  lemma {:induction false} InFilterMapNames(ps: seq<Param>, keep: Param -> bool, n: string)
    ensures n in FilterMapNames(ps, keep) <==> exists i :: 0 <= i < |ps| && keep(ps[i]) && ps[i].name == n
    decreases |ps|
  {
    if ps != [] {
      InFilterMapNames(ps[1..], keep, n);
      if n in FilterMapNames(ps[1..], keep) {
        var i :| 0 <= i < |ps[1..]| && keep(ps[1..][i]) && ps[1..][i].name == n;
        assert ps[i + 1] == ps[1..][i];
      }
      if exists i :: 0 <= i < |ps| && keep(ps[i]) && ps[i].name == n {
        var i :| 0 <= i < |ps| && keep(ps[i]) && ps[i].name == n;
        if i > 0 {
          assert ps[1..][i - 1] == ps[i];
        }
      }
    }
  }

  /** `filter` keeps exactly the elements that pass, in their order. */
  lemma {:induction false} InFilter(ps: seq<Param>, keep: Param -> bool)
    ensures forall p :: p in Filter(ps, keep) <==> p in ps && keep(p)
    ensures IsSubsequence(Filter(ps, keep), ps)
    decreases |ps|
  {
    if ps != [] {
      InFilter(ps[1..], keep);
      assert ps == [ps[0]] + ps[1..];
      if keep(ps[0]) {
        assert Filter(ps, keep) == [ps[0]] + Filter(ps[1..], keep);
        SubsequenceCons(ps[0], Filter(ps[1..], keep), ps[1..]);
      } else {
        assert Filter(ps, keep) == Filter(ps[1..], keep);
        SubsequenceSkip(ps[0], Filter(ps[1..], keep), ps[1..]);
      }
    }
  }

  /** The same for a filter_map over a filtered list, such as the required positional names. */
  lemma {:induction false} InFilteredNames(ps: seq<Param>, first: Param -> bool, keep: Param -> bool, n: string)
    ensures n in FilterMapNames(Filter(ps, first), keep) <==>
            exists i :: 0 <= i < |ps| && first(ps[i]) && keep(ps[i]) && ps[i].name == n
    decreases |ps|
  {
    if ps != [] {
      var head := if first(ps[0]) then [ps[0]] else [];
      assert Filter(ps, first) == head + Filter(ps[1..], first);
      FilterMapNamesConcat(head, Filter(ps[1..], first), keep);
      InFilteredNames(ps[1..], first, keep, n);
      if n in FilterMapNames(Filter(ps[1..], first), keep) {
        var i :| 0 <= i < |ps[1..]| && first(ps[1..][i]) && keep(ps[1..][i]) && ps[1..][i].name == n;
        assert ps[i + 1] == ps[1..][i];
      }
      if exists i :: 0 <= i < |ps| && first(ps[i]) && keep(ps[i]) && ps[i].name == n {
        var i :| 0 <= i < |ps| && first(ps[i]) && keep(ps[i]) && ps[i].name == n;
        if i > 0 {
          assert ps[1..][i - 1] == ps[i];
        }
      }
    }
  }

  lemma {:induction false} FilterMapNamesConcat(a: seq<Param>, b: seq<Param>, keep: Param -> bool)
    ensures FilterMapNames(a + b, keep) == FilterMapNames(a, keep) + FilterMapNames(b, keep)
    decreases |a|
  {
    if a == [] {
      assert a + b == b;
    } else {
      var h: seq<string> := if keep(a[0]) then [a[0].name] else [];
      assert (a + b)[0] == a[0] && (a + b)[1..] == a[1..] + b;
      assert FilterMapNames(a + b, keep) == h + FilterMapNames(a[1..] + b, keep);
      FilterMapNamesConcat(a[1..], b, keep);
      assert FilterMapNames(a, keep) == h + FilterMapNames(a[1..], keep);
      assert h + (FilterMapNames(a[1..], keep) + FilterMapNames(b, keep)) == (h + FilterMapNames(a[1..], keep)) + FilterMapNames(b, keep);
    }
  }

  lemma {:induction false} FilterConcat(a: seq<Param>, b: seq<Param>, keep: Param -> bool)
    ensures Filter(a + b, keep) == Filter(a, keep) + Filter(b, keep)
    decreases |a|
  {
    if a == [] {
      assert a + b == b;
    } else {
      var h: seq<Param> := if keep(a[0]) then [a[0]] else [];
      assert (a + b)[0] == a[0] && (a + b)[1..] == a[1..] + b;
      assert Filter(a + b, keep) == h + Filter(a[1..] + b, keep);
      FilterConcat(a[1..], b, keep);
      assert Filter(a, keep) == h + Filter(a[1..], keep);
      assert h + (Filter(a[1..], keep) + Filter(b, keep)) == (h + Filter(a[1..], keep)) + Filter(b, keep);
    }
  }

  /** With unique names, a name identifies one parameter. */
  lemma SameName(ps: seq<Param>, i: int, j: int)
    requires UniqueNames(ps) && 0 <= i < |ps| && 0 <= j < |ps| && ps[i].name == ps[j].name
    ensures i == j
  {
    assert Names(ps)[i] == ps[i].name && Names(ps)[j] == ps[j].name;
  }

  // ----- order

  lemma {:induction false} FilterMapNamesIsSubsequence(ps: seq<Param>, keep: Param -> bool)
    ensures IsSubsequence(FilterMapNames(ps, keep), Names(ps))
    decreases |ps|
  {
    if ps != [] {
      FilterMapNamesIsSubsequence(ps[1..], keep);
      assert Names(ps) == [ps[0].name] + Names(ps[1..]);
      if keep(ps[0]) {
        SubsequenceCons(ps[0].name, FilterMapNames(ps[1..], keep), Names(ps[1..]));
      } else {
        assert FilterMapNames(ps, keep) == FilterMapNames(ps[1..], keep);
        SubsequenceSkip(ps[0].name, FilterMapNames(ps[1..], keep), Names(ps[1..]));
      }
    }
  }

  lemma {:induction false} FilteredIsSubsequence(ps: seq<Param>, first: Param -> bool, keep: Param -> bool)
    ensures IsSubsequence(FilterMapNames(Filter(ps, first), keep), FilterMapNames(ps, keep))
    decreases |ps|
  {
    if ps != [] {
      FilteredIsSubsequence(ps[1..], first, keep);
      var head := if first(ps[0]) then [ps[0]] else [];
      assert Filter(ps, first) == head + Filter(ps[1..], first);
      FilterMapNamesConcat(head, Filter(ps[1..], first), keep);
      var sub := FilterMapNames(Filter(ps[1..], first), keep);
      var all := FilterMapNames(ps[1..], keep);
      if keep(ps[0]) {
        assert FilterMapNames(ps, keep) == [ps[0].name] + all;
        if first(ps[0]) {
          assert FilterMapNames(Filter(ps, first), keep) == [ps[0].name] + sub;
          SubsequenceCons(ps[0].name, sub, all);
        } else {
          assert FilterMapNames(Filter(ps, first), keep) == sub;
          SubsequenceSkip(ps[0].name, sub, all);
        }
      } else {
        assert FilterMapNames(Filter(ps, first), keep) == sub;
        assert FilterMapNames(ps, keep) == all;
      }
    }
  }

  // ----- the properties of the views

  /**
   * Positional and keyword names are each in declaration order and together are
   * exactly the declared names; with unique names no name is in both.
   */
  lemma PositionalKeywordPartition(ps: seq<Param>)
    ensures IsSubsequence(PositionalParameters(ps), Names(ps))
    ensures IsSubsequence(KeywordParameters(ps), Names(ps))
    ensures multiset(PositionalParameters(ps)) + multiset(KeywordParameters(ps)) == multiset(Names(ps))
    ensures |PositionalParameters(ps)| + |KeywordParameters(ps)| == |ps|
    ensures UniqueNames(ps) ==>
              forall n :: n in PositionalParameters(ps) ==> n !in KeywordParameters(ps)
  {
    FilterMapNamesIsSubsequence(ps, IsPositional);
    FilterMapNamesIsSubsequence(ps, IsKeyword);
    PartitionCount(ps);
    assert |multiset(Names(ps))| == |ps|;
    if UniqueNames(ps) {
      forall n | n in PositionalParameters(ps)
        ensures n !in KeywordParameters(ps)
      {
        InFilterMapNames(ps, IsPositional, n);
        InFilterMapNames(ps, IsKeyword, n);
        var i :| 0 <= i < |ps| && IsPositional(ps[i]) && ps[i].name == n;
        if j :| 0 <= j < |ps| && IsKeyword(ps[j]) && ps[j].name == n {
          SameName(ps, i, j);
        }
      }
    }
  }

  lemma {:induction false} PartitionCount(ps: seq<Param>)
    ensures multiset(PositionalParameters(ps)) + multiset(KeywordParameters(ps)) == multiset(Names(ps))
    decreases |ps|
  {
    if ps != [] {
      PartitionCount(ps[1..]);
      assert Names(ps) == [ps[0].name] + Names(ps[1..]);
    }
  }

  /**
   * What each view of introspection.rb:7-35 lists: the declared names of its kind;
   * for the required views, those of required parameters; for the optional views,
   * the names of its kind that the required view does not list. `required_parameters`
   * keeps exactly the required descriptors, in declaration order.
   */
  lemma ViewMembership(ps: seq<Param>, n: string)
    ensures n in PositionalParameters(ps) <==> exists i :: 0 <= i < |ps| && IsPositional(ps[i]) && ps[i].name == n
    ensures n in KeywordParameters(ps) <==> exists i :: 0 <= i < |ps| && IsKeyword(ps[i]) && ps[i].name == n
    ensures forall p :: p in RequiredParameters(ps) <==> p in ps && IsRequired(p)
    ensures IsSubsequence(RequiredParameters(ps), ps)
    ensures n in RequiredPositionalParameters(ps) <==>
            exists i :: 0 <= i < |ps| && IsRequired(ps[i]) && IsPositional(ps[i]) && ps[i].name == n
    ensures n in RequiredKeywordParameters(ps) <==>
            exists i :: 0 <= i < |ps| && IsRequired(ps[i]) && IsKeyword(ps[i]) && ps[i].name == n
    ensures n in OptionalPositionalParameters(ps) <==>
            n in PositionalParameters(ps) && n !in RequiredPositionalParameters(ps)
    ensures n in OptionalKeywordParameters(ps) <==>
            n in KeywordParameters(ps) && n !in RequiredKeywordParameters(ps)
  {
    InFilterMapNames(ps, IsPositional, n);
    InFilterMapNames(ps, IsKeyword, n);
    InFilter(ps, IsRequired);
    InFilteredNames(ps, IsRequired, IsPositional, n);
    InFilteredNames(ps, IsRequired, IsKeyword, n);
    MinusMember(PositionalParameters(ps), RequiredPositionalParameters(ps), n);
    MinusMember(KeywordParameters(ps), RequiredKeywordParameters(ps), n);
  }

  /** Required positional names are positional names, in the same order; likewise for keywords. */
  lemma RequiredViewsAreSubsequences(ps: seq<Param>)
    ensures IsSubsequence(RequiredPositionalParameters(ps), PositionalParameters(ps))
    ensures IsSubsequence(RequiredKeywordParameters(ps), KeywordParameters(ps))
  {
    FilteredIsSubsequence(ps, IsRequired, IsPositional);
    FilteredIsSubsequence(ps, IsRequired, IsKeyword);
  }

  /**
   * With unique names, a positional parameter is listed as optional exactly when it
   * has a default; required and optional positional names are disjoint and together
   * make up the positional names.
   */
  lemma OptionalPositionalSplit(ps: seq<Param>)
    requires UniqueNames(ps)
    ensures forall i :: 0 <= i < |ps| && IsPositional(ps[i]) ==>
              (ps[i].name in OptionalPositionalParameters(ps) <==> !IsRequired(ps[i]))
    ensures forall n :: n in RequiredPositionalParameters(ps) ==> n !in OptionalPositionalParameters(ps)
    ensures multiset(RequiredPositionalParameters(ps)) + multiset(OptionalPositionalParameters(ps))
            == multiset(PositionalParameters(ps))
  {
    forall i | 0 <= i < |ps| && IsPositional(ps[i])
      ensures ps[i].name in OptionalPositionalParameters(ps) <==> !IsRequired(ps[i])
    {
      OptionalByIndex(ps, IsPositional, i);
    }
    ComplementOfRequired(ps, IsPositional);
  }

  /** The keyword counterpart of OptionalPositionalSplit. */
  lemma OptionalKeywordSplit(ps: seq<Param>)
    requires UniqueNames(ps)
    ensures forall i :: 0 <= i < |ps| && IsKeyword(ps[i]) ==>
              (ps[i].name in OptionalKeywordParameters(ps) <==> !IsRequired(ps[i]))
    ensures forall n :: n in RequiredKeywordParameters(ps) ==> n !in OptionalKeywordParameters(ps)
    ensures multiset(RequiredKeywordParameters(ps)) + multiset(OptionalKeywordParameters(ps))
            == multiset(KeywordParameters(ps))
  {
    forall i | 0 <= i < |ps| && IsKeyword(ps[i])
      ensures ps[i].name in OptionalKeywordParameters(ps) <==> !IsRequired(ps[i])
    {
      OptionalByIndex(ps, IsKeyword, i);
    }
    ComplementOfRequired(ps, IsKeyword);
  }

  lemma OptionalByIndex(ps: seq<Param>, keep: Param -> bool, i: int)
    requires UniqueNames(ps) && 0 <= i < |ps| && keep(ps[i])
    ensures ps[i].name in Minus(FilterMapNames(ps, keep), FilterMapNames(RequiredParameters(ps), keep))
            <==> !IsRequired(ps[i])
  {
    var n := ps[i].name;
    InFilterMapNames(ps, keep, n);
    InFilteredNames(ps, IsRequired, keep, n);
    if exists j :: 0 <= j < |ps| && IsRequired(ps[j]) && keep(ps[j]) && ps[j].name == n {
      var j :| 0 <= j < |ps| && IsRequired(ps[j]) && keep(ps[j]) && ps[j].name == n;
      SameName(ps, i, j);
    }
    MinusMember(FilterMapNames(ps, keep), FilterMapNames(RequiredParameters(ps), keep), n);
  }

  lemma ComplementOfRequired(ps: seq<Param>, keep: Param -> bool)
    requires UniqueNames(ps)
    ensures var all := FilterMapNames(ps, keep);
            var req := FilterMapNames(RequiredParameters(ps), keep);
            multiset(req) + multiset(Minus(all, req)) == multiset(all)
  {
    FilterMapNamesIsSubsequence(ps, keep);
    SubsequenceNoDup(FilterMapNames(ps, keep), Names(ps));
    FilteredIsSubsequence(ps, IsRequired, keep);
    MinusComplement(FilterMapNames(ps, keep), FilterMapNames(RequiredParameters(ps), keep));
  }

  /**
   * Under the declaration-order rule the required positional names are a prefix of
   * the positional names: binding values by position fills them first.
   */
  lemma {:induction false} RequiredPositionalPrefix(ps: seq<Param>)
    requires PositionalOrderHolds(ps)
    ensures |RequiredPositionalParameters(ps)| <= |PositionalParameters(ps)|
    ensures RequiredPositionalParameters(ps)
            == PositionalParameters(ps)[..|RequiredPositionalParameters(ps)|]
    decreases |ps|
  {
    if ps != [] {
      var rest := ps[1..];
      assert PositionalOrderHolds(rest) by {
        forall i, j | 0 <= i < j < |rest| && IsPositional(rest[i]) && IsPositional(rest[j]) && !IsRequired(rest[i])
          ensures !IsRequired(rest[j])
        {
          assert rest[i] == ps[i + 1] && rest[j] == ps[j + 1];
        }
      }
      RequiredPositionalPrefix(rest);
      var head := if IsRequired(ps[0]) then [ps[0]] else [];
      assert RequiredParameters(ps) == head + RequiredParameters(rest);
      FilterMapNamesConcat(head, RequiredParameters(rest), IsPositional);
      var req := RequiredPositionalParameters(rest);
      var pos := PositionalParameters(rest);
      if !IsPositional(ps[0]) {
        assert RequiredPositionalParameters(ps) == req;
        assert PositionalParameters(ps) == pos;
      } else if IsRequired(ps[0]) {
        assert RequiredPositionalParameters(ps) == [ps[0].name] + req;
        assert PositionalParameters(ps) == [ps[0].name] + pos;
        assert ([ps[0].name] + pos)[..|req| + 1] == [ps[0].name] + pos[..|req|];
      } else {
        forall i | 0 <= i < |rest| && IsPositional(rest[i])
          ensures !IsRequired(rest[i])
        {
          assert rest[i] == ps[i + 1];
        }
        NoRequiredPositional(rest);
        assert RequiredPositionalParameters(ps) == [];
      }
    }
  }

  lemma {:induction false} NoRequiredPositional(ps: seq<Param>)
    requires forall i :: 0 <= i < |ps| && IsPositional(ps[i]) ==> !IsRequired(ps[i])
    ensures RequiredPositionalParameters(ps) == []
    decreases |ps|
  {
    if ps != [] {
      NoRequiredPositional(ps[1..]);
      var head := if IsRequired(ps[0]) then [ps[0]] else [];
      assert RequiredParameters(ps) == head + RequiredParameters(ps[1..]);
      FilterMapNamesConcat(head, RequiredParameters(ps[1..]), IsPositional);
    }
  }

  /** An operation that declares nothing has every view empty. */
  lemma EmptyTableViews()
    ensures PositionalParameters([]) == [] && KeywordParameters([]) == []
    ensures RequiredParameters([]) == []
    ensures RequiredPositionalParameters([]) == [] && RequiredKeywordParameters([]) == []
    ensures OptionalPositionalParameters([]) == [] && OptionalKeywordParameters([]) == []
  {
  }
}

=== FILE: lifecycle.dfy ===
/**
 * Construction of an instance (lib/typed_operation/operations/lifecycle.rb): the
 * initializer binds the arguments, then `after_initialization` runs the operation's
 * `prepare` hook when the class defines one.
 */
module Lifecycle {
  import opened Wrappers
  import opened RubyValues
  import opened Errors
  import opened OrderedHash
  import opened Descriptors
  import opened Binding

  /** `after_initialization`: runs prepare when the class defines it; otherwise nothing changes. */
  function AfterInitialization(s: Schema, st: InstanceState): (r: InstanceState)
    ensures r.attributes == st.attributes
    ensures s.hooks.prepare.None? ==> r == st
  {
    match s.hooks.prepare
    case None => st
    case Some(prepare) => InstanceState(st.attributes, prepare(st))
  }

  /** A freshly bound instance once the initializer has run: no instance variables but prepare's. */
  function Initialized(s: Schema, attributes: Hash): (st: InstanceState)
    ensures st.attributes == attributes
    ensures s.hooks.prepare.None? ==> st.ivars == map[]
  {
    AfterInitialization(s, InstanceState(attributes, map[]))
  }

  /** `new(*positional, **kw)`: binding, then the initialization hook; binding errors propagate. */
  function Construct(s: Schema, positional: seq<Value>, kw: Hash): (r: Result<InstanceState, Error>)
    requires UniqueNames(s.params)
    ensures r.Ok? <==> Bind(s.params, positional, kw).Ok?
    ensures r.Ok? ==> r.value.attributes == Bind(s.params, positional, kw).value
    ensures r.Err? ==> r.error == Bind(s.params, positional, kw).error
    ensures r.Ok? ==> r.value == Initialized(s, r.value.attributes)
  {
    match Bind(s.params, positional, kw)
    case Err(e) => Err(e)
    case Ok(attributes) => Ok(Initialized(s, attributes))
  }

  /** What prepare leaves in the instance variables is visible once `new` returns. */
  lemma PrepareStateVisible(s: Schema, positional: seq<Value>, kw: Hash)
    requires UniqueNames(s.params) && s.hooks.prepare.Some?
    requires Bind(s.params, positional, kw).Ok?
    ensures var attributes := Bind(s.params, positional, kw).value;
      Construct(s, positional, kw) == Ok(InstanceState(attributes, s.hooks.prepare.value(InstanceState(attributes, map[]))))
  {
  }

  /** A missing required argument makes `new` raise before prepare can run. */
  lemma MissingArgumentStopsConstruction(s: Schema, positional: seq<Value>, kw: Hash, i: nat)
    requires UniqueNames(s.params) && i < |s.params| && IsRequired(s.params[i])
    requires IsPositional(s.params[i]) ==> PositionalSlot(s.params, i) >= |positional|
    requires IsKeyword(s.params[i]) ==> !HasKey(kw, s.params[i].name)
    ensures Construct(s, positional, kw).Err?
    ensures Rescues(ArgumentError, Construct(s, positional, kw).error)
  {
    MissingRequiredRaises(s.params, positional, kw, i);
  }
}

=== FILE: lists.dfy ===
/** Ruby array operations the core relies on: `Array#-`, and facts about order and duplicates. */
module Lists {

  /** Ruby's `xs - ys`: the elements of xs that do not occur in ys, in xs's order. */
  function Minus<T(==)>(xs: seq<T>, ys: seq<T>): (r: seq<T>)
    ensures |r| <= |xs|
    ensures forall i :: 0 <= i < |r| ==> r[i] in xs && r[i] !in ys
    ensures forall i :: 0 <= i < |xs| && xs[i] !in ys ==> xs[i] in r
  {
    if xs == [] then []
    else (if xs[0] in ys then [] else [xs[0]]) + Minus(xs[1..], ys)
  }

  predicate NoDup<T(==)>(xs: seq<T>)
  {
    forall i, j :: 0 <= i < j < |xs| ==> xs[i] != xs[j]
  }

  /** The position of x's first occurrence in xs. */
  function IndexOf<T(==)>(xs: seq<T>, x: T): (i: nat)
    requires x in xs
    ensures i < |xs| && xs[i] == x && x !in xs[..i]
  {
    if xs[0] == x then 0
    else
      assert xs == [xs[0]] + xs[1..];
      var j := IndexOf(xs[1..], x);
      assert xs[..j + 1] == [xs[0]] + xs[1..][..j];
      1 + j
  }

  /**
   * Appending y to xs leaves the first occurrence of an element of xs where it was;
   * an element new to xs first occurs at the end.
   */
  lemma IndexOfSnoc<T>(xs: seq<T>, y: T, x: T)
    requires x in xs + [y]
    ensures x in xs ==> IndexOf(xs + [y], x) == IndexOf(xs, x)
    ensures x !in xs ==> IndexOf(xs + [y], x) == |xs|
  {
    var zs := xs + [y];
    var a := IndexOf(zs, x);
    if x in xs {
      var b := IndexOf(xs, x);
      assert zs[b] == x && zs[..b] == xs[..b];
      FirstOccurrenceUnique(zs, x, a, b);
    } else {
      assert zs[|xs|] == x && zs[..|xs|] == xs;
      FirstOccurrenceUnique(zs, x, a, |xs|);
    }
  }

  /** Only one position is the first occurrence of x. */
  lemma FirstOccurrenceUnique<T>(xs: seq<T>, x: T, a: nat, b: nat)
    requires a < |xs| && b < |xs| && xs[a] == x && xs[b] == x && x !in xs[..a] && x !in xs[..b]
    ensures a == b
  {
  }

  /** xs is ys with some elements deleted: the elements that remain keep ys's order. */
  predicate IsSubsequence<T(==)>(xs: seq<T>, ys: seq<T>)
    decreases |ys|
  {
    xs == [] ||
    (ys != [] &&
     ((xs[0] == ys[0] && IsSubsequence(xs[1..], ys[1..])) || IsSubsequence(xs, ys[1..])))
  }

  lemma NoDupTail<T>(xs: seq<T>)
    requires xs != [] && NoDup(xs)
    ensures NoDup(xs[1..]) && xs[0] !in xs[1..]
  {
    forall e | e in xs[1..]
      ensures e != xs[0]
    {
      var k :| 0 <= k < |xs[1..]| && xs[1..][k] == e;
      assert xs[k + 1] == e;
    }
  }

  lemma SubsequenceCons<T>(x: T, xs: seq<T>, ys: seq<T>)
    requires IsSubsequence(xs, ys)
    ensures IsSubsequence([x] + xs, [x] + ys)
  {
    assert ([x] + xs)[1..] == xs && ([x] + ys)[1..] == ys;
  }

  lemma SubsequenceSkip<T>(x: T, xs: seq<T>, ys: seq<T>)
    requires IsSubsequence(xs, ys)
    ensures IsSubsequence(xs, [x] + ys)
  {
    assert ([x] + ys)[1..] == ys;
  }

  lemma {:induction false} SubsequenceMembers<T>(xs: seq<T>, ys: seq<T>)
    requires IsSubsequence(xs, ys)
    ensures forall e :: e in xs ==> e in ys
    decreases |ys|
  {
    if xs != [] {
      if xs[0] == ys[0] && IsSubsequence(xs[1..], ys[1..]) {
        SubsequenceMembers(xs[1..], ys[1..]);
        assert xs == [xs[0]] + xs[1..];
        assert ys == [ys[0]] + ys[1..];
      } else {
        SubsequenceMembers(xs, ys[1..]);
        assert ys == [ys[0]] + ys[1..];
      }
    }
  }

  lemma {:induction false} SubsequenceRefl<T>(xs: seq<T>)
    ensures IsSubsequence(xs, xs)
    decreases |xs|
  {
    if xs != [] {
      SubsequenceRefl(xs[1..]);
    }
  }

  lemma {:induction false} SubsequenceTrans<T>(xs: seq<T>, ys: seq<T>, zs: seq<T>)
    requires IsSubsequence(xs, ys) && IsSubsequence(ys, zs)
    ensures IsSubsequence(xs, zs)
    decreases |zs|
  {
    if xs != [] {
      assert ys != [] && zs != [];
      if ys[0] == zs[0] && IsSubsequence(ys[1..], zs[1..]) {
        if xs[0] == ys[0] && IsSubsequence(xs[1..], ys[1..]) {
          SubsequenceTrans(xs[1..], ys[1..], zs[1..]);
        } else {
          SubsequenceTrans(xs, ys[1..], zs[1..]);
        }
      } else {
        SubsequenceTrans(xs, ys, zs[1..]);
      }
    }
  }

  lemma {:induction false} SubsequenceLength<T>(xs: seq<T>, ys: seq<T>)
    requires IsSubsequence(xs, ys)
    ensures |xs| <= |ys|
    decreases |ys|
  {
    if xs != [] {
      if xs[0] == ys[0] && IsSubsequence(xs[1..], ys[1..]) {
        SubsequenceLength(xs[1..], ys[1..]);
      } else {
        SubsequenceLength(xs, ys[1..]);
      }
    }
  }

  /** A subsequence of a list without duplicates has none either. */
  lemma {:induction false} SubsequenceNoDup<T>(xs: seq<T>, ys: seq<T>)
    requires IsSubsequence(xs, ys) && NoDup(ys)
    ensures NoDup(xs)
    decreases |ys|
  {
    if xs != [] {
      NoDupTail(ys);
      if xs[0] == ys[0] && IsSubsequence(xs[1..], ys[1..]) {
        SubsequenceNoDup(xs[1..], ys[1..]);
        SubsequenceMembers(xs[1..], ys[1..]);
        forall i, j | 0 <= i < j < |xs|
          ensures xs[i] != xs[j]
        {
          if i == 0 {
            assert xs[j] == xs[1..][j - 1];
          } else {
            assert xs[i] == xs[1..][i - 1] && xs[j] == xs[1..][j - 1];
          }
        }
      } else {
        SubsequenceNoDup(xs, ys[1..]);
      }
    }
  }

  lemma MinusNothing<T>(xs: seq<T>)
    ensures Minus(xs, []) == xs
  {
  }

  lemma {:induction false} MinusConcat<T>(xs: seq<T>, zs: seq<T>, ys: seq<T>)
    ensures Minus(xs + zs, ys) == Minus(xs, ys) + Minus(zs, ys)
    decreases |xs|
  {
    if xs != [] {
      assert (xs + zs)[1..] == xs[1..] + zs;
      MinusConcat(xs[1..], zs, ys);
    } else {
      assert xs + zs == zs;
    }
  }

  /** Only membership in the excluded list matters, not its order or repetitions. */
  lemma {:induction false} MinusSameMembers<T>(xs: seq<T>, ys: seq<T>, zs: seq<T>)
    requires forall e :: e in xs ==> (e in ys <==> e in zs)
    ensures Minus(xs, ys) == Minus(xs, zs)
    decreases |xs|
  {
    if xs != [] {
      MinusSameMembers(xs[1..], ys, zs);
    }
  }

  lemma MinusMinus<T>(xs: seq<T>, ys: seq<T>, zs: seq<T>)
    ensures Minus(Minus(xs, ys), zs) == Minus(xs, ys + zs)
  {
    MinusMinusRec(xs, ys, zs);
  }

  lemma {:induction false} MinusMinusRec<T>(xs: seq<T>, ys: seq<T>, zs: seq<T>)
    ensures Minus(Minus(xs, ys), zs) == Minus(xs, ys + zs)
    decreases |xs|
  {
    if xs != [] {
      MinusMinusRec(xs[1..], ys, zs);
      var head := if xs[0] in ys then [] else [xs[0]];
      MinusConcat(head, Minus(xs[1..], ys), zs);
    }
  }

  lemma {:induction false} MinusIsSubsequence<T>(xs: seq<T>, ys: seq<T>)
    ensures IsSubsequence(Minus(xs, ys), xs)
    decreases |xs|
  {
    if xs != [] {
      MinusIsSubsequence(xs[1..], ys);
      if xs[0] in ys {
        assert Minus(xs, ys) == Minus(xs[1..], ys);
      } else {
        assert Minus(xs, ys) == [xs[0]] + Minus(xs[1..], ys);
        assert Minus(xs, ys)[1..] == Minus(xs[1..], ys);
      }
    }
  }

  lemma MinusNoDup<T>(xs: seq<T>, ys: seq<T>)
    requires NoDup(xs)
    ensures NoDup(Minus(xs, ys))
  {
    MinusIsSubsequence(xs, ys);
    SubsequenceNoDup(Minus(xs, ys), xs);
  }

  /**
   * Excluding one more element that is present (once) shortens the difference by
   * exactly one.
   */
  lemma {:induction false} MinusDropOne<T>(xs: seq<T>, ys: seq<T>, e: T)
    requires NoDup(xs) && e in xs && e !in ys
    ensures |Minus(xs, ys + [e])| + 1 == |Minus(xs, ys)|
    decreases |xs|
  {
    NoDupTail(xs);
    if xs[0] == e {
      MinusSameMembers(xs[1..], ys + [e], ys);
    } else {
      MinusDropOne(xs[1..], ys, e);
    }
  }

  /**
   * When xs is drawn from ys (in order) and ys has no duplicates, `ys - xs` and xs
   * together are exactly ys.
   */
  lemma {:induction false} MinusComplement<T>(ys: seq<T>, xs: seq<T>)
    requires NoDup(ys) && IsSubsequence(xs, ys)
    ensures multiset(Minus(ys, xs)) + multiset(xs) == multiset(ys)
    decreases |ys|
  {
    if xs == [] {
      MinusNothing(ys);
    } else {
      NoDupTail(ys);
      if xs[0] == ys[0] && IsSubsequence(xs[1..], ys[1..]) {
        MinusComplement(ys[1..], xs[1..]);
        MinusComplementHead(ys, xs);
      } else {
        MinusComplement(ys[1..], xs);
        MinusComplementSkip(ys, xs);
      }
    }
  }

  lemma MinusComplementHead<T>(ys: seq<T>, xs: seq<T>)
    requires ys != [] && xs != [] && xs[0] == ys[0] && ys[0] !in ys[1..]
    requires multiset(Minus(ys[1..], xs[1..])) + multiset(xs[1..]) == multiset(ys[1..])
    ensures multiset(Minus(ys, xs)) + multiset(xs) == multiset(ys)
  {
    MinusSharedHead(ys, xs);
    MultisetCons(xs);
    MultisetCons(ys);
  }

  /** When both lists start with the same element, which the rest of ys lacks, it drops out of ys - xs. */
  lemma MinusSharedHead<T>(ys: seq<T>, xs: seq<T>)
    requires ys != [] && xs != [] && xs[0] == ys[0] && ys[0] !in ys[1..]
    ensures Minus(ys, xs) == Minus(ys[1..], xs[1..])
  {
    assert xs == [xs[0]] + xs[1..];
    forall e | e in ys[1..]
      ensures e in xs <==> e in xs[1..]
    {
      assert e != xs[0];
    }
    MinusSameMembers(ys[1..], xs, xs[1..]);
    MinusUnfold(ys, xs);
  }

  lemma MinusComplementSkip<T>(ys: seq<T>, xs: seq<T>)
    requires ys != [] && ys[0] !in ys[1..]
    requires IsSubsequence(xs, ys[1..])
    requires multiset(Minus(ys[1..], xs)) + multiset(xs) == multiset(ys[1..])
    ensures multiset(Minus(ys, xs)) + multiset(xs) == multiset(ys)
  {
    SubsequenceMembers(xs, ys[1..]);
    MinusUnfold(ys, xs);
    MultisetCons(ys);
  }

  lemma MinusUnfold<T>(xs: seq<T>, ys: seq<T>)
    requires xs != []
    ensures xs[0] in ys ==> Minus(xs, ys) == Minus(xs[1..], ys)
    ensures xs[0] !in ys ==> Minus(xs, ys) == [xs[0]] + Minus(xs[1..], ys)
  {
  }

  lemma MultisetCons<T>(xs: seq<T>)
    requires xs != []
    ensures multiset(xs) == multiset{xs[0]} + multiset(xs[1..])
  {
    assert xs == [xs[0]] + xs[1..];
  }

  lemma MinusMember<T>(xs: seq<T>, ys: seq<T>, e: T)
    ensures e in Minus(xs, ys) <==> e in xs && e !in ys
  {
  }
  /** The first element of `xs - ys` is the first element of xs that ys does not hold. */
  lemma {:induction false} MinusFirst<T>(xs: seq<T>, ys: seq<T>)
    requires Minus(xs, ys) != []
    ensures exists i :: 0 <= i < |xs| && xs[i] == Minus(xs, ys)[0] && forall j :: 0 <= j < i ==> xs[j] in ys
    decreases |xs|
  {
    if xs[0] in ys {
      MinusFirst(xs[1..], ys);
      var i :| 0 <= i < |xs[1..]| && xs[1..][i] == Minus(xs[1..], ys)[0] && forall j :: 0 <= j < i ==> xs[1..][j] in ys;
      assert xs[i + 1] == Minus(xs, ys)[0];
      forall j | 0 <= j < i + 1
        ensures xs[j] in ys
      {
        if j > 0 {
          assert xs[j] == xs[1..][j - 1];
        }
      }
    } else {
      assert xs[0] == Minus(xs, ys)[0];
    }
  }
}

=== FILE: ordered_hash.dfy ===
/**
 * Ruby's Hash with symbol keys, as an insertion-ordered list of entries whose keys
 * are distinct. Only the operations the operation core uses are modelled:
 * lookup, `merge`, `slice`, `values`, `keys`.
 */
module OrderedHash {
  import opened RubyValues
  import opened Lists

  type Entry = (string, Value)

  function Keys(h: seq<Entry>): (ks: seq<string>)
    ensures |ks| == |h|
    ensures forall i :: 0 <= i < |h| ==> ks[i] == h[i].0
  {
    if h == [] then [] else [h[0].0] + Keys(h[1..])
  }

  /** Ruby's `Hash#values`: the values in insertion order. */
  function Values(h: seq<Entry>): (vs: seq<Value>)
    ensures |vs| == |h|
    ensures forall i :: 0 <= i < |h| ==> vs[i] == h[i].1
  {
    if h == [] then [] else [h[0].1] + Values(h[1..])
  }

  type Hash = h: seq<Entry> | NoDup(Keys(h)) witness []

  predicate HasKey(h: seq<Entry>, k: string)
  {
    k in Keys(h)
  }

  /** `h[k]` for a key that is present: the value of its first entry. */
  function Get(h: seq<Entry>, k: string): Value
    requires HasKey(h, k)
  {
    if h[0].0 == k then h[0].1 else Get(h[1..], k)
  }

  /** Ruby's `Hash#fetch(k, default)`. */
  function Fetch(h: seq<Entry>, k: string, default: Value): Value
  {
    if HasKey(h, k) then Get(h, k) else default
  }

  /** a's entries in a's order, each value replaced by b's where b has the key. */
  function Overwrite(a: seq<Entry>, b: seq<Entry>): (r: seq<Entry>)
    ensures Keys(r) == Keys(a)
  {
    if a == [] then [] else [(a[0].0, Fetch(b, a[0].0, a[0].1))] + Overwrite(a[1..], b)
  }

  /** b's entries whose key is not in ks, in b's order. */
  function Fresh(b: seq<Entry>, ks: seq<string>): (r: seq<Entry>)
    ensures Keys(r) == Minus(Keys(b), ks)
  {
    if b == [] then []
    else
      KeysConcat(if b[0].0 in ks then [] else [b[0]], Fresh(b[1..], ks));
      (if b[0].0 in ks then [] else [b[0]]) + Fresh(b[1..], ks)
  }

  /**
   * Ruby's `a.merge(b)`: every key of either, b's value winning; a's keys keep
   * their place and b's new keys follow in b's order.
   */
  function Merge(a: Hash, b: Hash): (r: Hash)
    ensures Keys(r) == Keys(a) + Minus(Keys(b), Keys(a))
    ensures forall k :: HasKey(r, k) <==> HasKey(a, k) || HasKey(b, k)
    ensures forall k :: HasKey(b, k) ==> Get(r, k) == Get(b, k)
    ensures forall k :: HasKey(a, k) && !HasKey(b, k) ==> Get(r, k) == Get(a, k)
  {
    var r := Overwrite(a, b) + Fresh(b, Keys(a));
    MergeFacts(a, b);
    r
  }

  /** `h.merge(k => v)`. */
  function Put(h: Hash, k: string, v: Value): (r: Hash)
    ensures HasKey(r, k) && Get(r, k) == v
    ensures forall j :: j != k ==> (HasKey(r, j) <==> HasKey(h, j))
    ensures forall j :: j != k && HasKey(h, j) ==> Get(r, j) == Get(h, j)
  {
    Merge(h, Single(k, v))
  }

  /** The one-entry hash `{k => v}`. */
  function Single(k: string, v: Value): (r: Hash)
    ensures Keys(r) == [k] && HasKey(r, k) && Get(r, k) == v
  {
    [(k, v)]
  }

  /**
   * Ruby's `h.slice(*ks)`: the entries of h whose key is requested, in the order
   * the keys are requested, leaving out keys h does not have.
   */
  function Slice(h: Hash, ks: seq<string>): (r: Hash)
    ensures forall k :: HasKey(r, k) <==> k in ks && HasKey(h, k)
    ensures forall k :: HasKey(r, k) ==> Get(r, k) == Get(h, k)
    ensures InRequestOrder(r, ks)
    ensures |r| <= |ks|
    decreases |ks|
  {
    if ks == [] then []
    else
      var init := ks[..|ks| - 1];
      var s := Slice(h, init);
      var k := ks[|ks| - 1];
      assert ks == init + [k];
      if HasKey(h, k) && !HasKey(s, k) then
        AppendFresh(s, k, Get(h, k));
        RequestOrderSnoc(s, init, k, Get(h, k));
        s + [(k, Get(h, k))]
      else
        RequestOrderSnoc(s, init, k, Nil);
        s
  }

  /** The keys of r occur in ks, and in the order of their first request in ks. */
  predicate InRequestOrder(r: seq<Entry>, ks: seq<string>)
  {
    (forall i :: 0 <= i < |r| ==> r[i].0 in ks) &&
    forall i, j :: 0 <= i < j < |r| && r[i].0 in ks && r[j].0 in ks ==> IndexOf(ks, r[i].0) < IndexOf(ks, r[j].0)
  }

  // ----- lemmas

  lemma KeysConcat(a: seq<Entry>, b: seq<Entry>)
    ensures Keys(a + b) == Keys(a) + Keys(b)
  {
  }

  lemma ValuesConcat(a: seq<Entry>, b: seq<Entry>)
    ensures Values(a + b) == Values(a) + Values(b)
  {
  }

  /** In a hash, the value stored at position i is what lookup of its key yields. */
  lemma {:induction false} GetAt(h: seq<Entry>, i: nat)
    requires NoDup(Keys(h)) && i < |h|
    ensures HasKey(h, h[i].0) && Get(h, h[i].0) == h[i].1
    decreases i
  {
    if i > 0 {
      NoDupTail(Keys(h));
      assert Keys(h)[1..] == Keys(h[1..]);
      assert h[i].0 == Keys(h)[i] != Keys(h)[0] == h[0].0;
      GetAt(h[1..], i - 1);
    }
  }

  /** Lookup in a concatenation tries the first part, then the second. */
  lemma {:induction false} GetConcat(a: seq<Entry>, b: seq<Entry>, k: string)
    requires HasKey(a + b, k)
    ensures HasKey(a, k) ==> Get(a + b, k) == Get(a, k)
    ensures !HasKey(a, k) ==> HasKey(b, k) && Get(a + b, k) == Get(b, k)
    decreases |a|
  {
    KeysConcat(a, b);
    if a != [] {
      assert (a + b)[1..] == a[1..] + b;
      if a[0].0 != k {
        GetConcat(a[1..], b, k);
      }
    } else {
      assert a + b == b;
    }
  }

  /** Requesting one more key keeps the order; the entry for a key not requested before goes last. */
  lemma RequestOrderSnoc(s: seq<Entry>, ks: seq<string>, k: string, v: Value)
    requires InRequestOrder(s, ks)
    ensures InRequestOrder(s, ks + [k])
    ensures k !in ks ==> InRequestOrder(s + [(k, v)], ks + [k])
  {
    forall i | 0 <= i < |s|
      ensures IndexOf(ks + [k], s[i].0) == IndexOf(ks, s[i].0) < |ks|
    {
      IndexOfSnoc(ks, k, s[i].0);
    }
    if k !in ks {
      IndexOfSnoc(ks, k, k);
      var t := s + [(k, v)];
      forall i | 0 <= i < |t|
        ensures t[i].0 in ks + [k]
      {
        if i < |s| {
          assert t[i] == s[i];
        }
      }
    }
  }

  /** Appending an entry under a new key keeps the keys distinct and adds just that key. */
  lemma AppendFresh(s: Hash, k: string, v: Value)
    requires !HasKey(s, k)
    ensures NoDup(Keys(s + [(k, v)]))
    ensures forall j :: HasKey(s + [(k, v)], j) <==> HasKey(s, j) || j == k
    ensures Get(s + [(k, v)], k) == v
    ensures forall j :: HasKey(s, j) ==> Get(s + [(k, v)], j) == Get(s, j)
  {
    GetAppend(s, k, v);
    var ks := Keys(s + [(k, v)]);
    forall i, j | 0 <= i < j < |ks|
      ensures ks[i] != ks[j]
    {
      if j == |s| {
        assert ks[i] == Keys(s)[i];
      } else {
        assert ks[i] == Keys(s)[i] && ks[j] == Keys(s)[j];
      }
    }
  }

  lemma GetAppend(s: seq<Entry>, k: string, v: Value)
    requires !HasKey(s, k)
    ensures Keys(s + [(k, v)]) == Keys(s) + [k]
    ensures HasKey(s + [(k, v)], k) && Get(s + [(k, v)], k) == v
    ensures forall j :: HasKey(s, j) ==> Get(s + [(k, v)], j) == Get(s, j)
  {
    KeysConcat(s, [(k, v)]);
    GetConcat(s, [(k, v)], k);
    forall j | HasKey(s, j)
      ensures Get(s + [(k, v)], j) == Get(s, j)
    {
      GetConcat(s, [(k, v)], j);
    }
  }

  lemma {:induction false} GetOverwrite(a: seq<Entry>, b: seq<Entry>, k: string)
    requires HasKey(a, k)
    ensures HasKey(Overwrite(a, b), k)
    ensures Get(Overwrite(a, b), k) == Fetch(b, k, Get(a, k))
    decreases |a|
  {
    if a[0].0 != k {
      GetOverwrite(a[1..], b, k);
    }
  }

  lemma {:induction false} GetFresh(b: seq<Entry>, ks: seq<string>, k: string)
    requires HasKey(b, k) && k !in ks
    ensures HasKey(Fresh(b, ks), k)
    ensures Get(Fresh(b, ks), k) == Get(b, k)
    decreases |b|
  {
    var head := if b[0].0 in ks then [] else [b[0]];
    assert Fresh(b, ks) == head + Fresh(b[1..], ks);
    if b[0].0 == k {
      GetConcat(head, Fresh(b[1..], ks), k);
    } else {
      GetFresh(b[1..], ks, k);
      GetConcat(head, Fresh(b[1..], ks), k);
    }
  }

  lemma NoDupAppendMinus(xs: seq<string>, ys: seq<string>)
    requires NoDup(xs) && NoDup(ys)
    ensures NoDup(xs + Minus(ys, xs))
  {
    MinusNoDup(ys, xs);
    var m := Minus(ys, xs);
    forall i, j | 0 <= i < j < |xs + m|
      ensures (xs + m)[i] != (xs + m)[j]
    {
      if j >= |xs| && i < |xs| {
        assert (xs + m)[j] == m[j - |xs|];
        MinusMember(ys, xs, m[j - |xs|]);
      }
    }
  }

  lemma MergeFacts(a: Hash, b: Hash)
    ensures Keys(Overwrite(a, b) + Fresh(b, Keys(a))) == Keys(a) + Minus(Keys(b), Keys(a))
    ensures NoDup(Keys(Overwrite(a, b) + Fresh(b, Keys(a))))
    ensures forall k :: HasKey(Overwrite(a, b) + Fresh(b, Keys(a)), k) <==> HasKey(a, k) || HasKey(b, k)
    ensures forall k :: HasKey(b, k) ==> Get(Overwrite(a, b) + Fresh(b, Keys(a)), k) == Get(b, k)
    ensures forall k :: HasKey(a, k) && !HasKey(b, k) ==>
              Get(Overwrite(a, b) + Fresh(b, Keys(a)), k) == Get(a, k)
  {
    MergeKeys(a, b);
    forall k | HasKey(b, k)
      ensures Get(Overwrite(a, b) + Fresh(b, Keys(a)), k) == Get(b, k)
    {
      MergeGetNew(a, b, k);
    }
    forall k | HasKey(a, k) && !HasKey(b, k)
      ensures Get(Overwrite(a, b) + Fresh(b, Keys(a)), k) == Get(a, k)
    {
      MergeGetOld(a, b, k);
    }
  }

  lemma MergeKeys(a: Hash, b: Hash)
    ensures Keys(Overwrite(a, b) + Fresh(b, Keys(a))) == Keys(a) + Minus(Keys(b), Keys(a))
    ensures NoDup(Keys(Overwrite(a, b) + Fresh(b, Keys(a))))
    ensures forall k :: HasKey(Overwrite(a, b) + Fresh(b, Keys(a)), k) <==> HasKey(a, k) || HasKey(b, k)
  {
    KeysConcat(Overwrite(a, b), Fresh(b, Keys(a)));
    NoDupAppendMinus(Keys(a), Keys(b));
    forall k
      ensures HasKey(Overwrite(a, b) + Fresh(b, Keys(a)), k) <==> HasKey(a, k) || HasKey(b, k)
    {
      MinusMember(Keys(b), Keys(a), k);
    }
  }

  lemma MergeGetNew(a: Hash, b: Hash, k: string)
    requires HasKey(b, k)
    ensures HasKey(Overwrite(a, b) + Fresh(b, Keys(a)), k)
    ensures Get(Overwrite(a, b) + Fresh(b, Keys(a)), k) == Get(b, k)
  {
    MergeKeys(a, b);
    var o := Overwrite(a, b);
    var f := Fresh(b, Keys(a));
    if HasKey(a, k) {
      GetOverwrite(a, b, k);
      GetConcat(o, f, k);
    } else {
      MinusMember(Keys(b), Keys(a), k);
      GetFresh(b, Keys(a), k);
      GetConcat(o, f, k);
    }
  }

  lemma MergeGetOld(a: Hash, b: Hash, k: string)
    requires HasKey(a, k) && !HasKey(b, k)
    ensures HasKey(Overwrite(a, b) + Fresh(b, Keys(a)), k)
    ensures Get(Overwrite(a, b) + Fresh(b, Keys(a)), k) == Get(a, k)
  {
    MergeKeys(a, b);
    GetOverwrite(a, b, k);
    GetConcat(Overwrite(a, b), Fresh(b, Keys(a)), k);
  }

  /** Two hashes with the same keys in the same order and the same lookups are equal. */
  lemma HashExt(x: seq<Entry>, y: seq<Entry>)
    requires NoDup(Keys(x)) && Keys(x) == Keys(y)
    requires forall k :: HasKey(x, k) ==> HasKey(y, k) && Get(x, k) == Get(y, k)
    ensures x == y
  {
    forall i | 0 <= i < |x|
      ensures x[i] == y[i]
    {
      assert x[i].0 == Keys(x)[i] == Keys(y)[i] == y[i].0;
      GetAt(x, i);
      GetAt(y, i);
    }
  }

  /** `h.merge({})` is h. */
  lemma MergeEmptyRight(h: Hash)
    ensures Merge(h, []) == h
  {
    MinusNothing(Keys(h));
    HashExt(Merge(h, []), h);
  }

  /** `{}.merge(h)` is h. */
  lemma MergeEmptyLeft(h: Hash)
    ensures Merge([], h) == h
  {
    MinusNothing(Keys(h));
    HashExt(Merge([], h), h);
  }

  /** Merging in two steps is merging once with the merge of the two. */
  lemma MergeAssoc(h: Hash, a: Hash, b: Hash)
    ensures Merge(Merge(h, a), b) == Merge(h, Merge(a, b))
  {
    MergeAssocKeys(Keys(h), Keys(a), Keys(b));
    forall k | HasKey(Merge(Merge(h, a), b), k)
      ensures HasKey(Merge(h, Merge(a, b)), k)
      ensures Get(Merge(Merge(h, a), b), k) == Get(Merge(h, Merge(a, b)), k)
    {
      MergeAssocGet(h, a, b, k);
    }
    HashExt(Merge(Merge(h, a), b), Merge(h, Merge(a, b)));
  }

  lemma MergeAssocGet(h: Hash, a: Hash, b: Hash, k: string)
    requires HasKey(Merge(Merge(h, a), b), k)
    ensures HasKey(Merge(h, Merge(a, b)), k)
    ensures Get(Merge(Merge(h, a), b), k) == Get(Merge(h, Merge(a, b)), k)
  {
    var ha := Merge(h, a);
    var ab := Merge(a, b);
    if HasKey(b, k) {
      assert Get(Merge(ha, b), k) == Get(b, k) == Get(ab, k);
    } else if HasKey(a, k) {
      assert Get(Merge(ha, b), k) == Get(ha, k) == Get(a, k) == Get(ab, k);
    } else {
      assert Get(Merge(ha, b), k) == Get(ha, k) == Get(h, k);
    }
  }

  lemma MergeAssocKeys(kh: seq<string>, ka: seq<string>, kb: seq<string>)
    ensures (kh + Minus(ka, kh)) + Minus(kb, kh + Minus(ka, kh))
         == kh + Minus(ka + Minus(kb, ka), kh)
  {
    calc {
      kh + Minus(ka + Minus(kb, ka), kh);
      { MinusConcat(ka, Minus(kb, ka), kh); }
      kh + (Minus(ka, kh) + Minus(Minus(kb, ka), kh));
      { MinusMinus(kb, ka, kh); }
      kh + (Minus(ka, kh) + Minus(kb, ka + kh));
      { ExcludedMembers(kh, ka, kb); }
      kh + (Minus(ka, kh) + Minus(kb, kh + Minus(ka, kh)));
      (kh + Minus(ka, kh)) + Minus(kb, kh + Minus(ka, kh));
    }
  }

  lemma ExcludedMembers(kh: seq<string>, ka: seq<string>, kb: seq<string>)
    ensures Minus(kb, ka + kh) == Minus(kb, kh + Minus(ka, kh))
  {
    forall e | e in kb
      ensures e in ka + kh <==> e in kh + Minus(ka, kh)
    {
      MinusMember(ka, kh, e);
    }
    MinusSameMembers(kb, ka + kh, kh + Minus(ka, kh));
  }
}

=== FILE: parameters.dfy ===
/**
 * The declaration DSL of an operation class
 * (lib/typed_operation/operations/parameters.rb): `param`, its two spellings
 * `positional_param` and `named_param`, and `optional(T)`. Each declaration runs a
 * PropertyBuilder and registers in the class's parameter table, or raises
 * ParameterError and leaves the table as it was.
 */
module Parameters {
  import opened Wrappers
  import opened RubyValues
  import opened Errors
  import opened Signatures
  import opened Lists
  import opened Descriptors
  import opened Introspection
  import opened Schemas
  import opened PropertyBuilding

  /** `param name, signature = :any, **options, &converter`. */
  method Param(op: OperationClass, name: string, signature: Signature := Any, options: Options := NoOptions,
               converter: Option<Value -> Value> := None) returns (r: Outcome<Error>)
    requires op.Valid()
    modifies op`params
    ensures op.Valid()
    ensures var d := Declaration(old(op.params), name, signature, options, converter, WriterFor(op.base));
            (r.Pass? <==> d.Ok?) &&
            (d.Ok? ==> op.params == Register(old(op.params), d.value)) &&
            (d.Err? ==> op.params == old(op.params) && r == Fail(d.error))
    ensures name !in Names(old(op.params)) && PositionalOrderHolds(old(op.params)) ==> PositionalOrderHolds(op.params)
  {
    var b := NewPropertyBuilder(op, name, signature, options);
    match b
    case Err(e) =>
      r := Fail(e);
    case Ok(builder) =>
      builder.Define(converter);
      r := Pass;
      if name !in Names(old(op.params)) && PositionalOrderHolds(old(op.params)) {
        DeclarationKeepsPositionalOrder(old(op.params), name, signature, options, converter, WriterFor(op.base));
      }
  }

  /** `positional_param`: `param` with `positional: true`, whatever the caller passed. */
  method PositionalParam(op: OperationClass, name: string, signature: Signature := Any,
                         options: Options := NoOptions, converter: Option<Value -> Value> := None)
    returns (r: Outcome<Error>)
    requires op.Valid()
    modifies op`params
    ensures op.Valid()
    ensures var d := Declaration(old(op.params), name, signature, options.(positional := true), converter,
                                 WriterFor(op.base));
            (r.Pass? <==> d.Ok?) &&
            (d.Ok? ==> op.params == Register(old(op.params), d.value) && d.value.kind == Positional) &&
            (d.Err? ==> op.params == old(op.params) && r == Fail(d.error))
    ensures name !in Names(old(op.params)) && PositionalOrderHolds(old(op.params)) ==> PositionalOrderHolds(op.params)
  {
    r := Param(op, name, signature, options.(positional := true), converter);
  }

  /** `named_param`: `param` with `positional: false`, whatever the caller passed. */
  method NamedParam(op: OperationClass, name: string, signature: Signature := Any,
                    options: Options := NoOptions, converter: Option<Value -> Value> := None)
    returns (r: Outcome<Error>)
    requires op.Valid()
    modifies op`params
    ensures op.Valid()
    ensures var d := Declaration(old(op.params), name, signature, options.(positional := false), converter,
                                 WriterFor(op.base));
            d.Ok? && r.Pass? && op.params == Register(old(op.params), d.value) && d.value.kind == Keyword
    ensures name !in Names(old(op.params)) && PositionalOrderHolds(old(op.params)) ==> PositionalOrderHolds(op.params)
  {
    r := Param(op, name, signature, options.(positional := false), converter);
  }

  /** `optional(T)`: T made Nilable, so that the builder does not wrap it again. */
  function Optional(signature: Signature): (r: Signature)
    ensures TypeNilable(r) && WrapNilable(r, true) == r
    ensures forall v :: Matches(r, v) <==> v == Nil || Matches(signature, v)
  {
    Nilable(signature)
  }

  // ----- a class body: a sequence of declarations

  /** One line of a class body: a `param` call with its arguments. */
  datatype Decl = Decl(name: string, signature: Signature, options: Options, converter: Option<Value -> Value>)

  function DeclNames(ds: seq<Decl>): (ns: seq<string>)
    ensures |ns| == |ds|
    ensures forall i :: 0 <= i < |ds| ==> ns[i] == ds[i].name
  {
    if ds == [] then [] else [ds[0].name] + DeclNames(ds[1..])
  }

  /** The table a class body builds, or the first ParameterError it raises. */
  function DeclareEach(ps: seq<Param>, ds: seq<Decl>, writer: Writer): Result<seq<Param>, Error>
    decreases |ds|
  {
    if ds == [] then Ok(ps)
    else
      match Declaration(ps, ds[0].name, ds[0].signature, ds[0].options, ds[0].converter, writer)
      case Err(e) => Err(e)
      case Ok(p) => DeclareEach(Register(ps, p), ds[1..], writer)
  }

  /** Runs the declarations of a class body one after the other, stopping at the first that raises. */
  method DeclareBody(op: OperationClass, ds: seq<Decl>) returns (r: Outcome<Error>)
    requires op.Valid()
    modifies op`params
    ensures op.Valid()
    ensures DeclareEach(old(op.params), ds, WriterFor(op.base)).Ok? ==>
              r.Pass? && op.params == DeclareEach(old(op.params), ds, WriterFor(op.base)).value
    ensures DeclareEach(old(op.params), ds, WriterFor(op.base)).Err? ==>
              r == Fail(DeclareEach(old(op.params), ds, WriterFor(op.base)).error)
  {
    var i := 0;
    r := Pass;
    while i < |ds|
      invariant 0 <= i <= |ds|
      invariant op.Valid()
      invariant DeclareEach(old(op.params), ds, WriterFor(op.base)) == DeclareEach(op.params, ds[i..], WriterFor(op.base))
      decreases |ds| - i
    {
      var step := DeclareNext(op, ds[i..]);
      assert ds[i..][1..] == ds[i + 1..];
      if step.Fail? {
        r := step;
        return;
      }
      i := i + 1;
    }
  }

  /** Runs the first declaration of a body: the rest of the body then runs on the grown table. */
  method DeclareNext(op: OperationClass, ds: seq<Decl>) returns (r: Outcome<Error>)
    requires op.Valid() && ds != []
    modifies op`params
    ensures op.Valid()
    ensures r.Fail? ==> DeclareEach(old(op.params), ds, WriterFor(op.base)) == Err(r.error)
    ensures r.Pass? ==>
              DeclareEach(old(op.params), ds, WriterFor(op.base)) == DeclareEach(op.params, ds[1..], WriterFor(op.base))
  {
    var d := ds[0];
    DeclareStep(op.params, d, ds[1..], WriterFor(op.base));
    assert ds == [d] + ds[1..];
    r := Param(op, d.name, d.signature, d.options, d.converter);
  }

  /** The first declaration of a body with fresh names: its name is new, and the rest keep the invariant. */
  lemma DeclareFirst(ps: seq<Param>, ds: seq<Decl>, writer: Writer)
    requires ds != [] && NoDup(Names(ps) + DeclNames(ds))
    ensures ds[0].name !in Names(ps)
    ensures var r := Declaration(ps, ds[0].name, ds[0].signature, ds[0].options, ds[0].converter, writer);
            r.Ok? ==> NoDup(Names(ps + [r.value]) + DeclNames(ds[1..]))
  {
    FirstNameFresh(Names(ps), DeclNames(ds));
    var r := Declaration(ps, ds[0].name, ds[0].signature, ds[0].options, ds[0].converter, writer);
    if r.Ok? {
      assert r.value.name == ds[0].name;
      FreshRest(ps, r.value, ds);
    }
  }

  /** Declaring the first name of a fresh body keeps the rest of the body fresh. */
  lemma FreshRest(ps: seq<Param>, p: Param, ds: seq<Decl>)
    requires ds != [] && p.name == ds[0].name && NoDup(Names(ps) + DeclNames(ds))
    ensures NoDup(Names(ps + [p]) + DeclNames(ds[1..]))
  {
    assert DeclNames(ds) == [p.name] + DeclNames(ds[1..]);
    FirstNameFresh(Names(ps), DeclNames(ds));
    AppendFreshName(ps, p);
    NoDupRegroup(Names(ps), p.name, DeclNames(ds[1..]));
  }

  lemma NoDupRegroup(xs: seq<string>, x: string, ys: seq<string>)
    requires NoDup(xs + ([x] + ys))
    ensures NoDup((xs + [x]) + ys)
  {
    assert xs + ([x] + ys) == (xs + [x]) + ys;
  }

  /** In a list of distinct names, the first of the second part does not occur in the first part. */
  lemma FirstNameFresh(xs: seq<string>, ys: seq<string>)
    requires NoDup(xs + ys) && ys != []
    ensures ys[0] !in xs
  {
    forall j | 0 <= j < |xs|
      ensures xs[j] != ys[0]
    {
      assert (xs + ys)[j] == xs[j] && (xs + ys)[|xs|] == ys[0];
    }
  }

  // ----- the class bodies of the test suite, declared and introspected

  const StringType: Signature := Concrete("String")

  function Pos(name: string, signature: Signature, options: Options := NoOptions): Decl
  {
    Decl(name, signature, options.(positional := true), None)
  }

  function Named(name: string, signature: Signature, options: Options := NoOptions): Decl
  {
    Decl(name, signature, options.(positional := false), None)
  }

  function WithDefault(v: Value): Options
  {
    NoOptions.(default := Some(Literal(v)))
  }

  function Declared(ps: seq<Param>, d: Decl, writer: Writer): Result<Param, Error>
  {
    Declaration(ps, d.name, d.signature, d.options, d.converter, writer)
  }

  /** The four name lists a table's introspection views compute. */
  datatype Views = Views(pos: seq<string>, reqPos: seq<string>, kw: seq<string>, reqKw: seq<string>)

  function ViewsOf(ps: seq<Param>): Views
  {
    Views(PositionalParameters(ps), RequiredPositionalParameters(ps), KeywordParameters(ps), RequiredKeywordParameters(ps))
  }

  /** A table the introspection views split into the given name lists. */
  predicate HasViews(ps: seq<Param>, pos: seq<string>, reqPos: seq<string>, optPos: seq<string>,
                     kw: seq<string>, reqKw: seq<string>, optKw: seq<string>)
  {
    PositionalParameters(ps) == pos && RequiredPositionalParameters(ps) == reqPos &&
    OptionalPositionalParameters(ps) == optPos && KeywordParameters(ps) == kw &&
    RequiredKeywordParameters(ps) == reqKw && OptionalKeywordParameters(ps) == optKw
  }

  /** A declaration with no default, not `optional:` and not Nilable is required. */
  predicate DeclRequired(d: Decl)
  {
    d.options.default.None? && !d.options.optional && !d.signature.Nilable?
  }

  lemma DeclareStep(ps: seq<Param>, d: Decl, ds: seq<Decl>, writer: Writer)
    ensures var r := Declaration(ps, d.name, d.signature, d.options, d.converter, writer);
            DeclareEach(ps, [d] + ds, writer) == if r.Err? then Err(r.error) else DeclareEach(Register(ps, r.value), ds, writer)
  {
    assert ([d] + ds)[0] == d && ([d] + ds)[1..] == ds;
  }

  /** How each view grows when one more parameter is declared. */
  lemma ViewsSnoc(ps: seq<Param>, p: Param)
    ensures PositionalParameters(ps + [p]) == PositionalParameters(ps) + (if IsPositional(p) then [p.name] else [])
    ensures KeywordParameters(ps + [p]) == KeywordParameters(ps) + (if IsKeyword(p) then [p.name] else [])
    ensures RequiredPositionalParameters(ps + [p]) ==
            RequiredPositionalParameters(ps) + (if IsRequired(p) && IsPositional(p) then [p.name] else [])
    ensures RequiredKeywordParameters(ps + [p]) ==
            RequiredKeywordParameters(ps) + (if IsRequired(p) && IsKeyword(p) then [p.name] else [])
  {
    FilterMapNamesConcat(ps, [p], IsPositional);
    FilterMapNamesConcat(ps, [p], IsKeyword);
    FilterConcat(ps, [p], IsRequired);
    var tail := if IsRequired(p) then [p] else [];
    assert Filter([p], IsRequired) == tail;
    FilterMapNamesConcat(RequiredParameters(ps), tail, IsPositional);
    FilterMapNamesConcat(RequiredParameters(ps), tail, IsKeyword);
  }

  /** The order rule lets d through, given the views of the table so far. */
  predicate OrderAllows(v: Views, d: Decl)
  {
    d.options.positional && !TypeNilable(PreparedSignature(d.signature, d.options)) ==> Minus(v.pos, v.reqPos) == []
  }

  /** The views once d is accepted: its name joins its kind's list, and the required list when it is required. */
  function Extend(v: Views, d: Decl): Views
  {
    if d.options.positional then
      v.(pos := v.pos + [d.name], reqPos := v.reqPos + if DeclRequired(d) then [d.name] else [])
    else
      v.(kw := v.kw + [d.name], reqKw := v.reqKw + if DeclRequired(d) then [d.name] else [])
  }

  /** Every declaration of the body is allowed by the order rule at the point where it runs. */
  predicate OrderRespected(v: Views, ds: seq<Decl>)
    decreases |ds|
  {
    ds == [] || (OrderAllows(v, ds[0]) && OrderRespected(Extend(v, ds[0]), ds[1..]))
  }

  function ExtendAll(v: Views, ds: seq<Decl>): Views
    decreases |ds|
  {
    if ds == [] then v else ExtendAll(Extend(v, ds[0]), ds[1..])
  }

  /**
   * One accepted declaration: the body's outcome is that of the rest on the grown
   * table, and each view gains the new name where it belongs.
   */
  lemma DeclareOne(t: seq<Param>, d: Decl, ds: seq<Decl>, writer: Writer, v: Views)
    requires ViewsOf(t) == v && OrderAllows(v, d) && d.name !in Names(t)
    ensures Declared(t, d, writer).Ok?
    ensures var p := Declared(t, d, writer).value;
            DeclareEach(t, [d] + ds, writer) == DeclareEach(t + [p], ds, writer) && ViewsOf(t + [p]) == Extend(v, d)
  {
    var p := Declared(t, d, writer).value;
    RequiredIffNoDefaultAndNotNilable(d.name, d.signature, d.options,
                                      CoerceBy(PreparedSignature(d.signature, d.options), d.converter), writer);
    DeclareStep(t, d, ds, writer);
    ViewsSnoc(t, p);
  }

  /**
   * A class body with fresh names that respects the order rule is accepted, and its
   * views list the declared names in declaration order, by kind and by requiredness.
   */
  lemma {:induction false} BodyAccepted(t: seq<Param>, ds: seq<Decl>, writer: Writer)
    requires OrderRespected(ViewsOf(t), ds) && NoDup(Names(t) + DeclNames(ds))
    ensures DeclareEach(t, ds, writer).Ok?
    ensures ViewsOf(DeclareEach(t, ds, writer).value) == ExtendAll(ViewsOf(t), ds)
    decreases |ds|
  {
    if ds != [] {
      DeclareFirst(t, ds, writer);
      DeclareOne(t, ds[0], ds[1..], writer, ViewsOf(t));
      assert ds == [ds[0]] + ds[1..];
      BodyAccepted(t + [Declared(t, ds[0], writer).value], ds[1..], writer);
    }
  }

  /** A table's six views, given the four it computes directly. */
  lemma ViewsGiveHasViews(ps: seq<Param>, v: Views)
    requires ViewsOf(ps) == v
    ensures HasViews(ps, v.pos, v.reqPos, Minus(v.pos, v.reqPos), v.kw, v.reqKw, Minus(v.kw, v.reqKw))
  {
  }

  /** Removing the leading name, which occurs nowhere else, leaves the rest. */
  lemma MinusLeading(a: string, rest: seq<string>)
    requires a !in rest
    ensures Minus([a] + rest, [a]) == rest
  {
    assert ([a] + rest)[1..] == rest;
    MinusSameMembers(rest, [a], []);
    MinusNothing(rest);
  }

  /** Unfolds the body-level views and order rule by one declaration. */
  lemma ExtendCons(v: Views, d: Decl, ds: seq<Decl>)
    ensures OrderRespected(v, [d] + ds) <==> OrderAllows(v, d) && OrderRespected(Extend(v, d), ds)
    ensures ExtendAll(v, [d] + ds) == ExtendAll(Extend(v, d), ds)
  {
    assert ([d] + ds)[0] == d && ([d] + ds)[1..] == ds;
  }

  /**
   * The body of the suite's mixed class, over any non-Nilable type T (String there):
   * two positionals, the second defaulted, and two keywords, the second defaulted.
   */
  function MixedBody(t: Signature, pos2: Value, kw2: Value): seq<Decl>
  {
    [Pos("pos1", t), Pos("pos2", t, WithDefault(pos2)), Named("kw1", t), Named("kw2", t, WithDefault(kw2))]
  }

  /** The order rule admits the mixed body, and the views it ends with. */
  lemma MixedExtends(t: Signature, pos2: Value, kw2: Value)
    requires !t.Nilable?
    ensures OrderRespected(Views([], [], [], []), MixedBody(t, pos2, kw2))
    ensures ExtendAll(Views([], [], [], []), MixedBody(t, pos2, kw2)) ==
            Views(["pos1", "pos2"], ["pos1"], ["kw1", "kw2"], ["kw1"])
  {
    var d1, d2, d3, d4 := Pos("pos1", t), Pos("pos2", t, WithDefault(pos2)), Named("kw1", t), Named("kw2", t, WithDefault(kw2));
    var v0 := Views([], [], [], []);
    var v1 := Extend(v0, d1);
    var v2 := Extend(v1, d2);
    var v3 := Extend(v2, d3);
    var v4 := Extend(v3, d4);
    assert v4 == Views(["pos1", "pos2"], ["pos1"], ["kw1", "kw2"], ["kw1"]);
    assert OrderAllows(v0, d1) && OrderAllows(v1, d2) && OrderAllows(v2, d3) && OrderAllows(v3, d4);
    ExtendCons(v3, d4, []);
    ExtendCons(v2, d3, [d4]);
    ExtendCons(v1, d2, [d3] + [d4]);
    ExtendCons(v0, d1, [d2] + ([d3] + [d4]));
    assert MixedBody(t, pos2, kw2) == [d1] + ([d2] + ([d3] + [d4]));
  }

  lemma KeywordAndPositionalViews(t: Signature, pos2: Value, kw2: Value, writer: Writer)
    requires !t.Nilable?
    ensures var r := DeclareEach([], MixedBody(t, pos2, kw2), writer);
            r.Ok? && HasViews(r.value, ["pos1", "pos2"], ["pos1"], ["pos2"], ["kw1", "kw2"], ["kw1"], ["kw2"])
  {
    MixedExtends(t, pos2, kw2);
    assert ViewsOf([]) == Views([], [], [], []);
    BodyAccepted([], MixedBody(t, pos2, kw2), writer);
    MinusLeading("pos1", ["pos2"]);
    MinusLeading("kw1", ["kw2"]);
  }

  /**
   * The body of the suite's positional class: a required positional and an
   * `optional:` one with a converter.
   */
  function PositionalBody(t: Signature, toS: Value -> Value): seq<Decl>
  {
    [Pos("first", t), Decl("second", t, NoOptions.(optional := true, positional := true), Some(toS))]
  }

  lemma PositionalViews(t: Signature, toS: Value -> Value, writer: Writer)
    requires !t.Nilable?
    ensures var r := DeclareEach([], PositionalBody(t, toS), writer);
            r.Ok? && HasViews(r.value, ["first", "second"], ["first"], ["second"], [], [], [])
  {
    var d1, d2 := Pos("first", t), Decl("second", t, NoOptions.(optional := true, positional := true), Some(toS));
    var v0 := Views([], [], [], []);
    var v1 := Extend(v0, d1);
    var v2 := Extend(v1, d2);
    assert v2 == Views(["first", "second"], ["first"], [], []);
    assert OrderAllows(v0, d1) && OrderAllows(v1, d2);
    ExtendCons(v1, d2, []);
    ExtendCons(v0, d1, [d2]);
    assert PositionalBody(t, toS) == [d1] + [d2];
    BodyAccepted([], PositionalBody(t, toS), writer);
    MinusLeading("first", ["second"]);
  }

  /**
   * The body of the suite's class written with `positional_param`, `named_param` and
   * `optional(T)`: the mixed class plus a Nilable third parameter of each kind.
   */
  function AlternativeDslBody(t: Signature, pos2: Value, kw2: Value): seq<Decl>
  {
    [Pos("pos1", t), Pos("pos2", t, WithDefault(pos2)), Pos("pos3", Optional(t)),
     Named("kw1", t), Named("kw2", t, WithDefault(kw2)), Named("kw3", Optional(t))]
  }

  /** The order rule admits the alternative body, and the views it ends with. */
  lemma AlternativeDslExtends(t: Signature, pos2: Value, kw2: Value)
    requires !t.Nilable?
    ensures OrderRespected(Views([], [], [], []), AlternativeDslBody(t, pos2, kw2))
    ensures ExtendAll(Views([], [], [], []), AlternativeDslBody(t, pos2, kw2)) ==
            Views(["pos1", "pos2", "pos3"], ["pos1"], ["kw1", "kw2", "kw3"], ["kw1"])
  {
    var positional := [Pos("pos1", t), Pos("pos2", t, WithDefault(pos2)), Pos("pos3", Optional(t))];
    var keyword := [Named("kw1", t), Named("kw2", t, WithDefault(kw2)), Named("kw3", Optional(t))];
    AlternativePositionalPart(t, pos2);
    AlternativeKeywordPart(t, kw2);
    assert AlternativeDslBody(t, pos2, kw2) == positional + keyword;
    ExtendConcat(Views([], [], [], []), positional, keyword);
  }

  /** The three positional declarations of the alternative body, from an empty table. */
  lemma AlternativePositionalPart(t: Signature, pos2: Value)
    requires !t.Nilable?
    ensures var ds := [Pos("pos1", t), Pos("pos2", t, WithDefault(pos2)), Pos("pos3", Optional(t))];
            OrderRespected(Views([], [], [], []), ds) &&
            ExtendAll(Views([], [], [], []), ds) == Views(["pos1", "pos2", "pos3"], ["pos1"], [], [])
  {
    var d1, d2, d3 := Pos("pos1", t), Pos("pos2", t, WithDefault(pos2)), Pos("pos3", Optional(t));
    var v0 := Views([], [], [], []);
    var v1 := Extend(v0, d1);
    var v2 := Extend(v1, d2);
    assert Extend(v2, d3) == Views(["pos1", "pos2", "pos3"], ["pos1"], [], []);
    assert OrderAllows(v0, d1) && OrderAllows(v1, d2) && OrderAllows(v2, d3);
    ExtendCons(v2, d3, []);
    ExtendCons(v1, d2, [d3]);
    ExtendCons(v0, d1, [d2] + [d3]);
    assert [d1, d2, d3] == [d1] + ([d2] + [d3]);
  }

  /** The three keyword declarations of the alternative body, after its positional ones. */
  lemma AlternativeKeywordPart(t: Signature, kw2: Value)
    requires !t.Nilable?
    ensures var ds := [Named("kw1", t), Named("kw2", t, WithDefault(kw2)), Named("kw3", Optional(t))];
            var v := Views(["pos1", "pos2", "pos3"], ["pos1"], [], []);
            OrderRespected(v, ds) &&
            ExtendAll(v, ds) == Views(["pos1", "pos2", "pos3"], ["pos1"], ["kw1", "kw2", "kw3"], ["kw1"])
  {
    var d4, d5, d6 := Named("kw1", t), Named("kw2", t, WithDefault(kw2)), Named("kw3", Optional(t));
    var v3 := Views(["pos1", "pos2", "pos3"], ["pos1"], [], []);
    var v4 := Extend(v3, d4);
    var v5 := Extend(v4, d5);
    assert Extend(v5, d6) == Views(["pos1", "pos2", "pos3"], ["pos1"], ["kw1", "kw2", "kw3"], ["kw1"]);
    assert OrderAllows(v3, d4) && OrderAllows(v4, d5) && OrderAllows(v5, d6);
    ExtendCons(v5, d6, []);
    ExtendCons(v4, d5, [d6]);
    ExtendCons(v3, d4, [d5] + [d6]);
    assert [d4, d5, d6] == [d4] + ([d5] + [d6]);
  }

  /** Running a body in two parts: the second part starts from the views the first ends with. */
  lemma {:induction false} ExtendConcat(v: Views, a: seq<Decl>, b: seq<Decl>)
    ensures ExtendAll(v, a + b) == ExtendAll(ExtendAll(v, a), b)
    ensures OrderRespected(v, a) && OrderRespected(ExtendAll(v, a), b) ==> OrderRespected(v, a + b)
    decreases |a|
  {
    if a == [] {
      assert a + b == b;
    } else {
      assert (a + b)[0] == a[0] && (a + b)[1..] == a[1..] + b;
      ExtendConcat(Extend(v, a[0]), a[1..], b);
    }
  }

  lemma AlternativeDslViews(t: Signature, pos2: Value, kw2: Value, writer: Writer)
    requires !t.Nilable?
    ensures var r := DeclareEach([], AlternativeDslBody(t, pos2, kw2), writer);
            r.Ok? && HasViews(r.value, ["pos1", "pos2", "pos3"], ["pos1"], ["pos2", "pos3"],
                              ["kw1", "kw2", "kw3"], ["kw1"], ["kw2", "kw3"])
  {
    AlternativeDslExtends(t, pos2, kw2);
    AlternativeDslFresh(t, pos2, kw2);
    assert ViewsOf([]) == Views([], [], [], []);
    BodyAccepted([], AlternativeDslBody(t, pos2, kw2), writer);
    var v := Views(["pos1", "pos2", "pos3"], ["pos1"], ["kw1", "kw2", "kw3"], ["kw1"]);
    ViewsGiveHasViews(DeclareEach([], AlternativeDslBody(t, pos2, kw2), writer).value, v);
    AlternativeOptionalNames();
  }

  /** The alternative body declares six distinct names. */
  lemma AlternativeDslFresh(t: Signature, pos2: Value, kw2: Value)
    ensures NoDup(Names([]) + DeclNames(AlternativeDslBody(t, pos2, kw2)))
  {
    var ns := ["pos1", "pos2", "pos3", "kw1", "kw2", "kw3"];
    assert Names([]) + DeclNames(AlternativeDslBody(t, pos2, kw2)) == ns;
    forall i, j | 0 <= i < j < |ns|
      ensures ns[i] != ns[j]
    {
    }
  }

  /** The optional names of the alternative body: all but the first of each kind. */
  lemma AlternativeOptionalNames()
    ensures Minus(["pos1", "pos2", "pos3"], ["pos1"]) == ["pos2", "pos3"]
    ensures Minus(["kw1", "kw2", "kw3"], ["kw1"]) == ["kw2", "kw3"]
  {
    MinusLeading("pos1", ["pos2", "pos3"]);
    MinusLeading("kw1", ["kw2", "kw3"]);
  }

  /** A body split in two: the second part runs on the table the first built, unless the first raised. */
  lemma {:induction false} DeclareEachConcat(t: seq<Param>, a: seq<Decl>, b: seq<Decl>, writer: Writer)
    ensures DeclareEach(t, a + b, writer) ==
            match DeclareEach(t, a, writer)
            case Err(e) => Err(e)
            case Ok(t') => DeclareEach(t', b, writer)
    decreases |a|
  {
    if a == [] {
      assert a + b == b;
    } else {
      assert (a + b)[0] == a[0] && (a + b)[1..] == a[1..] + b;
      var r := Declared(t, a[0], writer);
      if r.Ok? {
        DeclareEachConcat(Register(t, r.value), a[1..], b, writer);
      }
    }
  }

  /** A positional declaration that is not Nilable, once an optional positional exists, is refused. */
  lemma RefusedAfterOptional(t: seq<Param>, d: Decl, writer: Writer, v: Views)
    requires ViewsOf(t) == v && !OrderAllows(v, d)
    ensures var r := DeclareEach(t, [d], writer);
            r.Err? && r.error.cls == ParameterError
  {
    DeclareStep(t, d, [], writer);
    assert [d] == [d] + [];
  }

  /**
   * The suite's first invalid body: a required positional after an `optional:` one
   * raises ParameterError.
   */
  lemma OptionalThenRequiredRefused(t: Signature, writer: Writer)
    requires !t.Nilable?
    ensures var r := DeclareEach([], [Pos("first", t, NoOptions.(optional := true)), Pos("second", t)], writer);
            r.Err? && r.error.cls == ParameterError
  {
    var d1, d2 := Pos("first", t, NoOptions.(optional := true)), Pos("second", t);
    var v0 := Views([], [], [], []);
    assert ViewsOf([]) == v0 && OrderAllows(v0, d1);
    DeclareOne([], d1, [d2], writer, v0);
    var t1 := [] + [Declared([], d1, writer).value];
    assert ViewsOf(t1) == Views(["first"], [], [], []);
    MinusNothing(["first"]);
    RefusedAfterOptional(t1, d2, writer, Views(["first"], [], [], []));
    assert [d1, d2] == [d1] + [d2];
  }

  /**
   * The suite's second invalid body: `optional(T)`, then an explicitly Nilable type,
   * then a plain required positional, which raises ParameterError.
   */
  lemma NilableThenRequiredRefused(t: Signature, writer: Writer)
    requires !t.Nilable?
    ensures var r := DeclareEach([], [Pos("first", Optional(t)), Pos("second", Nilable(t)), Pos("third", t)], writer);
            r.Err? && r.error.cls == ParameterError
  {
    var d1, d2, d3 := Pos("first", Optional(t)), Pos("second", Nilable(t)), Pos("third", t);
    NilablePrefixAccepted(t, writer);
    var t2 := DeclareEach([], [d1, d2], writer).value;
    MinusNothing(["first", "second"]);
    RefusedAfterOptional(t2, d3, writer, Views(["first", "second"], [], [], []));
    DeclareEachConcat([], [d1, d2], [d3], writer);
    assert [d1, d2, d3] == [d1, d2] + [d3];
  }

  /** The first two declarations of that body are accepted, as optional positionals. */
  lemma NilablePrefixAccepted(t: Signature, writer: Writer)
    requires !t.Nilable?
    ensures var r := DeclareEach([], [Pos("first", Optional(t)), Pos("second", Nilable(t))], writer);
            r.Ok? && ViewsOf(r.value) == Views(["first", "second"], [], [], [])
  {
    var d1, d2 := Pos("first", Optional(t)), Pos("second", Nilable(t));
    var v0 := Views([], [], [], []);
    assert ViewsOf([]) == v0;
    ExtendCons(Extend(v0, d1), d2, []);
    ExtendCons(v0, d1, [d2]);
    assert [d1, d2] == [d1] + [d2];
    BodyAccepted([], [d1, d2], writer);
  }

  /**
   * Declaring a name again replaces its entry where it stands, and the order check
   * only looks at the table so far: a required positional redeclared as Nilable,
   * ahead of a second required positional, leaves an optional positional before a
   * required one.
   */
  lemma RedeclarationCanBreakOrder(writer: Writer)
    ensures var r := DeclareEach([], [Pos("first", StringType), Pos("second", StringType),
                                      Pos("first", Optional(StringType))], writer);
            r.Ok? && Names(r.value) == ["first", "second"] && !PositionalOrderHolds(r.value)
  {
    var d1, d2, d3 := Pos("first", StringType), Pos("second", StringType), Pos("first", Optional(StringType));
    TwoRequiredPositionals(writer);
    var t2 := DeclareEach([], [d1, d2], writer).value;
    DeclareStep(t2, d3, [], writer);
    var p3 := Declared(t2, d3, writer).value;
    var t3 := Register(t2, p3);
    assert t3[0] == p3 && t3[1] == t2[1];
    assert IsPositional(t3[0]) && !IsRequired(t3[0]) && IsPositional(t3[1]) && IsRequired(t3[1]);
    DeclareEachConcat([], [d1, d2], [d3], writer);
    assert [d1, d2, d3] == [d1, d2] + [d3] && [d3] == [d3] + [];
  }

  /** The first of them is accepted as a required positional. */
  lemma FirstRequiredPositional(writer: Writer)
    ensures Declared([], Pos("first", StringType), writer).Ok?
    ensures var t1 := [] + [Declared([], Pos("first", StringType), writer).value];
            Names(t1) == ["first"] && ViewsOf(t1) == Views(["first"], ["first"], [], []) &&
            DeclareEach([], [Pos("first", StringType), Pos("second", StringType)], writer)
              == DeclareEach(t1, [Pos("second", StringType)], writer)
  {
    var d1, d2 := Pos("first", StringType), Pos("second", StringType);
    var v0 := Views([], [], [], []);
    assert ViewsOf([]) == v0 && OrderAllows(v0, d1);
    DeclareOne([], d1, [d2], writer, v0);
    assert [d1, d2] == [d1] + [d2];
  }

  /** After a lone required positional "first", a required positional "second" is accepted. */
  lemma SecondRequiredPositional(t1: seq<Param>, writer: Writer)
    requires Names(t1) == ["first"] && ViewsOf(t1) == Views(["first"], ["first"], [], [])
    ensures var r := DeclareEach(t1, [Pos("second", StringType)], writer);
            r.Ok? && Names(r.value) == ["first", "second"] &&
            IsPositional(r.value[1]) && IsRequired(r.value[1])
  {
    var d2 := Pos("second", StringType);
    MinusLeading("first", []);
    DeclareOne(t1, d2, [], writer, Views(["first"], ["first"], [], []));
    var coerce := CoerceBy(PreparedSignature(d2.signature, d2.options), d2.converter);
    var p2 := Declared(t1, d2, writer).value;
    assert p2 == Descriptor(d2.name, d2.signature, d2.options, coerce, writer);
    RequiredIffNoDefaultAndNotNilable(d2.name, d2.signature, d2.options, coerce, writer);
    assert IsPositional(p2) && IsRequired(p2);
    assert [d2] == [d2] + [];
    assert DeclareEach(t1, [d2], writer) == Ok(t1 + [p2]);
    assert Names(t1 + [p2]) == ["first", "second"];
  }

  /** Two required positionals, "first" then "second", are accepted in that order. */
  lemma TwoRequiredPositionals(writer: Writer)
    ensures var r := DeclareEach([], [Pos("first", StringType), Pos("second", StringType)], writer);
            r.Ok? && Names(r.value) == ["first", "second"] &&
            IsPositional(r.value[1]) && IsRequired(r.value[1])
  {
    FirstRequiredPositional(writer);
    SecondRequiredPositional([] + [Declared([], Pos("first", StringType), writer).value], writer);
  }
}

=== FILE: partial_application.dfy ===
/**
 * The class-level partial application API (lib/typed_operation/operations/partial_application.rb):
 * `with(...)`, aliased `[]`, builds a PartiallyApplied and re-applies nothing, so the
 * result is already classified. The class-level `curry` is in the Curried module.
 */
module PartialApplication {
  import opened Wrappers
  import opened RubyValues
  import opened Errors
  import opened OrderedHash
  import opened Descriptors
  import opened Introspection
  import opened Partial

  /** `with(**kw)` and `[](**kw)`: `PartiallyApplied.new(self, **kw).with`. */
  function OperationWith(s: Schema, kw: Hash): (r: Application)
    ensures r == Classify(s, [], kw)
    ensures r.Prepared? <==> forall n :: n in RequiredNames(s.params) ==> HasKey(kw, n)
  {
    MergeEmptyRight(kw);
    With(New(s, kw), [])
  }

  /** `with(*positional, **kw)`, the positional extension: too many positional values raise ArgumentError. */
  function OperationWithPositional(s: Schema, positional: seq<Value>, kw: Hash): (r: Result<Application, Error>)
    ensures r.Err? <==> |positional| > |PositionalParameters(s.params)|
    ensures r.Err? ==> r.error.cls == ArgumentError
    ensures r.Ok? ==> r.value == Classify(s, positional, kw)
    ensures positional == [] ==> r == Ok(OperationWith(s, kw))
  {
    MergeEmptyRight(kw);
    assert positional + [] == positional;
    WithPositional(PartiallyApplied(s, positional, kw), [], [])
  }

  /** An operation with no required parameter is Prepared as soon as `with` is called. */
  lemma NothingRequiredIsPrepared(s: Schema, kw: Hash)
    requires RequiredNames(s.params) == []
    ensures OperationWith(s, kw).Prepared?
  {
  }

  /**
   * For an operation whose required names are foo, bar and baz (base_test.rb:228-231,
   * 283-291): foo and then bar and baz make it Prepared; foo and then bar alone leave it
   * PartiallyApplied, and so does `[]` with foo alone.
   */
  lemma FooBarBaz(s: Schema, foo: Value, bar: Value, baz: Value)
    requires RequiredNames(s.params) == ["foo", "bar", "baz"]
    ensures With(OperationWith(s, Single("foo", foo)), Put(Single("bar", bar), "baz", baz)).Prepared?
    ensures With(OperationWith(s, Single("foo", foo)), Single("bar", bar)).PartiallyApplied?
    ensures OperationWith(s, Single("foo", foo)).PartiallyApplied?
  {
    FooAlone(s, foo);
    FooThenBarAndBaz(s, foo, bar, baz);
    FooThenBar(s, foo, bar);
  }

  lemma FooAlone(s: Schema, foo: Value)
    requires RequiredNames(s.params) == ["foo", "bar", "baz"]
    ensures OperationWith(s, Single("foo", foo)).PartiallyApplied?
  {
    assert "bar" in RequiredNames(s.params);
    assert BoundByPosition(s.params, 0) == [];
    assert !HasKey(Single("foo", foo), "bar");
  }

  lemma FooThenBarAndBaz(s: Schema, foo: Value, bar: Value, baz: Value)
    requires RequiredNames(s.params) == ["foo", "bar", "baz"]
    ensures With(OperationWith(s, Single("foo", foo)), Put(Single("bar", bar), "baz", baz)).Prepared?
  {
    var first := OperationWith(s, Single("foo", foo));
    assert HasKey(first.applied, "foo");
  }

  lemma FooThenBar(s: Schema, foo: Value, bar: Value)
    requires RequiredNames(s.params) == ["foo", "bar", "baz"]
    ensures With(OperationWith(s, Single("foo", foo)), Single("bar", bar)).PartiallyApplied?
  {
    var first := OperationWith(s, Single("foo", foo));
    assert "baz" in RequiredNames(s.params);
    assert BoundByPosition(s.params, 0) == [];
    assert !HasKey(first.applied, "baz") && !HasKey(Single("bar", bar), "baz");
  }
}

=== FILE: partially_applied.dfy ===
/**
 * Partial application (lib/typed_operation/partially_applied.rb and
 * lib/typed_operation/prepared.rb): an operation class with some arguments applied.
 * Applying more merges them over the applied ones and classifies the result:
 * Prepared when every required parameter is supplied, PartiallyApplied otherwise.
 *
 * The keyword merge and classification follow partially_applied.rb:10-27. Positional
 * arguments (bound to the positional parameters in order) are an extension the gem's
 * tests rely on and that Curried needs; it lives in separately named members
 * (`WithPositional`, the positional half of `Call`, `Operation`, `Deconstruct` and
 * `DeconstructKeys`) and reduces to the keyword-only behaviour when no positional
 * value is given.
 */
module Partial {
  import opened Wrappers
  import opened RubyValues
  import opened Errors
  import opened Lists
  import opened OrderedHash
  import opened Descriptors
  import opened Introspection
  import opened Binding
  import opened Lifecycle
  import opened Callable

  /** A PartiallyApplied object or a Prepared one (a subclass that adds `operation`). */
  datatype Application =
    | PartiallyApplied(operation: Schema, positional: seq<Value>, applied: Hash)
    | Prepared(operation: Schema, positional: seq<Value>, applied: Hash)

  /** The names a call must supply: parameters whose stored default is nil. */
  function RequiredNames(ps: seq<Param>): seq<string>
  {
    FilterMapNames(ps, IsRequired)
  }

  /** The positional parameters that n positional values fill, in order. */
  function BoundByPosition(ps: seq<Param>, n: nat): (r: seq<string>)
    ensures r == PositionalParameters(ps)[..if n < |PositionalParameters(ps)| then n else |PositionalParameters(ps)|]
  {
    var names := PositionalParameters(ps);
    names[..if n < |names| then n else |names|]
  }

  /** `required_keys - all_args.keys`, with the positionally bound names also counting as given. */
  function Missing(ps: seq<Param>, npos: nat, keys: seq<string>): (r: seq<string>)
    ensures forall n :: n in r <==> n in RequiredNames(ps) && n !in BoundByPosition(ps, npos) && n !in keys
  {
    var r := Minus(RequiredNames(ps), BoundByPosition(ps, npos) + keys);
    assert forall n :: n in r <==> n in RequiredNames(ps) && n !in BoundByPosition(ps, npos) + keys by {
      forall n ensures n in r <==> n in RequiredNames(ps) && n !in BoundByPosition(ps, npos) + keys {
        MinusMember(RequiredNames(ps), BoundByPosition(ps, npos) + keys, n);
      }
    }
    r
  }

  /** Lines 17-24: Prepared when nothing required is missing, PartiallyApplied otherwise. */
  function Classify(s: Schema, positional: seq<Value>, args: Hash): (r: Application)
    ensures r.operation == s && r.positional == positional && r.applied == args
    ensures r.Prepared? <==>
      forall n :: n in RequiredNames(s.params) ==> n in BoundByPosition(s.params, |positional|) || HasKey(args, n)
  {
    var missing := Missing(s.params, |positional|, Keys(args));
    if |missing| > 0 then
      assert missing[0] in missing;
      PartiallyApplied(s, positional, args)
    else Prepared(s, positional, args)
  }

  /** `PartiallyApplied.new(operation, **applied_args)`: stores the arguments, classifies nothing. */
  function New(s: Schema, applied: Hash): (r: Application)
    ensures r.PartiallyApplied? && r.operation == s && r.positional == [] && r.applied == applied
  {
    PartiallyApplied(s, [], applied)
  }

  /**
   * `curry(**params)` (aliased `with` and `[]`): a new application whose arguments are
   * the receiver's merged with params, the new value winning on a shared key, classified.
   */
  function With(p: Application, params: Hash): (r: Application)
    ensures r.operation == p.operation && r.positional == p.positional
    ensures Keys(r.applied) == Keys(p.applied) + Minus(Keys(params), Keys(p.applied))
    ensures forall k :: HasKey(params, k) ==> HasKey(r.applied, k) && Get(r.applied, k) == Get(params, k)
    ensures forall k :: HasKey(p.applied, k) && !HasKey(params, k) ==>
      HasKey(r.applied, k) && Get(r.applied, k) == Get(p.applied, k)
    ensures r.Prepared? <==>
      forall n :: n in RequiredNames(p.operation.params) ==>
        n in BoundByPosition(p.operation.params, |p.positional|) || HasKey(p.applied, n) || HasKey(params, n)
  {
    Classify(p.operation, p.positional, Merge(p.applied, params))
  }

  /**
   * Partial application with positional values as well: they are appended to those
   * already applied; more positional values than positional parameters raise
   * ArgumentError.
   */
  function WithPositional(p: Application, positional: seq<Value>, params: Hash): (r: Result<Application, Error>)
    ensures r.Err? <==> |p.positional| + |positional| > |PositionalParameters(p.operation.params)|
    ensures r.Err? ==> r.error.cls == ArgumentError
    ensures r.Ok? ==> r.value.operation == p.operation && r.value.positional == p.positional + positional
    ensures r.Ok? ==> r.value.applied == With(p, params).applied
    ensures r.Ok? ==> (r.value.Prepared? <==>
      forall n :: n in RequiredNames(p.operation.params) ==>
        n in BoundByPosition(p.operation.params, |p.positional| + |positional|) || HasKey(r.value.applied, n))
  {
    var s := p.operation;
    if |p.positional| + |positional| > |PositionalParameters(s.params)| then
      Err(Error(ArgumentError, "wrong number of arguments"))
    else
      Ok(Classify(s, p.positional + positional, Merge(p.applied, params)))
  }

  /** With no positional values, the extension is the keyword-only `with` of partially_applied.rb. */
  lemma WithPositionalExtendsWith(p: Application, params: Hash)
    requires |p.positional| <= |PositionalParameters(p.operation.params)|
    ensures WithPositional(p, [], params) == Ok(With(p, params))
  {
    assert p.positional + [] == p.positional;
  }

  /** Applying in two steps is applying the merge of the two argument hashes. */
  lemma WithTwice(p: Application, a: Hash, b: Hash)
    ensures With(With(p, a), b) == With(p, Merge(a, b))
  {
    MergeAssoc(p.applied, a, b);
  }

  /** Merging only adds keys: no name becomes missing, and a Prepared application stays Prepared. */
  lemma MissingNeverGrows(p: Application, params: Hash)
    ensures forall n :: n in Missing(p.operation.params, |p.positional|, Keys(With(p, params).applied)) ==>
      n in Missing(p.operation.params, |p.positional|, Keys(p.applied))
    ensures p == Classify(p.operation, p.positional, p.applied) && p.Prepared? ==> With(p, params).Prepared?
  {
  }

  // ----- calling

  /** The MissingParameterError message, naming the operation and, when the class defines one, its key. */
  function MissingMessage(s: Schema): (m: string)
    ensures var lead := "Cannot call PartiallyApplied operation " + s.name;
      |lead| <= |m| && m[..|lead|] == lead
    ensures var lead := "Cannot call PartiallyApplied operation " + s.name;
      s.operationKey.Some? ==>
        var key := " (key: " + s.operationKey.value + ")";
        |lead| + |key| <= |m| && m[|lead|..|lead| + |key|] == key
    ensures var tail := ", are you expecting it to be Prepared?";
      |tail| <= |m| && m[|m| - |tail|..] == tail
  {
    "Cannot call PartiallyApplied operation " + s.name +
    (match s.operationKey case Some(k) => " (key: " + k + ")" case None => "") +
    ", are you expecting it to be Prepared?"
  }

  /**
   * `operation`: a Prepared application constructs a fresh instance from exactly its
   * arguments (conversion and type checks happen only here); on a PartiallyApplied one
   * it raises MissingParameterError.
   */
  function Operation(p: Application): (r: Result<InstanceState, Error>)
    requires UniqueNames(p.operation.params)
    ensures p.Prepared? ==> r == Construct(p.operation, p.positional, p.applied)
    ensures p.PartiallyApplied? ==> r == Err(Error(MissingParameterError, MissingMessage(p.operation)))
  {
    match p
    case Prepared(s, positional, applied) => Construct(s, positional, applied)
    case PartiallyApplied(s, _, _) => Err(Error(MissingParameterError, MissingMessage(s)))
  }

  /** prepared.rb:5-7 as written: `@operation.new(**@applied_args)`; PartiallyApplied has no `operation`. */
  function OperationAsWritten(p: Application): (r: Result<InstanceState, Error>)
    requires UniqueNames(p.operation.params)
    ensures p.Prepared? ==> r == Construct(p.operation, [], p.applied)
    ensures p.PartiallyApplied? ==> r.Err? && r.error.cls == NoMethodError
  {
    match p
    case Prepared(s, _, applied) => Construct(s, [], applied)
    case PartiallyApplied(_, _, _) => Err(Error(NoMethodError, "undefined method 'operation'"))
  }

  /**
   * `call(...)`: applies the arguments; a Prepared result constructs and calls the
   * operation, anything else raises MissingParameterError (an ArgumentError).
   */
  function Call(p: Application, positional: seq<Value>, params: Hash): (r: Result<Value, Error>)
    requires UniqueNames(p.operation.params)
    ensures WithPositional(p, positional, params).Err? ==> r == Err(WithPositional(p, positional, params).error)
    ensures WithPositional(p, positional, params).Ok? ==>
      var q := WithPositional(p, positional, params).value;
      (q.Prepared? ==> r == ClassCall(q.operation, q.positional, q.applied)) &&
      (q.PartiallyApplied? ==> r == Err(Error(MissingParameterError, MissingMessage(p.operation))))
  {
    match WithPositional(p, positional, params)
    case Err(e) => Err(e)
    case Ok(q) =>
      match Operation(q)
      case Err(e) => Err(e)
      case Ok(st) => InstanceCall(q.operation, st).result
  }

  /**
   * partially_applied.rb:29-33 as written (keyword arguments only): the error message
   * interpolates `operation_key`, a class method the gem itself does not define, so
   * without it the call raises NoMethodError instead.
   */
  function CallAsWritten(p: Application, params: Hash): (r: Result<Value, Error>)
    requires UniqueNames(p.operation.params)
    ensures With(p, params).Prepared? ==>
      r == ClassCall(p.operation, [], With(p, params).applied)
    ensures With(p, params).PartiallyApplied? && p.operation.operationKey.None? ==>
      r.Err? && r.error.cls == NoMethodError
  {
    var q := With(p, params);
    match q
    case Prepared(_, _, _) =>
      (match OperationAsWritten(q)
       case Err(e) => Err(e)
       case Ok(st) => InstanceCall(q.operation, st).result)
    case PartiallyApplied(s, _, _) =>
      match s.operationKey
      case None => Err(Error(NoMethodError, "undefined method 'operation_key' for " + s.name))
      case Some(_) => Err(Error(MissingParameterError, MissingMessage(s)))
  }

  /** A call that leaves some required parameter missing raises MissingParameterError, which an ArgumentError handler rescues. */
  lemma MissingRaisesArgumentError(p: Application, params: Hash)
    requires UniqueNames(p.operation.params)
    requires WithPositional(p, [], params).Ok? && WithPositional(p, [], params).value.PartiallyApplied?
    ensures Call(p, [], params).Err? && Call(p, [], params).error.cls == MissingParameterError
    ensures Rescues(ArgumentError, Call(p, [], params).error)
  {
    Taxonomy();
  }

  /** `with(a).with(b).call`, once Prepared, is the class-level call with the merged arguments. */
  lemma CallAfterWith(s: Schema, a: Hash, b: Hash)
    requires UniqueNames(s.params) && With(With(New(s, []), a), b).Prepared?
    ensures Call(With(With(New(s, []), a), b), [], []) == ClassCall(s, [], Merge(a, b))
  {
    var p := With(With(New(s, []), a), b);
    WithTwice(New(s, []), a, b);
    MergeEmptyLeft(Merge(a, b));
    MergeEmptyRight(p.applied);
    ApplyNothing(p);
  }

  /** Applying nothing to a classified application gives it back unchanged. */
  lemma ApplyNothing(p: Application)
    requires p == Classify(p.operation, p.positional, p.applied)
    ensures With(p, []) == p
    ensures |p.positional| <= |PositionalParameters(p.operation.params)| ==> WithPositional(p, [], []) == Ok(p)
  {
    MergeEmptyRight(p.applied);
    assert p.positional + [] == p.positional;
  }

  /** `to_proc` (base_test.rb:179-187): each value is applied as the next positional argument and the result called. */
  function ToProc(p: Application): (f: Value -> Result<Value, Error>)
    requires UniqueNames(p.operation.params)
    ensures forall v :: f(v) == Call(p, [v], [])
  {
    v => Call(p, [v], [])
  }

  /** The proc on one value: the partial's positional values and that one, then the call. */
  lemma ToProcValue(p: Application, v: Value)
    requires UniqueNames(p.operation.params)
    ensures |p.positional| >= |PositionalParameters(p.operation.params)| ==>
      ToProc(p)(v).Err? && ToProc(p)(v).error.cls == ArgumentError
    ensures |p.positional| < |PositionalParameters(p.operation.params)| ==>
      var q := Classify(p.operation, p.positional + [v], p.applied);
      (q.Prepared? ==> ToProc(p)(v) == ClassCall(p.operation, p.positional + [v], p.applied)) &&
      (q.PartiallyApplied? ==> ToProc(p)(v) == Err(Error(MissingParameterError, MissingMessage(p.operation))))
  {
    MergeEmptyRight(p.applied);
  }

  /**
   * `values.map(&partial)`: each value is applied after the partial's own positional
   * values and the operation is called once per value, in order. Whether that
   * application is Prepared does not depend on the value: when it is not, or when no
   * positional slot is left, mapping over any values raises on the first.
   */
  lemma MapOverPartial(p: Application, vs: seq<Value>)
    requires UniqueNames(p.operation.params)
    ensures var r := MapProc(ToProc(p), vs);
      r.Ok? ==> (|r.value| == |vs| &&
        forall i :: 0 <= i < |vs| ==>
          Classify(p.operation, p.positional + [vs[i]], p.applied).Prepared? &&
          ClassCall(p.operation, p.positional + [vs[i]], p.applied) == Ok(r.value[i]))
    ensures |p.positional| < |PositionalParameters(p.operation.params)| &&
            (forall i :: 0 <= i < |vs| ==>
               Classify(p.operation, p.positional + [vs[i]], p.applied).Prepared? &&
               ClassCall(p.operation, p.positional + [vs[i]], p.applied).Ok?) ==>
            MapProc(ToProc(p), vs).Ok?
    ensures vs != [] && |p.positional| >= |PositionalParameters(p.operation.params)| ==>
            MapProc(ToProc(p), vs).Err? && MapProc(ToProc(p), vs).error.cls == ArgumentError
    ensures vs != [] && |p.positional| < |PositionalParameters(p.operation.params)| &&
            Classify(p.operation, p.positional + [vs[0]], p.applied).PartiallyApplied? ==>
            MapProc(ToProc(p), vs) == Err(Error(MissingParameterError, MissingMessage(p.operation)))
  {
    var f := ToProc(p);
    var r := MapProc(f, vs);
    forall i | 0 <= i < |vs|
      ensures |p.positional| >= |PositionalParameters(p.operation.params)| ==> f(vs[i]).Err? && f(vs[i]).error.cls == ArgumentError
      ensures |p.positional| < |PositionalParameters(p.operation.params)| ==>
        var q := Classify(p.operation, p.positional + [vs[i]], p.applied);
        (q.Prepared? ==> f(vs[i]) == ClassCall(p.operation, p.positional + [vs[i]], p.applied)) &&
        (q.PartiallyApplied? ==> f(vs[i]) == Err(Error(MissingParameterError, MissingMessage(p.operation))))
      ensures Classify(p.operation, p.positional + [vs[i]], p.applied).Prepared? ==
              Classify(p.operation, p.positional + [vs[0]], p.applied).Prepared?
    {
      ToProcValue(p, vs[i]);
      ClassifyIgnoresValues(p.operation, p.positional, vs[i], vs[0], p.applied);
    }
    if r.Err? {
      var i :| 0 <= i < |vs| && f(vs[i]) == Err(r.error);
    }
  }

  /** Whether an application is Prepared depends on how many positional values it has, not which. */
  lemma ClassifyIgnoresValues(s: Schema, positional: seq<Value>, v: Value, w: Value, args: Hash)
    ensures Classify(s, positional + [v], args).Prepared? == Classify(s, positional + [w], args).Prepared?
  {
  }

  // ----- decomposition

  /** `deconstruct`: the positional values, then the applied keyword values in insertion order. */
  function Deconstruct(p: Application): (vs: seq<Value>)
    ensures |vs| == |p.positional| + |p.applied|
    ensures vs[..|p.positional|] == p.positional
    ensures forall i :: 0 <= i < |p.applied| ==> vs[|p.positional| + i] == p.applied[i].1
  {
    p.positional + Values(p.applied)
  }

  /**
   * The positional values under the names of the parameters they fill, in order.
   * Names are unique, so this is a hash.
   */
  function PositionalEntries(p: Application): (h: Hash)
    requires UniqueNames(p.operation.params)
    ensures Keys(h) == BoundByPosition(p.operation.params, |p.positional|)
    ensures forall i :: 0 <= i < |h| ==> h[i].1 == p.positional[i]
  {
    var names := BoundByPosition(p.operation.params, |p.positional|);
    var h := seq(|names|, i requires 0 <= i < |names| => (names[i], p.positional[i]));
    assert Keys(h) == names;
    FilterMapNamesIsSubsequence(p.operation.params, IsPositional);
    SubsequenceNoDup(PositionalParameters(p.operation.params), Names(p.operation.params));
    h
  }

  /**
   * `deconstruct_keys(keys)`: the applied arguments by name, positional ones under their
   * parameter's name. The requested keys are ignored (partially_applied.rb:39-41).
   */
  function DeconstructKeys(p: Application, keys: Option<seq<string>>): (h: Hash)
    requires UniqueNames(p.operation.params)
    ensures p.positional == [] ==> h == p.applied
    ensures forall k :: HasKey(p.applied, k) ==> HasKey(h, k) && Get(h, k) == Get(p.applied, k)
    ensures forall k :: HasKey(h, k) <==> HasKey(p.applied, k) || k in BoundByPosition(p.operation.params, |p.positional|)
  {
    var positional := PositionalEntries(p);
    if p.positional == [] then
      MergeEmptyLeft(p.applied);
      Merge(positional, p.applied)
    else
      Merge(positional, p.applied)
  }

  /** Whatever keys are requested, `deconstruct_keys` answers the same. */
  lemma DeconstructKeysIgnoresKeys(p: Application, k1: Option<seq<string>>, k2: Option<seq<string>>)
    requires UniqueNames(p.operation.params)
    ensures DeconstructKeys(p, k1) == DeconstructKeys(p, k2)
  {
  }

  /** For a keyword-only application, the values of `deconstruct_keys` in order are `deconstruct`. */
  lemma KeywordViewsAgree(p: Application, keys: Option<seq<string>>)
    requires UniqueNames(p.operation.params) && p.positional == []
    ensures Values(DeconstructKeys(p, keys)) == Deconstruct(p)
  {
  }

  // ----- findings

  /**
   * An application of an operation whose required names are foo, bar and baz, with only
   * foo given (base_test.rb:308-320), when the class does not define `operation_key`:
   * as written, `call` raises NoMethodError, which an ArgumentError handler does not
   * rescue; the corrected `call` raises MissingParameterError, which it does.
   */
  lemma CallWithoutOperationKey(s: Schema, foo: Value)
    requires UniqueNames(s.params) && s.operationKey.None?
    requires RequiredNames(s.params) == ["foo", "bar", "baz"]
    ensures var p := With(New(s, []), Single("foo", foo));
      p.PartiallyApplied? &&
      CallAsWritten(p, []).Err? && CallAsWritten(p, []).error.cls == NoMethodError &&
      !Rescues(ArgumentError, CallAsWritten(p, []).error) &&
      Call(p, [], []).Err? && Call(p, [], []).error.cls == MissingParameterError &&
      Rescues(ArgumentError, Call(p, [], []).error)
  {
    var p := With(New(s, []), Single("foo", foo));
    assert "bar" in RequiredNames(s.params);
    assert !HasKey(p.applied, "bar");
    assert BoundByPosition(s.params, 0) == [];
    ApplyNothing(p);
    Taxonomy();
  }

  /**
   * The same application asked for its `operation` (base_test.rb:304-306): as written
   * PartiallyApplied has no such method and raises NoMethodError; the corrected
   * `operation` raises MissingParameterError.
   */
  lemma OperationOnPartiallyApplied(s: Schema, foo: Value)
    requires UniqueNames(s.params)
    requires RequiredNames(s.params) == ["foo", "bar", "baz"]
    ensures var p := With(New(s, []), Single("foo", foo));
      OperationAsWritten(p).Err? && OperationAsWritten(p).error.cls == NoMethodError &&
      Operation(p).Err? && Operation(p).error.cls == MissingParameterError &&
      Rescues(ArgumentError, Operation(p).error)
  {
    var p := With(New(s, []), Single("foo", foo));
    assert "bar" in RequiredNames(s.params);
    assert !HasKey(p.applied, "bar");
    assert BoundByPosition(s.params, 0) == [];
    Taxonomy();
  }
}

=== FILE: property_builder.dfy ===
/**
 * Normalisation of one parameter declaration
 * (lib/typed_operation/operations/property_builder.rb).
 *
 * The declaration's signature goes through a fixed pipeline: wrap it in Nilable
 * when `optional: true` asks for it, then union it with NilClass when the default
 * is an explicit nil, then (for a positional parameter) check it against the
 * operation's current table. The descriptor then registered stores a
 * nil-producing default for nilable parameters and a converter that skips nil.
 */
module PropertyBuilding {
  import opened Wrappers
  import opened RubyValues
  import opened Errors
  import opened Signatures
  import opened Lists
  import opened Descriptors
  import opened Introspection
  import opened Schemas

  predicate TypeNilable(sig: Signature)
  {
    sig.Nilable?
  }

  predicate NeedsToBeNilable(sig: Signature, optional: bool)
  {
    optional && !TypeNilable(sig)
  }

  /** The `default:` key was given and its value is nil. */
  predicate HasDefaultValueNil(defaultKey: bool, default: DefaultValue)
  {
    defaultKey && default == NoDefault
  }

  /** First step: the Nilable wrap `optional: true` asks for. */
  function WrapNilable(sig: Signature, optional: bool): Signature
  {
    if NeedsToBeNilable(sig, optional) then Nilable(sig) else sig
  }

  /** Second step: `_Union(sig, NilClass)` for an explicit nil default. */
  function UnionWithNil(sig: Signature, defaultKey: bool, default: DefaultValue): Signature
  {
    if HasDefaultValueNil(defaultKey, default) then Union([sig, NilClass]) else sig
  }

  /** The signature after both steps, as the declaration's options determine it. */
  function PreparedSignature(sig: Signature, options: Options): Signature
  {
    UnionWithNil(WrapNilable(sig, options.optional), options.default.Some?, options.default.GetOr(NoDefault))
  }

  /**
   * The declaration-order check, against the table as it stands: a positional
   * parameter whose final signature is not Nilable is refused once any optional
   * positional parameter exists.
   */
  function ValidatePositionalOrder(ps: seq<Param>, name: string, sig: Signature): (r: Outcome<Error>)
    ensures r.Pass? <==> TypeNilable(sig) || OptionalPositionalParameters(ps) == []
    ensures r.Fail? ==> r.error.cls == ParameterError
  {
    if TypeNilable(sig) || OptionalPositionalParameters(ps) == [] then Pass
    else Fail(Error(ParameterError, "Cannot define required positional parameter '" + name +
                                    "' after optional positional parameters"))
  }

  /** The default handed to the library: a proc returning nil, or the raw default (nil when none was given). */
  function DefaultValueForLiteral(sig: Signature, defaultKey: bool, default: DefaultValue): DefaultValue
  {
    if HasDefaultValueNil(defaultKey, default) || TypeNilable(sig) then Producer(Nil) else default
  }

  /** For a Nilable signature the converter is wrapped so that nil and Literal::Null pass through. */
  function CoerceBy(sig: Signature, converter: Option<Value -> Value>): Option<Value -> Value>
  {
    if TypeNilable(sig) && converter.Some? then
      Some((v: Value) => if v == Null || v == Nil then v else converter.value(v))
    else converter
  }

  /** The descriptor a declaration registers, given its converter and writer. */
  function Descriptor(name: string, sig: Signature, options: Options,
                      coerce: Option<Value -> Value>, writer: Writer): Param
  {
    var final := PreparedSignature(sig, options);
    Param(name, final, if options.positional then Positional else Keyword,
          DefaultValueForLiteral(final, options.default.Some?, options.default.GetOr(NoDefault)),
          options.reader.GetOr(Public), writer, coerce)
  }

  /** The whole outcome of `param`: the descriptor appended, or the ParameterError raised. */
  function Declaration(ps: seq<Param>, name: string, sig: Signature, options: Options,
                       converter: Option<Value -> Value>, writer: Writer): Result<Param, Error>
  {
    var final := PreparedSignature(sig, options);
    var check := if options.positional then ValidatePositionalOrder(ps, name, final) else Pass;
    match check
    case Fail(e) => Err(e)
    case Pass => Ok(Descriptor(name, sig, options, CoerceBy(final, converter), writer))
  }

  class PropertyBuilder {
    const typedOperation: OperationClass
    const name: string
    var signature: Signature
    const optional: bool
    const positional: bool
    const reader: Visibility
    const defaultKey: bool
    const default: DefaultValue

    /** Records the declaration; the signature is prepared separately. */
    constructor (typedOperation: OperationClass, name: string, signature: Signature, options: Options)
      ensures this.typedOperation == typedOperation && this.name == name && this.signature == signature
      ensures optional == options.optional && positional == options.positional
      ensures reader == options.reader.GetOr(Public)
      ensures defaultKey == options.default.Some? && default == options.default.GetOr(NoDefault)
    {
      this.typedOperation := typedOperation;
      this.name := name;
      this.signature := signature;
      optional := options.optional;
      positional := options.positional;
      reader := options.reader.GetOr(Public);
      defaultKey := options.default.Some?;
      default := options.default.GetOr(NoDefault);
    }

    method PrepareTypeSignatureForLiteral() returns (r: Outcome<Error>)
      modifies this`signature
      ensures signature == UnionWithNil(WrapNilable(old(signature), optional), defaultKey, default)
      ensures r == if positional then ValidatePositionalOrder(typedOperation.params, name, signature) else Pass
    {
      if NeedsToBeNilable(signature, optional) {
        signature := Nilable(signature);
      }
      UnionWithNilToSupportNilDefault();
      r := Pass;
      if positional {
        r := ValidatePositionalOrderParams();
      }
    }

    method UnionWithNilToSupportNilDefault()
      modifies this`signature
      ensures signature == UnionWithNil(old(signature), defaultKey, default)
      ensures HasDefaultValueNil(defaultKey, default) ==> Matches(signature, Nil)
    {
      if HasDefaultValueNil(defaultKey, default) {
        signature := Union([signature, NilClass]);
        UnionOfTwo(old(signature), NilClass, Nil);
        NilClassMatchesNil();
      }
    }

    method ValidatePositionalOrderParams() returns (r: Outcome<Error>)
      ensures r == ValidatePositionalOrder(typedOperation.params, name, signature)
    {
      if TypeNilable(signature) || OptionalPositionalParameters(typedOperation.params) == [] {
        r := Pass;
      } else {
        r := Fail(Error(ParameterError, "Cannot define required positional parameter '" + name +
                                        "' after optional positional parameters"));
      }
    }

    /** Registers the prepared declaration on the operation through `prop`. */
    method Define(converter: Option<Value -> Value>)
      requires typedOperation.Valid()
      modifies typedOperation`params
      ensures typedOperation.Valid()
      ensures typedOperation.params == Register(old(typedOperation.params),
        Param(name, signature, if positional then Positional else Keyword,
              DefaultValueForLiteral(signature, defaultKey, default), reader,
              WriterFor(typedOperation.base), CoerceBy(signature, converter)))
    {
      var coerceBy := CoerceBy(signature, converter);
      typedOperation.Prop(name, signature, if positional then Positional else Keyword,
                          DefaultValueForLiteral(signature, defaultKey, default), reader, coerceBy);
    }
  }

  /** `PropertyBuilder.new`: records the declaration and prepares its signature, raising if the check fails. */
  method NewPropertyBuilder(typedOperation: OperationClass, name: string, signature: Signature, options: Options)
    returns (r: Result<PropertyBuilder, Error>)
    ensures r.Ok? ==> fresh(r.value)
    ensures r.Ok? ==> r.value.typedOperation == typedOperation && r.value.name == name
    ensures r.Ok? ==> r.value.signature == PreparedSignature(signature, options)
    ensures r.Ok? ==> r.value.optional == options.optional && r.value.positional == options.positional
    ensures r.Ok? ==> r.value.reader == options.reader.GetOr(Public)
    ensures r.Ok? ==> r.value.defaultKey == options.default.Some?
    ensures r.Ok? ==> r.value.default == options.default.GetOr(NoDefault)
    ensures r.Err? <==> Declaration(typedOperation.params, name, signature, options, None, NoWriter).Err?
    ensures r.Err? ==> r.error == Declaration(typedOperation.params, name, signature, options, None, NoWriter).error
    ensures r.Err? ==> r.error.cls == ParameterError
  {
    var b := new PropertyBuilder(typedOperation, name, signature, options);
    var check := b.PrepareTypeSignatureForLiteral();
    match check
    case Fail(e) => r := Err(e);
    case Pass => r := Ok(b);
  }

  // ----- properties of the normalisation

  /**
   * `optional: true` wraps at most once: the result accepts nil and everything
   * the declared signature accepts, and wrapping again changes nothing.
   */
  lemma NilableWrapNeverNests(sig: Signature, optional: bool, v: Value)
    ensures var w := WrapNilable(sig, optional);
            (optional ==> TypeNilable(w)) &&
            WrapNilable(w, optional) == w &&
            (w.Nilable? && w.inner.Nilable? ==> w == sig) &&
            (Matches(w, v) <==> Matches(sig, v) || (optional && v == Nil))
  {
  }

  /**
   * An explicit `default: nil` makes the signature accept nil on top of what it
   * accepted; leaving out `default:` or giving a non-nil default leaves it alone.
   */
  lemma NilDefaultWidensSignature(sig: Signature, defaultKey: bool, default: DefaultValue, v: Value)
    ensures HasDefaultValueNil(defaultKey, default) ==> Matches(UnionWithNil(sig, defaultKey, default), Nil)
    ensures HasDefaultValueNil(defaultKey, default) ==>
              (Matches(UnionWithNil(sig, defaultKey, default), v) <==> Matches(sig, v) || Matches(NilClass, v))
    ensures !HasDefaultValueNil(defaultKey, default) ==> UnionWithNil(sig, defaultKey, default) == sig
  {
    UnionOfTwo(sig, NilClass, v);
    UnionOfTwo(sig, NilClass, Nil);
    NilClassMatchesNil();
  }

  /**
   * A declared parameter is required exactly when it has no `default:`, is not
   * `optional: true` and its signature is not already Nilable.
   */
  lemma RequiredIffNoDefaultAndNotNilable(name: string, sig: Signature, options: Options,
                                          coerce: Option<Value -> Value>, writer: Writer)
    ensures IsRequired(Descriptor(name, sig, options, coerce, writer)) <==>
            options.default.None? && !options.optional && !sig.Nilable?
  {
  }

  /**
   * What an omitted optional parameter ends up holding: nil when it is Nilable or
   * has an explicit nil default (a value its signature accepts), otherwise its default.
   */
  lemma OmittedValueIsNilOrDefault(name: string, sig: Signature, options: Options,
                                   coerce: Option<Value -> Value>, writer: Writer)
    ensures var p := Descriptor(name, sig, options, coerce, writer);
            (TypeNilable(p.signature) || options.default == Some(NoDefault)) ==>
              p.default == Producer(Nil) && Matches(p.signature, Nil)
    ensures var p := Descriptor(name, sig, options, coerce, writer);
            !TypeNilable(p.signature) && options.default != Some(NoDefault) ==>
              p.default == options.default.GetOr(NoDefault)
  {
    var w := WrapNilable(sig, options.optional);
    NilDefaultWidensSignature(w, options.default.Some?, options.default.GetOr(NoDefault), Nil);
  }

  /**
   * For a Nilable signature the registered converter leaves nil and Literal::Null
   * alone and applies the block to anything else; otherwise the block is used as given.
   */
  lemma ConverterSkipsNil(sig: Signature, converter: Option<Value -> Value>, v: Value)
    ensures !TypeNilable(sig) || converter.None? ==> CoerceBy(sig, converter) == converter
    ensures TypeNilable(sig) && converter.Some? ==>
              CoerceBy(sig, converter).Some? &&
              CoerceBy(sig, converter).value(Nil) == Nil &&
              CoerceBy(sig, converter).value(Null) == Null &&
              (v != Nil && v != Null ==> CoerceBy(sig, converter).value(v) == converter.value(v))
  {
  }

  /**
   * The order check: a required positional parameter is refused after an optional
   * positional one; a parameter declared optional or with a Nilable signature is
   * accepted whatever precedes it.
   */
  lemma RequiredPositionalAfterOptionalRefused(ps: seq<Param>, i: nat, name: string, sig: Signature,
                                               options: Options, converter: Option<Value -> Value>, writer: Writer)
    requires UniqueNames(ps) && i < |ps| && IsPositional(ps[i]) && !IsRequired(ps[i])
    requires options.positional && options.default.None? && !options.optional && !sig.Nilable?
    ensures Declaration(ps, name, sig, options, converter, writer).Err?
    ensures Declaration(ps, name, sig, options, converter, writer).error.cls == ParameterError
  {
    OptionalPositionalSplit(ps);
    assert ps[i].name in OptionalPositionalParameters(ps);
    assert PreparedSignature(sig, options) == sig;
  }

  lemma NilablePositionalAccepted(ps: seq<Param>, name: string, sig: Signature, options: Options,
                                  converter: Option<Value -> Value>, writer: Writer)
    requires options.optional || sig.Nilable?
    requires options.default.None? || options.default.value != NoDefault
    ensures Declaration(ps, name, sig, options, converter, writer).Ok?
  {
  }

  /**
   * Declaring through the check keeps the table's order rule: no required positional
   * parameter after an optional one.
   */
  lemma DeclarationKeepsPositionalOrder(ps: seq<Param>, name: string, sig: Signature, options: Options,
                                        converter: Option<Value -> Value>, writer: Writer)
    requires UniqueNames(ps) && PositionalOrderHolds(ps)
    requires Declaration(ps, name, sig, options, converter, writer).Ok?
    ensures PositionalOrderHolds(ps + [Declaration(ps, name, sig, options, converter, writer).value])
  {
    var p := Declaration(ps, name, sig, options, converter, writer).value;
    var qs := ps + [p];
    if IsPositional(p) && IsRequired(p) {
      OptionalPositionalSplit(ps);
      assert OptionalPositionalParameters(ps) == [];
    }
    forall i, j | 0 <= i < j < |qs| && IsPositional(qs[i]) && IsPositional(qs[j]) && !IsRequired(qs[i])
      ensures !IsRequired(qs[j])
    {
      assert qs[i] == ps[i];
      if j < |ps| {
        assert qs[j] == ps[j];
      }
    }
  }

  /**
   * The check is stricter than "no required after optional": a positional parameter
   * with a non-nil default is optional, yet it is refused after an optional positional
   * parameter because its signature is not Nilable; an explicit `default: nil` (whose
   * signature becomes a Union, not a Nilable) is refused too.
   */
  lemma DefaultedPositionalAfterOptionalRefused(ps: seq<Param>, name: string, sig: Signature, d: DefaultValue,
                                                converter: Option<Value -> Value>, writer: Writer)
    requires OptionalPositionalParameters(ps) != [] && !sig.Nilable?
    ensures var options := Options(false, true, None, Some(d));
            !IsRequired(Descriptor(name, sig, options, None, writer)) &&
            Declaration(ps, name, sig, options, converter, writer).Err?
  {
  }

  /**
   * `optional: true` together with `default: nil` yields Union([Nilable(sig), NilClass]),
   * which is not a Nilable, so the converter is registered unwrapped and also runs on nil.
   */
  lemma OptionalWithNilDefaultConvertsNil(ps: seq<Param>, name: string, sig: Signature,
                                          converter: Value -> Value, writer: Writer)
    requires !sig.Nilable?
    ensures var options := Options(true, false, None, Some(NoDefault));
            var r := Declaration(ps, name, sig, options, Some(converter), writer);
            r.Ok? && r.value.signature == Union([Nilable(sig), NilClass]) &&
            r.value.coerce == Some(converter)
  {
  }
}

=== FILE: schemas.dfy ===
/**
 * An operation class and its parameter table. Declaring a parameter registers a
 * descriptor in the class's ordered table, a Hash keyed by name (`prop`, lib/typed_operation/operations/parameters.rb,
 * and `attribute`, lib/typed_operation/base.rb); everything else reads the table
 * through `AsSchema`.
 */
module Schemas {
  import opened Wrappers
  import opened RubyValues
  import opened Signatures
  import opened Lists
  import opened Descriptors

  /**
   * The writer a declared property gets: `Base` always passes `writer: false`;
   * `ImmutableBase` leaves the library's default.
   */
  function WriterFor(base: BaseKind): (w: Writer)
    ensures w == NoWriter <==> base == MutableBase
  {
    match base
    case MutableBase => NoWriter
    case ImmutableBase => DefaultWriter
  }

  class OperationClass {
    const name: string
    const base: BaseKind
    const hooks: Hooks
    const operationKey: Option<string>
    var params: seq<Param>

    /** Names are distinct, and a mutable operation has no attribute writers. */
    predicate Valid()
      reads this
    {
      UniqueNames(params) &&
      (base == MutableBase ==> forall i :: 0 <= i < |params| ==> params[i].writer == NoWriter)
    }

    function AsSchema(): Schema
      reads this
    {
      Schema(name, params, base, hooks, operationKey)
    }

    constructor (name: string, base: BaseKind, hooks: Hooks, operationKey: Option<string>)
      ensures Valid() && params == []
      ensures this.name == name && this.base == base && this.hooks == hooks
      ensures this.operationKey == operationKey
    {
      this.name := name;
      this.base := base;
      this.hooks := hooks;
      this.operationKey := operationKey;
      params := [];
    }

    /** `prop`: registers a property of the given kind, with the base's writer policy. */
    method Prop(name: string, signature: Signature, kind: Kind, default: DefaultValue,
                reader: Visibility, coerce: Option<Value -> Value>)
      requires Valid()
      modifies this`params
      ensures Valid()
      ensures params == Register(old(params), Param(name, signature, kind, default, reader, WriterFor(base), coerce))
    {
      params := Register(params, Param(name, signature, kind, default, reader, WriterFor(base), coerce));
    }

    /** `attribute`: the older registration, positional given as a flag; `Base` forces the writer off. */
    method Attribute(name: string, signature: Signature, positional: bool, default: DefaultValue,
                     reader: Visibility, coerce: Option<Value -> Value>)
      requires Valid()
      modifies this`params
      ensures Valid()
      ensures params == Register(old(params),
        Param(name, signature, if positional then Positional else Keyword, default, reader, WriterFor(base), coerce))
    {
      var kind := if positional then Positional else Keyword;
      params := Register(params, Param(name, signature, kind, default, reader, WriterFor(base), coerce));
    }
  }

  /**
   * Storing a descriptor under its name, as Hash assignment does: a new name is
   * appended at the end; a name already declared keeps its place and its entry is
   * replaced by the new descriptor.
   */
  function Register(ps: seq<Param>, p: Param): (r: seq<Param>)
    ensures p.name !in Names(ps) ==> r == ps + [p]
    ensures p.name in Names(ps) ==> |r| == |ps| && Names(r) == Names(ps)
    ensures p.name in Names(ps) ==> forall i :: 0 <= i < |ps| ==> r[i] == (if ps[i].name == p.name then p else ps[i])
    ensures UniqueNames(ps) ==> UniqueNames(r)
    ensures p in r && forall q :: q in r ==> q == p || q in ps
  {
    if p.name in Names(ps) then
      var r := seq(|ps|, i requires 0 <= i < |ps| => if ps[i].name == p.name then p else ps[i]);
      assert Names(r) == Names(ps);
      var k :| 0 <= k < |ps| && Names(ps)[k] == p.name;
      assert r[k] == p;
      r
    else
      AppendFreshName(ps, p);
      ps + [p]
  }

  lemma AppendFreshName(ps: seq<Param>, p: Param)
    requires p.name !in Names(ps)
    ensures UniqueNames(ps) ==> UniqueNames(ps + [p])
    ensures Names(ps + [p]) == Names(ps) + [p.name]
  {
    assert Names(ps + [p]) == Names(ps) + [p.name];
  }
}

=== FILE: signatures.dfy ===
/**
 * Type signatures as the Literal type library sees them: anything, a class,
 * a union of signatures, or a Nilable wrapper (`Literal::Types::NilableType`).
 */
module Signatures {
  import opened RubyValues

  datatype Signature =
    | Any
    | Concrete(tag: string)
    | Union(members: seq<Signature>)
    | Nilable(inner: Signature)

  /** The signature `NilClass`, which only nil satisfies among the built-in values. */
  const NilClass: Signature := Concrete("NilClass")

  /** Whether v satisfies sig (Literal's `===` check). */
  predicate Matches(sig: Signature, v: Value)
  {
    match sig
    case Any => true
    case Concrete(tag) => tag in Ancestors(v)
    case Union(ms) => exists i :: 0 <= i < |ms| && Matches(ms[i], v)
    case Nilable(inner) => v == Nil || Matches(inner, v)
  }

  lemma NilClassMatchesNil()
    ensures Matches(NilClass, Nil)
    ensures forall s: string :: !Matches(NilClass, Str(s))
    ensures forall i: int :: !Matches(NilClass, Int(i))
  {
    assert Ancestors(Nil)[0] == "NilClass";
    forall s: string
      ensures !Matches(NilClass, Str(s))
    {
      assert "NilClass" != "String" && "NilClass" != "Comparable" && "NilClass" != "Object";
    }
    forall i: int
      ensures !Matches(NilClass, Int(i))
    {
      assert "NilClass" != "Integer" && "NilClass" != "Numeric";
      assert "NilClass" != "Comparable" && "NilClass" != "Object";
    }
  }

  /** A union accepts exactly what one of its members accepts. */
  lemma UnionOfTwo(a: Signature, b: Signature, v: Value)
    ensures Matches(Union([a, b]), v) <==> Matches(a, v) || Matches(b, v)
  {
    if Matches(a, v) {
      assert Matches([a, b][0], v);
    }
    if Matches(b, v) {
      assert Matches([a, b][1], v);
    }
  }
}

=== FILE: values.dfy ===
/** The Ruby values a parameter can hold, as far as the model needs to tell them apart. */
module RubyValues {

  /**
   * Nil is Ruby's nil and Null is Literal::Null (the library's "no value given"
   * marker); Obj is any other object, described by its class and ancestor chain.
   */
  datatype Value = Nil | Null | Str(s: string) | Int(i: int) | Obj(ancestry: seq<string>)

  /** The class of v followed by its ancestors: what a class signature tests with `===`. */
  function Ancestors(v: Value): seq<string>
  {
    match v
    case Nil => ["NilClass", "Object"]
    case Null => ["Literal::Null", "Object"]
    case Str(_) => ["String", "Comparable", "Object"]
    case Int(_) => ["Integer", "Numeric", "Comparable", "Object"]
    case Obj(a) => a
  }
}

=== FILE: wrappers.dfy ===
/**
 * Option, Result and Outcome, the three ways an operation of the model
 * reports "nothing", "a value or an error" and "done or an error".
 * Result carries the members the `:-` operator needs.
 */
module Wrappers {

  datatype Option<+T> = None | Some(value: T)
  {
    function GetOr(default: T): T
    {
      match this
      case Some(v) => v
      case None => default
    }
  }

  datatype Result<+T, +E> = Ok(value: T) | Err(error: E)
  {
    predicate IsFailure()
    {
      Err?
    }

    function PropagateFailure<U>(): Result<U, E>
      requires Err?
    {
      Err(error)
    }

    function Extract(): T
      requires Ok?
    {
      value
    }
  }

  /** A step that either succeeds without a value or raises. */
  datatype Outcome<+E> = Pass | Fail(error: E)
}
